=== FILE: README.md ===
# CS2KZ mapping tools: a verified model of the skybox stitcher and its neighbours

This project models, in Dafny, the decision logic of the CS2KZ mapping tools:
a set of Python helpers that prepare assets for Counter-Strike 2 maps.

The centre of the model is the older skybox tool. It identifies the six cube
faces a user picks by their file names (`_up`, `_lf`, `_pz` and so on),
remaps them with the default transform table, and pastes them into one
4 x 3 cross-shaped PNG. It can also write the material files
`skybox_<base>.vmat` and `moondome_<base>.vmat`, which use the `sky.vfx` and
`csgo_moondome.vfx` shaders and point at that PNG.

Around it sit the smaller pure cores of the other tools:

- the point_worldtext glyph sheet: cutting the sheet into glyph files, naming them, and laying out text;
- the sound manager: the internal-sound listing and filters, the preview cache, the pitch and loop controls, and the soundevents file;
- the newer skybox window: install-root detection, the face-suffix prefix, and the start checks;
- the settings manager;
- the Source2Viewer updater's version logic and version cache;
- the application self-updater;
- the theme manager;
- the loading-screen creator;
- the VTF-to-PNG batch converter.

The modules follow the program's files:

| module | file | what it holds |
|---|---|---|
| `Wrappers` | wrappers.dfy | `Option` and `Result` |
| `Text` | text.dfy | ASCII string operations Python provides (`lower`, `strip`, `split`, `in`, `rfind`, `str(int)`, hex) |
| `Paths` | paths.dfy | POSIX `basename`, `dirname`, `splitext`, `join` |
| `Sorting` | sorting.dfy | `sorted` with a key, as a stable sorted permutation |
| `Raster` | raster.dfy | RGBA images, `Image.new`, `paste`, and resampling filters described by the size they produce |
| `SkyboxFaces` | skybox_faces.dfy | face identification and the transform table |
| `SkyboxStitch` | skybox_stitch.dfy | loading, fitting and pasting the faces |
| `SkyboxVmat` | skybox_vmat.dfy | the material files and `main` |
| `GlyphSheet` | glyph_sheet.dfy | `extract_characters` |
| `TextLayout` | text_layout.dfy | `stitch_text` and the resolution check |
| `SoundList` | sound_list.dfy | internal-sound listing, filters, preview cache, soundevents |
| `SoundControls` | sound_controls.dfy | pitch, loop handles, playback cursor, bitrate and distance sliders |
| `Settings` | settings.dfy | `SettingsManager` |
| `SkyboxGui` | skybox_gui.dfy | the newer skybox window |
| `S2vUpdater` | s2v_updater.dfy | the Source2Viewer updater |
| `UpdateChecker` | update_checker.dfy | the application self-updater |
| `Theme` | theme.dfy | `ThemeManager` |
| `LoadingScreen` | loading_screen.dfy | the loading-screen creator |
| `Vtf2Png` | vtf2png.dfy | the VTF-to-PNG converter |

Dialogs, the file system, the network, clocks, image decoding and
resampling, and child processes are all inputs. They appear as parameters:
the answer a dialog gave, a directory listing, a decoder function, a
`write` function that says whether a write raised, a clock reading. Each
operation is a pure function of those inputs.

## Model

| member | source | states |
|---|---|---|
| SkyboxFaces.TargetSlotsAreAllSlots | scripts/skybox_gui_old.py:29 | the paste order names each of the six faces exactly once |
| SkyboxFaces.FirstMatch | scripts/skybox_gui_old.py:94-117 | a file takes the first face, in TARGET_SLOTS order, one of whose patterns occurs in its name; it takes none only when no face's patterns occur |
| SkyboxFaces.ScanFilesCorrect | scripts/skybox_gui_old.py:90-120 | the matching loop completes exactly when no face is claimed by two files; it then holds every matched file with its face, and the base names of the unmatched files, in selection order |
| SkyboxFaces.DuplicateReportsFirstClash | scripts/skybox_gui_old.py:107-114 | a duplicate aborts the selection at the first file whose face an earlier file already took, naming that face |
| SkyboxFaces.MatchedSlots | scripts/skybox_gui_old.py:107-117 | the faces assigned are exactly the faces some selected file matches |
| SkyboxFaces.MatchedOrigin | scripts/skybox_gui_old.py:90-117 | every assignment pairs a selected file with the face its name matches first |
| SkyboxFaces.SixAssignmentsClaimAll | scripts/skybox_gui_old.py:123 | without duplicates, six assignments means every face is covered |
| SkyboxFaces.SelectSucceedsExactly | scripts/skybox_gui_old.py:78-136 | the selection is accepted exactly for six files with no face taken twice and every face taken; a cancelled or wrong-sized selection is refused |
| SkyboxFaces.SelectedFilesComeFromSelection | scripts/skybox_gui_old.py:115 | every file of an accepted selection is one the user picked |
| SkyboxFaces.SelectedFilesMatchTheirSlots | scripts/skybox_gui_old.py:107-115 | each face of an accepted selection is paired with a file whose name matches that face first |
| SkyboxFaces.IncompleteReport | scripts/skybox_gui_old.py:123-134 | an incomplete six-file selection reports exactly the missing faces in TARGET_SLOTS order and the unmatched base names in selection order |
| SkyboxFaces.MissingSlots | scripts/skybox_gui_old.py:124 | the missing faces are those no file took, in TARGET_SLOTS order |
| SkyboxFaces.DefaultTransformIsPermutation | scripts/skybox_gui_old.py:33-40 | no rule rotates or flips; the horizontal faces are exchanged in pairs, so the source map is an involution; only up and down keep their own image |
| SkyboxStitch.CellsPartition | scripts/skybox_gui_old.py:364-376 | the six cells lie inside the 4b x 3b canvas and never overlap |
| SkyboxStitch.CornersOutsideCells | scripts/skybox_gui_old.py:369-376 | the canvas corners beside the cross belong to no cell |
| SkyboxStitch.PasteCellsPixel | scripts/skybox_gui_old.py:381-402 | after pasting in order, a pixel shows the last face that covers it, or the blank canvas when none does |
| SkyboxStitch.LoadFaceAsWritten | scripts/skybox_gui_old.py:346-355 | as written, a `.vtf` face always fails with the undefined-name error; any other file loads exactly when the decoder succeeds |
| SkyboxStitch.LoadFace | scripts/skybox_gui_old.py:346-355 | a `.vtf` face fails with the missing-library error when no VTF decoder exists, and loads exactly when that decoder succeeds otherwise |
| SkyboxStitch.LoadersAgreeOffVtf | scripts/skybox_gui_old.py:346-355 | the as-written and corrected loaders agree on every non-VTF path |
| SkyboxStitch.LoadImages | scripts/skybox_gui_old.py:344-357 | loading succeeds exactly when every file loads, and then has one image per face; a failure carries the error of a file that failed |
| SkyboxStitch.FitAsWritten | scripts/skybox_gui_old.py:389-390 | as written, only a face whose width differs from the base size is resized, to b by b; a face of the right width is kept whatever its height |
| SkyboxStitch.Fit | scripts/skybox_gui_old.py:389-390 | the corrected fit makes every face b by b and keeps a face that already is |
| SkyboxStitch.FitCells | scripts/skybox_gui_old.py:381-390 | the paste list exists exactly when each target's source face was loaded; otherwise the error names a missing source face |
| SkyboxStitch.TargetCells | scripts/skybox_gui_old.py:381-386 | with all faces loaded, the paste list is the six targets in order, each with its source face fitted |
| SkyboxStitch.AssembleFillsCells | scripts/skybox_gui_old.py:363-402 | a pixel inside a face's cell shows that face's source image at the matching offset |
| SkyboxStitch.AssembleClearsOutside | scripts/skybox_gui_old.py:366 | a pixel outside the six cells stays transparent |
| SkyboxStitch.AssembleCorrect | scripts/skybox_gui_old.py:360-402 | with the corrected fit, every pixel of the 4b x 3b result is either its cell's source face or transparent |
| SkyboxStitch.AssembleAsWrittenSpills | scripts/skybox_gui_old.py:389-402 | as written, a back face of the right width but taller than a cell shows through in the bottom-left corner |
| SkyboxStitch.AssembleKeepsCornerClear | scripts/skybox_gui_old.py:389-402 | with the corrected fit, the same corner stays transparent |
| SkyboxStitch.StitchAsWrittenRejectsVtf | scripts/skybox_gui_old.py:346-351 | as written, any selection with a `.vtf` face fails to stitch |
| SkyboxStitch.ComposeSucceedsExactly | scripts/skybox_gui_old.py:340-366 | with every face present, composing succeeds exactly when every file loads, giving a canvas four by three cells of the first file's width |
| SkyboxStitch.StitchSucceedsExactly | scripts/skybox_gui_old.py:335-414 | the stitch reports success exactly when composing and saving succeed, with the resolution in its message; otherwise it reports the error |
| SkyboxVmat.TexturePath | scripts/skybox_gui_old.py:287-291 | the engine path is exactly `materials/skybox/` followed by the PNG's file name, with nothing between them |
| SkyboxVmat.Embedded | scripts/skybox_gui_old.py:201-277 | reading a material back through its template gives the texture it was made with, and nothing for text that is not an instance of the template |
| SkyboxVmat.MaterialsEmbedTexture | scripts/skybox_gui_old.py:201-277 | each material names exactly the texture path it was generated from |
| SkyboxVmat.MaterialsDiffer | scripts/skybox_gui_old.py:203-228 | a skybox material never equals a moondome material |
| SkyboxVmat.Chosen | scripts/skybox_gui_old.py:294-306 | one material per ticked box, skybox first |
| SkyboxVmat.WriteInOrder | scripts/skybox_gui_old.py:293-309 | the paths written are a prefix of the plan, each one written successfully, stopping at the first write that raises |
| SkyboxVmat.WriteInOrderAll | scripts/skybox_gui_old.py:293-311 | every requested file is created exactly when every write succeeds |
| SkyboxVmat.VmatNamesTexture | scripts/skybox_gui_old.py:285-304 | `skybox_<stem>.vmat` and `moondome_<stem>.vmat` both name the stitched PNG |
| SkyboxVmat.RequestedShape | scripts/skybox_gui_old.py:281-306 | the requested files are one per choice, skybox first, each naming the stitched PNG |
| SkyboxVmat.CreateVmatFiles | scripts/skybox_gui_old.py:281-282 | asking for neither material creates nothing |
| SkyboxVmat.CreateVmatFilesCorrect | scripts/skybox_gui_old.py:279-311 | the created files are a prefix of the requested ones, all of them exactly when every write succeeds, each naming the stitched PNG |
| SkyboxVmat.RunMain | scripts/skybox_gui_old.py:416-458 | a failed selection exits with 1 and a cancelled output with 0 before stitching; materials are written only after a successful stitch; the exit code is 0 exactly on success; a failure shows the stitcher's message |
| Raster.Blank | scripts/skybox_gui_old.py:366 | a new canvas has the requested size |
| Raster.BlankPixel | scripts/skybox_gui_old.py:366 | every pixel of a new canvas has the fill colour |
| Raster.PastePixel | scripts/skybox_gui_old.py:402 | a pasted pixel shows the source where the source lies over it, and keeps the destination elsewhere |
| GlyphSheet.Segment | scripts/pointworldtext.py:63-80 | the row scan gives exactly the maximal runs of content lines, in order, each closed at the next empty line or at the bottom |
| GlyphSheet.ScanRow | scripts/pointworldtext.py:64-70 | a row holds content exactly when some pixel of it has a colour channel below 250 |
| GlyphSheet.ScanColumn | scripts/pointworldtext.py:104-109 | a column of a row band holds content exactly when some pixel of it in the band has a colour channel below 250 |
| GlyphSheet.RowFlags | scripts/pointworldtext.py:63-70 | one content flag per row of the sheet |
| GlyphSheet.ColumnFlags | scripts/pointworldtext.py:103-109 | one content flag per column of a band |
| GlyphSheet.Whiten | scripts/pointworldtext.py:129-136 | content pixels are kept, and only pixels with all three colour channels above 250 become transparent white |
| GlyphSheet.WhitenProperties | scripts/pointworldtext.py:129-136 | whitening twice is whitening once; a pixel at exactly 250 is neither content nor whitened |
| GlyphSheet.NameRoundTrip | scripts/pointworldtext.py:141-152 | the key read back from a glyph's file name is the glyph's name, for a digit, a symbol, a lower-case letter or a doubled letter |
| GlyphSheet.EncodeInjective | scripts/pointworldtext.py:141-154 | distinct glyphs are saved under distinct file names |
| GlyphSheet.CharRowsRoundTrip | scripts/pointworldtext.py:83-88 | every name of the four sheet rows round-trips through its file name |
| GlyphSheet.CutImage | scripts/pointworldtext.py:126 | a cut glyph has the size of its box |
| GlyphSheet.ExtractCharacters | scripts/pointworldtext.py:90-155 | the row runs are the sheet's runs of content rows; at most four rows are used; glyph k of row r is cut from column run k of row run r, whitened, and saved under its encoded name |
| GlyphSheet.ExtractedFilesDecode | scripts/pointworldtext.py:138-155 | every saved glyph file ends in `.png` and decodes back to its glyph's name |
| TextLayout.LookupKey | scripts/pointworldtext.py:210-213 | an upper-case letter is looked up under its doubled lower-case letter, anything else under itself |
| TextLayout.FileKey | scripts/pointworldtext.py:162-186 | only `.png` files whose stem decodes to a key provide a glyph |
| TextLayout.FileKeyReadsExtracted | scripts/pointworldtext.py:141-186 | the file a glyph is saved under provides exactly that glyph's name as its key |
| TextLayout.LoadGlyphs | scripts/pointworldtext.py:161-192 | the loaded keys are exactly those some listed file provides and opens; each comes from the last such file |
| TextLayout.LoadKeyedLast | scripts/pointworldtext.py:187-192 | a later file for the same key replaces an earlier one |
| TextLayout.LineHeight | scripts/pointworldtext.py:218-221 | a line is as tall as its tallest known glyph, and 0 without glyphs |
| TextLayout.SpaceWidth | scripts/pointworldtext.py:224 | a space is half the line height rounded down, or 25 on a line without glyphs |
| TextLayout.LayoutLines | scripts/pointworldtext.py:204-247 | one layout per line of the text |
| TextLayout.MaxWidth | scripts/pointworldtext.py:246 | the block is as wide as its widest line |
| TextLayout.LayoutText | scripts/pointworldtext.py:194-254 | there is no block exactly when every line has width 0 or the total height is 0; otherwise the block lays out each line of the text, is as wide as its widest line, and is as tall as the line heights plus a 10-pixel gap between neighbouring lines |
| TextLayout.PlaceLine | scripts/pointworldtext.py:266-278 | only known glyphs are pasted, all on the line's own row |
| TextLayout.PlaceLineInside | scripts/pointworldtext.py:266-278 | every glyph of a line lies between the pen's start and the line's end, and is no taller than the line |
| TextLayout.PlaceLinesInside | scripts/pointworldtext.py:260-280 | every glyph of line k lies in that line's box, below the earlier lines and their gaps |
| TextLayout.PlacementsInsideBlock | scripts/pointworldtext.py:257-280 | every glyph pasted lies inside the native-size block |
| TextLayout.LookupFindsExtractedFile | scripts/pointworldtext.py:141-189 | every character's lookup key is a glyph name whose extracted file loads back under that key |
| TextLayout.PasteOffset | scripts/pointworldtext.py:303-304 | the scaled text is centred, rounding down, and never placed left of or above the canvas |
| TextLayout.ValidResolutionsArePowersOfTwo | scripts/pointworldtext.py:383 | the offered sizes are exactly the powers of two from 8 to 8192 |
| TextLayout.CheckMakeImage | scripts/pointworldtext.py:791-816 | text of only newlines is refused; sizes that are not integers or not offered are refused, and only the offending size is reset to 1024; otherwise the text without trailing newlines and both sizes go ahead |
| SoundList.ReplaceChar | scripts/sounds.py:449 | each occurrence of the character is replaced and nothing else changes |
| SoundList.ListedRoundTrip | scripts/sounds.py:350-359 | a compiled sound under `sounds/` is listed as its path without folder and extension, by both listings |
| SoundList.PreviewRoundTrip | scripts/sounds.py:350-359 | the preview extracts exactly the entry a listed name came from |
| SoundList.PreviewPath | scripts/sounds.py:447-449 | the preview looks under `sounds/` for a `.vsnd_c` file |
| SoundList.ListedName | scripts/sounds.py:350-358 | the corrected listing keeps only compiled sounds under the top-level `sounds/` folder |
| SoundList.ListedOutsideSoundsFolder | scripts/sounds.py:353-358 | as written, a compiled sound in a nested `sounds` folder is listed under its full path, which the preview cannot find; the corrected listing leaves it out |
| SoundList.InternalSounds | scripts/sounds.py:348-361 | the sound list is sorted and holds each name as often as the as-written listing draws it from the archive's entries |
| SoundList.Filter | scripts/sounds.py:374-383 | an empty search keeps everything; otherwise exactly the items containing the search text, ignoring case, each as often as in the input |
| SoundList.FilterKeepsOrder | scripts/sounds.py:380-383 | the filtered items keep their order |
| SoundList.UpdateAddonFilter | scripts/sounds.py:1018-1029 | the addon search filters the addons, shows the dropdown exactly when something matches, and clears the selection |
| SoundList.CleanupKeepsNewest | scripts/sounds.py:407-422 | cleanup splits the cache into deleted and kept files, keeps the target number when over it, and deletes no file newer than one it keeps |
| SoundList.VsndReference | scripts/sounds.py:1539-1540 | a copied sound is referenced as `sounds/`, then the file name without its `splitext` extension, then `.vsnd` |
| SoundList.VsndReferenceOfWav | scripts/sounds.py:1539-1540 | a plain `<name>.wav` is referenced as `sounds/<name>.vsnd` |
| SoundList.UpdateSoundevents | scripts/sounds.py:1566-1597 | a new file holds the kv3 header, the entry and a closing brace; an existing one gets the entry right before its last brace, or appended with a brace when it has none |
| SoundControls.PreviewFrequency | scripts/sounds.py:610-620 | pitch off or pitch 1 plays at 44100 Hz; a pitch of 0 raises; otherwise the frequency is `44100 / pitch` truncated: 48000 when that is at least 48000, 8000 when it is below 8000 (any negative pitch included), and the whole number part of it in between |
| SoundControls.FrequencyFallsWithPitch | scripts/sounds.py:616-618 | raising the pitch never raises the frequency |
| SoundControls.DragLoopStart | scripts/sounds.py:3287 | the start handle stays at or after 0 and at least 100 ms before the end, and follows the mouse between those bounds; past a bound it stops at that bound (0, or the end less 100 ms) |
| SoundControls.DragLoopEnd | scripts/sounds.py:3296 | the end handle stays at least 100 ms after the start and within the sound, and follows the mouse between those bounds; past a bound it stops at that bound (the sound's length, or the start plus 100 ms) |
| SoundControls.DragKeepsLoopValid | scripts/sounds.py:3287-3296 | dragging either handle anywhere keeps a valid loop region valid |
| SoundControls.FloorMod | scripts/sounds.py:3320 | Python's float `%` by a positive modulus lies in `[0, m)` and leaves a whole quotient |
| SoundControls.PlaybackPosition | scripts/sounds.py:3310-3321 | without a loop the cursor stops at the end; with a loop it stays inside the loop region |
| SoundControls.PlaybackFirstPass | scripts/sounds.py:3310-3321 | during the first pass through the loop the cursor simply advances |
| SoundControls.PlaybackPeriodic | scripts/sounds.py:3318-3321 | one loop length later the cursor is back where it was |
| SoundControls.EnforceBitrateOrder | scripts/sounds.py:3460-3461 | the maximum bitrate is raised to the minimum when it falls below it, and kept otherwise |
| SoundControls.TypeNear | scripts/sounds.py:2622 | a typed near distance is clamped to between 0 and the mid distance |
| SoundControls.TypeMid | scripts/sounds.py:2681 | a typed mid distance is clamped to between the near and far distances |
| SoundControls.TypeFar | scripts/sounds.py:2741 | a typed far distance is not below the mid distance |
| SoundControls.TypingKeepsOrder | scripts/sounds.py:2622-2741 | any typed value keeps near, mid and far in order |
| Settings.MergeOrder | scripts/settings_manager.py:50-55 | the loaded button order comes first and is completed with every default button it lacks |
| Settings.MergeOrderAppendsMissing | scripts/settings_manager.py:50-55 | with distinct defaults, the merged order is the loaded order followed by the missing default buttons, once each, in default order |
| Settings.MergeOrderComplete | scripts/settings_manager.py:50-55 | an order that already holds every default button is left as it is |
| Settings.MergedOrderGetsMissing | scripts/settings_manager.py:45-56 | a loaded button list merges to itself followed by the missing default buttons |
| Settings.LoadSettings | scripts/settings_manager.py:39-62 | without a readable object, or with an entry that cannot merge, the defaults are used; a merged result has the keys of both, the file's plain values, a loaded button list followed by the missing defaults once each, and a string or object button order holding every default kept as it is |
| Settings.MergeProperties | scripts/settings_manager.py:45-58 | a loaded plain value wins, a missing key keeps its default, every default button is present with the file's choice winning and a button the file leaves out keeping its default, the visible buttons being those of the defaults and of the file, and the button order holds every default button: a loaded list stays its prefix, and any other loaded order is kept |
| Settings.MergeIdempotent | scripts/settings_manager.py:45-58 | merged settings merge again to themselves, so saving and reloading changes nothing |
| Settings.Set | scripts/settings_manager.py:74-76 | `set` changes the value of its key alone |
| Settings.WindowPosition | scripts/settings_manager.py:78-80 | the stored position is returned only when present and truthy |
| Settings.WindowPositionRoundTrip | scripts/settings_manager.py:78-83 | a position set is read back |
| Settings.SetButtonVisibility | scripts/settings_manager.py:85-91 | only the visible-buttons entry changes; a stored value that is not an object cannot be updated |
| Settings.ButtonVisibilityChangesOne | scripts/settings_manager.py:88-91 | only the chosen button's visibility changes |
| SkyboxGui.FindInstallRoot | scripts/skybox_gui.py:132-137 | the walk up stops at an ancestor named after the install folder, at the file-system root, or at the empty path |
| SkyboxGui.RootIsAncestor | scripts/skybox_gui.py:132-137 | the root found is one of the path's ancestors |
| SkyboxGui.RootIsNearest | scripts/skybox_gui.py:133 | no ancestor below the root found is named after the install folder |
| SkyboxGui.AddonsDir | scripts/skybox_gui.py:139-140 | the addons folder is `<root>/content/csgo_addons`, only when the install root was found |
| SkyboxGui.AddonList | scripts/skybox_gui.py:144-145 | the addons are exactly the sub-folders whose names do not start with a dot, in listing order: the k-th such entry of the listing is addon k |
| SkyboxGui.AddonOutputDir | scripts/skybox_gui.py:285 | the output goes to `<root>/content/csgo_addons/<addon>/materials/skybox` |
| SkyboxGui.StripSuffix | scripts/skybox_gui.py:197-202 | at most one suffix is cut: the first in list order that the name ends with |
| SkyboxGui.PrefixAsWrittenCutsLeft | scripts/skybox_gui.py:197-202 | as written, `<p>left` gives the prefix `<p>le`, because `ft` is tried before `left` |
| SkyboxGui.PrefixAsWrittenCutsFaceName | scripts/skybox_gui.py:197-202 | as written, every other face name or abbreviation is cut off whole |
| SkyboxGui.PrefixCutsFaceName | scripts/skybox_gui.py:195-202 | with the full names tried first, every face name and abbreviation other than `ft` is cut off whole |
| SkyboxGui.PrefixCutsFt | scripts/skybox_gui.py:195-202 | `ft` is cut off whole too, unless the stem spells `left` |
| SkyboxGui.SkyboxPrefix | scripts/skybox_gui.py:195-203 | as written, the prefix is the first file's stem with the first suffix of the abbreviations-first list that it ends with cut off, and the stem unchanged when it ends with none |
| SkyboxGui.SelectFiles | scripts/skybox_gui.py:185-203 | a cancelled dialog changes nothing; a count other than six only sets the error status; six files replace the selection and set the as-written prefix |
| SkyboxGui.StartConversion | scripts/skybox_gui.py:224-256 | the checks run in order (six faces, then a destination, then a usable prefix, typed or derived as written), and the conversion starts only when all pass |
| SkyboxGui.EnvRoundTrip | scripts/skybox_gui.py:307-316 | the converter reads back every option and the list of original paths |
| S2vUpdater.RemoteVersion | scripts/S2V-AUL.py:79-87 | the remote version is the first eight characters of the commit SHA upper-cased, and nothing without a SHA |
| S2vUpdater.EmbeddedSha | scripts/S2V-AUL.py:111 | a match is six to eight hex digits, and there is none exactly when no `+` is followed by six hex digits |
| S2vUpdater.EmbeddedShaIsLeftmostLongest | scripts/S2V-AUL.py:111-114 | the match follows the first qualifying `+` and takes hex digits up to eight or the first non-digit |
| S2vUpdater.LocalVersion | scripts/S2V-AUL.py:96-140 | the local version is not "0" exactly when the executable is readable and some locale's product version embeds a SHA; it is then the first such SHA, upper-cased |
| S2vUpdater.Decide | scripts/S2V-AUL.py:272-286 | no remote version aborts; differing versions install the remote one; equal versions are up to date |
| S2vUpdater.UnreadableLocalUpdates | scripts/S2V-AUL.py:98-100 | an unreadable local version always leads to an install |
| S2vUpdater.ParseSerialise | scripts/S2V-AUL.py:190-204 | writing the version cache and reading it back in text mode gives the same entries in the same order, with either reader, for keys without `=` and keys and values without line breaks (`\n` or `\r`) or surrounding white space |
| S2vUpdater.CarriageReturnSplitsLine | scripts/S2V-AUL.py:191-192 | text-mode reading ends a line at a lone carriage return too |
| S2vUpdater.UpdateCache | scripts/S2V-AUL.py:304-306 | after a check the two Source2Viewer keys hold the installed and latest versions; every other entry keeps its value and place |
| UpdateChecker.ShouldCheck | utils/update_checker.py:67-73 | a check is due on the first call and then once 150 seconds have passed |
| UpdateChecker.FirstTarget | utils/update_checker.py:117-134 | the asset chosen is the first `.exe` naming CS2KZ and MappingTools whose console flavour matches the build |
| UpdateChecker.CheckForUpdates | utils/update_checker.py:75-149 | a throttled call returns the cached flag and changes nothing; a real check records its time and reports an update exactly for a strictly newer release with a matching installer, whose URL, time and tag it remembers (`UpdateChecker.ReleaseTag`: an absent tag reads as `unknown`, a JSON `null` as `None`) |
| UpdateChecker.ReleaseTag | utils/update_checker.py:98 | the remembered tag is the release's `tag_name`, `unknown` when the field is absent, and `None` exactly when it is JSON `null` |
| UpdateChecker.ThrottledRepeat | utils/update_checker.py:77-79 | a call within 150 seconds repeats the flag the last real check stored, which differs from what that check returned only for a release without a publication time while an update was pending |
| UpdateChecker.NoUpdateFromOlderRelease | utils/update_checker.py:111-149 | a release that is not newer is never reported |
| UpdateChecker.ClearTempFolder | utils/update_checker.py:240-254 | clearing removes exactly the entries that are not preserved, and nothing when the folder is missing |
| UpdateChecker.DownloadAndInstall | utils/update_checker.py:151-234 | the installer refuses without a pending update and URL, fails when the download leaves no file, otherwise removes exactly the temporary folder's entries that are not preserved (never the update folder), and hands over to the batch script only when running as an executable |
| UpdateChecker.FoundUpdateIsInstallable | utils/update_checker.py:127-153 | an update just found with a download URL passes the installer's guard |
| Theme.ThemesInUnit | utils/theme_manager.py:20-121 | every colour component of every theme lies in `[0, 1]` |
| Theme.LoadTheme | utils/theme_manager.py:131-153 | a missing file changes nothing; an empty or broken file resets to grey without recording its time; a mode naming a theme is adopted with the file's time |
| Theme.LoadKeepsTheme | utils/theme_manager.py:143-145 | loading never leaves the manager on an unknown theme |
| Theme.CheckForUpdates | utils/theme_manager.py:155-165 | a reload is reported exactly when the file exists with a newer time |
| Theme.ReloadIsReportedOnce | utils/theme_manager.py:146-162 | after a reload that recorded its time, the same file is not reported again |
| Theme.EmptyFileReportedOnEveryPoll | utils/theme_manager.py:136-139 | an empty file never records its time, so every later poll reloads it and reports a change |
| Theme.GetTheme | utils/theme_manager.py:167-169 | the palette is the current theme's, or grey's |
| Theme.GetFont | utils/theme_manager.py:175-177 | every theme uses Roboto |
| Theme.Hex2RoundTrip | utils/theme_manager.py:181-184 | a byte is written as two hex digits that read back as the byte |
| Theme.ToHex | utils/theme_manager.py:179-184 | a colour in range becomes `#` and six hex digits holding `int(c * 255)` for red, green and blue |
| LoadingScreen.SelectImages | scripts/loading_screen_gui.py:523-526 | a non-empty selection replaces the list with its first nine files; a cancelled one keeps it |
| LoadingScreen.CropBox | scripts/loading_screen_gui.py:616-639 | the crop is centred and inside the image: a wide image keeps its height, any other keeps its width, and the other side is the widest whole 16:9 share; a zero-height image raises |
| LoadingScreen.NamesDistinct | scripts/loading_screen_gui.py:612-643 | different image numbers give different screenshot and material names |
| LoadingScreen.ImageAndVmatDiffer | scripts/loading_screen_gui.py:612-643 | a screenshot name never equals a material name |
| LoadingScreen.DescriptionText | scripts/loading_screen_gui.py:661-665 | exactly one trailing newline is removed and nothing is written when that leaves the text empty |
| LoadingScreen.DescriptionKeepsText | scripts/loading_screen_gui.py:661-669 | any non-empty text typed survives intact |
| LoadingScreen.FolderLayout | scripts/loading_screen_gui.py:594-600 | the screenshots go under the map icons, under the addon's content folder; the description goes to the game addon's `maps` |
| LoadingScreen.ImageOutputs | scripts/loading_screen_gui.py:610-650 | screenshots and materials are written in selection order, numbered from 1, until the first image that cannot be opened |
| LoadingScreen.CreateFiles | scripts/loading_screen_gui.py:570-669 | blank names and a missing install are refused in that order; otherwise the folders are made, and the creation fails exactly when some image cannot be opened; success writes a screenshot and material per image, then the icon `map_icon_<map>.svg` with the SVG's path and the description `<map>.txt` with its text when present |
| LoadingScreen.WriteOutputs | scripts/loading_screen_gui.py:606-669 | the files are written in order: screenshots with materials, then the icon `map_icon_<map>.svg` in the icon folder, then the description `<map>.txt` in the maps folder |
| Vtf2Png.ConvertOne | scripts/vtf2png_gui.py:49-102 | without the converter every file fails with the same message; success means VTFLib.dll was present, VTFCmd exited with 0 and the PNG named after the VTF exists in the output folder, and exactly then |
| Vtf2Png.NonZeroExitFails | scripts/vtf2png_gui.py:90-92 | a non-zero exit status is a conversion error whatever files exist |
| Vtf2Png.ConvertFiles | scripts/vtf2png_gui.py:152-191 | every file is converted in order with one report line each; successes and failures add up to the file count; the folder reported is the chosen one or the first file's |
| Vtf2Png.Tally | scripts/vtf2png_gui.py:184-189 | the counts and report lines follow the results one for one |
| Vtf2Png.OutcomesAt | scripts/vtf2png_gui.py:168-182 | the k-th result is the k-th file's conversion |
| Vtf2Png.ReportsAt | scripts/vtf2png_gui.py:184-189 | the k-th report line describes the k-th file and its result |
| Vtf2Png.UnavailableBatchFails | scripts/vtf2png_gui.py:49-50 | without a usable converter, every file of a batch fails and nothing is converted |
| Vtf2Png.BatchWritesIntoChosenFolder | scripts/vtf2png_gui.py:172-174 | with a chosen folder, every PNG goes into that folder, named after its VTF |
| Vtf2Png.DefaultWritesBesideVtf | scripts/vtf2png_gui.py:56-58 | without a chosen folder, each PNG goes next to its VTF |
| Sorting.SortBy | scripts/sounds.py:361 | sorting gives a sorted permutation, and it is stable: elements that compare equal keep their order |
| Sorting.InsertStable | scripts/sounds.py:361 | inserting after every element not above it keeps the order of tied elements, with the new one last |
| Paths.SplitExt | scripts/skybox_gui_old.py:286 | the stem and the extension make up the path; an extension is split off exactly when a dot follows a non-dot character in the last component, and it is then the last dot onwards |
| Paths.SplitExtExamples | scripts/skybox_gui_old.py:286 | `a/b.c.png` splits as `a/b.c` and `.png`, and `.rc` has no extension |
| Paths.JoinAllFive | scripts/skybox_gui.py:285 | joining plain components puts one separator before each |
| Text.SplitJoin | scripts/skybox_gui.py:316 | splitting a joined list gives it back when no part holds the separator |
| Text.DecimalRoundTrip | scripts/pointworldtext.py:148 | `str(n)` reads back as `n` |

## Left out

- Dialogs, message boxes, window icons, and opening folders: these are GUI effects. Their answers are inputs.
- `ask_vmat_preferences` and `select_output_location`: these are dialogs. Their answers are inputs to `SkyboxVmat.RunMain`.
- Rotation and flipping of faces: every entry of the transform table has rotation 0 and no flip, so the stitcher never rotates or flips. `SkyboxFaces.DefaultTransformIsPermutation` proves this.
- Image decoding, VTF parsing and PNG encoding: these are parameters. Decoding is a function from path to image or error, and saving is a function from path and image to success or error.
- LANCZOS resampling: the filter is a parameter, constrained only by the size of the image it produces. Its pixel values are not modelled, since LANCZOS blends neighbouring pixels into new colours.
- `SkyboxVmat.RunMain`: the script never imports `messagebox` (its imports are at scripts/skybox_gui_old.py:6-17), so `select_skybox_files` raises `NameError` at line 56 before any dialog answer is read. The model treats the message boxes as GUI effects and follows the flow past them.
- `Theme.ToHex`: colour components are exact reals, not IEEE doubles. `int(c * 255)` is modelled as exact truncation, so rounding of the float product is not modelled.
- `TextLayout.FileKey`: a digit stem of 2^31 or more makes `chr` raise `OverflowError`, which `stitch_text` does not catch; the model skips such a file instead. A stem naming a surrogate (0xD800 to 0xDFFF) gives Python a lone surrogate key; Dafny characters cannot hold one, so the model skips it too.
- Alpha-masked pasting in point_worldtext: pasting uses a mask there. Only where glyphs go is modelled, not how they blend.
- TextLayout: the automatic scaling of the block to the canvas (`auto_scale`, `scale_factor`) uses floats. Only the centring offset is modelled.
- TextLayout: `space_width_ratio` is fixed at its default of 0.5, which every caller uses.
- `LoadingScreen.CropBox`: the float division and the `int` of `height * 16/9` are modelled as exact rational arithmetic with a floor. Binary rounding at exact 16:9 multiples is not modelled.
- Pillow rounds fractional crop boxes. This is not modelled.
- `SoundControls.PreviewFrequency`: the pitch is an exact real, so `int(44100 / pitch)` is exact truncation. Float rounding is not modelled.
- The playback cursor uses exact reals for the millisecond clock.
- Soundevents: the text of an entry and the regular expression that removes an old block are inputs. The insertion around the last brace is modelled.
- Internal sounds: reading the VPK archive is an input, a list of entry paths.
- The preview's decompiler, ffmpeg and pygame playback are external programs and are not modelled.
- Settings: JSON reading and writing are not modelled. A file is a decoded JSON value or nothing.
- Settings: `load_settings` raises on a `visible_buttons` entry that is not an object, and on a `button_order` entry that is not a list unless every default button is `in` it (a string holding each name, or an object with each key). Raising is modelled as falling back to the defaults. The in-place `append` on the loaded list is not modelled, because its effect equals building a new list.
- Settings: the shallow copy of the defaults lets `set_button_visibility` change the defaults' own dictionary. This aliasing is not modelled.
- The S2V updater's download, extraction and launch are I/O and are not modelled. Reading the version resource is an input: the product-version string of each locale, or nothing when it raised.
- S2V updater: the numeric file version read after no locale matched always leads to "0", so only that result is modelled.
- S2V updater: `download_and_install` writes the cache with one reader, and `main` reads it with the other (stripped parts). Both readers are modelled, with Python's universal newlines (a `\r`, `\r\n` or `\n` ends a line). `S2vUpdater.ParseSerialise` holds for each, for entries without line breaks or surrounding white space; other entries do not survive the trip in the program either.
- UpdateChecker: `_get_current_version` reads a file's modification time. The build's timestamp and console flag are inputs.
- UpdateChecker: the HTTP request and `datetime.fromisoformat` are inputs. The batch script's text and `restart_application` are effects and are not modelled.
- Theme: JSON reading and the file's size and modification time are inputs. The race between `exists` and `getmtime` is not modelled.
- Theme: the palette keys are modelled as the fields of `Palette`, so the keys every theme defines cannot differ.
- Vtf2Png: `main` and its dialogs are GUI. `os.path.abspath` is an input.
- LoadingScreen: the listbox text, `create_vmat_content`, `compile_vmat_files` and `compile_svg_files` are external to the creator and not modelled.
- LoadingScreen: a failed SVG copy or description write is not modelled. Only an image that cannot be opened fails the creation.
- SkyboxGui: the converter subprocess (`SkyboxConverter.py`), its output, and copying files to the temporary folder are not modelled. `SkyboxConverter.py` is not part of this model.
- SkyboxGui: `get_cs2_path` and the existence checks are inputs.
- Paths are POSIX: `/` is the only separator, and Windows drive letters and backslashes are not modelled.
- Case mapping, `isdigit` and `isalnum` are ASCII only. So is white space: `Text.Strip` and `Text.IsBlank` know only the ASCII white-space characters, whereas Python's `str.strip` also removes non-ASCII ones such as U+0085, U+00A0, U+2000 to U+200A and U+3000. A map or addon name of U+3000 alone is refused by the loading-screen creator but accepted by the model.
- `vsnd_decompiler.py` and `vtf2png.py` are not part of this model.

## Findings

| source | as written | input that shows it | evidently intended | confidence | as-written member | corrected member |
|---|---|---|---|---|---|---|
| scripts/skybox_gui_old.py:346-347 | `stitch_skybox` tests `VTF_SUPPORT`, which the file never defines, so every `.vtf` face raises `NameError` | a selection whose first face is `sky_up.vtf` | a VTF face is converted when a VTF library is present, and refused with the install hint otherwise | high (not executed) | SkyboxStitch.StitchAsWrittenRejectsVtf | SkyboxStitch.LoadersAgreeOffVtf |
| scripts/skybox_gui_old.py:389-390 | a face is resized only when its width differs from the base size, so a face of the right width but wrong height is pasted as it is | base size 2 and a back face 2 wide and 4 tall: it lands in the left cell and spills into the bottom-left corner | every face is resized to the base square, so the corners stay transparent | high (not executed) | SkyboxStitch.AssembleAsWrittenSpills | SkyboxStitch.AssembleKeepsCornerClear |
| scripts/sounds.py:353-358 | the listing keeps every `.vsnd_c` entry whose path contains `sounds` anywhere, but the preview looks only under the top-level `sounds/` | the entry `maps/sounds/a.vsnd_c` is listed as `maps/sounds/a`, and the preview asks for `sounds/maps/sounds/a.vsnd_c` | only sounds under `sounds/` are listed, so every listed sound can be previewed | medium (not executed) | SoundList.ListedOutsideSoundsFolder | SoundList.PreviewRoundTrip |
| scripts/skybox_gui.py:197-202 | the abbreviations are tried before the full face names, so `ft` is cut from `left` | the first file `sky_left.png` gives the prefix `sky_le` | the face name is cut off whole, giving `sky_` | high (not executed) | SkyboxGui.PrefixAsWrittenCutsLeft | SkyboxGui.PrefixCutsFaceName |

=== FILE: glyph_sheet.dfy ===
/**
 * `extract_characters` of the point_worldtext generator: cutting a character
 * sheet into glyph images. Rows of the sheet, and then columns within each
 * row, are split into maximal runs of lines holding ink; the k-th run of the
 * r-th row becomes the glyph named by the sheet layout, saved under a file
 * name that survives case-insensitive file systems.
 */
module GlyphSheet {
  import opened Wrappers
  import opened Text
  import opened Raster

  // ---------------------------------------------------------------- runs

  /** A half-open interval `[start, end)` of line indices. */
  datatype Run = Run(start: nat, end: nat)

  /** Line `i` lies in one of the runs. */
  predicate Covered(runs: seq<Run>, i: nat) {
    exists k :: 0 <= k < |runs| && runs[k].start <= i < runs[k].end
  }

  /**
   * `runs` are the maximal blocks of consecutive `true` flags: nonempty,
   * inside the flags, in increasing order with a gap between neighbours,
   * all flagged, bounded by unflagged lines or the ends, and covering every
   * flagged line.
   */
  predicate IsRunsOf(runs: seq<Run>, flags: seq<bool>) {
    (forall k :: 0 <= k < |runs| ==> runs[k].start < runs[k].end <= |flags|)
    && (forall k :: 0 <= k < |runs| - 1 ==> runs[k].end < runs[k + 1].start)
    && (forall k, i :: 0 <= k < |runs| && runs[k].start <= i < runs[k].end ==> flags[i])
    && (forall k :: 0 <= k < |runs| && runs[k].start > 0 ==> !flags[runs[k].start - 1])
    && (forall k :: 0 <= k < |runs| && runs[k].end < |flags| ==> !flags[runs[k].end])
    && (forall i :: 0 <= i < |flags| && flags[i] ==> Covered(runs, i))
  }

  /** The runs closed before line `y` are well formed and separated by unflagged lines. */
  predicate ClosedRuns(runs: seq<Run>, flags: seq<bool>, y: nat) {
    (forall k :: 0 <= k < |runs| ==> runs[k].start < runs[k].end < y && runs[k].end < |flags|)
    && (forall k :: 0 <= k < |runs| - 1 ==> runs[k].end < runs[k + 1].start)
    && (forall k, i :: 0 <= k < |runs| && runs[k].start <= i < runs[k].end ==> flags[i])
    && (forall k :: 0 <= k < |runs| && runs[k].start > 0 ==> !flags[runs[k].start - 1])
    && (forall k :: 0 <= k < |runs| ==> !flags[runs[k].end])
  }

  /** The scan's state: the runs closed so far, and whether a run is open and where it started. */
  datatype Scan = Scan(runs: seq<Run>, inRun: bool, start: nat)

  /** What the scan knows after the lines before `y`. */
  predicate ScanState(flags: seq<bool>, y: nat, s: Scan) {
    y <= |flags|
    && ClosedRuns(s.runs, flags, y)
    && (s.inRun ==> s.start < y && (forall i :: s.start <= i < y ==> flags[i]) && (s.start > 0 ==> !flags[s.start - 1]))
    && (s.inRun && |s.runs| > 0 ==> s.runs[|s.runs| - 1].end < s.start)
    && (!s.inRun && y > 0 ==> !flags[y - 1])
    && (forall i :: 0 <= i < y && flags[i] ==> Covered(s.runs, i) || (s.inRun && s.start <= i))
  }

  /** One line of the scan: a flagged line opens a run if none is open, an unflagged one closes the open run. */
  function Step(flags: seq<bool>, y: nat, s: Scan): Scan
    requires y < |flags|
  {
    if flags[y] && !s.inRun then Scan(s.runs, true, y)
    else if !flags[y] && s.inRun then Scan(s.runs + [Run(s.start, y)], false, s.start)
    else s
  }

  /** Closing a run at `end` covers every line it spans and keeps the earlier coverage. */
  lemma CloseCovers(runs: seq<Run>, start: nat, end: nat, flags: seq<bool>)
    requires end <= |flags|
    requires forall i :: 0 <= i < end && flags[i] ==> Covered(runs, i) || start <= i
    ensures forall i :: 0 <= i < end && flags[i] ==> Covered(runs + [Run(start, end)], i)
  {
    var runs' := runs + [Run(start, end)];
    forall i | 0 <= i < end && flags[i]
      ensures Covered(runs', i)
    {
      if start <= i {
        assert runs'[|runs|].start <= i < runs'[|runs|].end;
      } else {
        var k :| 0 <= k < |runs| && runs[k].start <= i < runs[k].end;
        assert runs'[k] == runs[k];
      }
    }
  }

  /** One step of the scan keeps what the scan knows. */
  lemma StepKeepsState(flags: seq<bool>, y: nat, s: Scan)
    requires y < |flags| && ScanState(flags, y, s)
    ensures ScanState(flags, y + 1, Step(flags, y, s))
  {
    if flags[y] && !s.inRun {
      OpenKeepsState(flags, y, s);
    } else if !flags[y] && s.inRun {
      CloseKeepsState(flags, y, s);
    } else {
      ContinueKeepsState(flags, y, s);
    }
  }

  /** Closed runs stay closed as the scan moves on. */
  lemma ClosedRunsLater(runs: seq<Run>, flags: seq<bool>, y: nat, y': nat)
    requires ClosedRuns(runs, flags, y) && y <= y'
    ensures ClosedRuns(runs, flags, y')
  {
  }

  lemma OpenKeepsState(flags: seq<bool>, y: nat, s: Scan)
    requires y < |flags| && ScanState(flags, y, s) && flags[y] && !s.inRun
    ensures ScanState(flags, y + 1, Scan(s.runs, true, y))
  {
    ClosedRunsLater(s.runs, flags, y, y + 1);
  }

  lemma ContinueKeepsState(flags: seq<bool>, y: nat, s: Scan)
    requires y < |flags| && ScanState(flags, y, s) && flags[y] == s.inRun
    ensures ScanState(flags, y + 1, s)
  {
    ClosedRunsLater(s.runs, flags, y, y + 1);
  }

  lemma CloseKeepsState(flags: seq<bool>, y: nat, s: Scan)
    requires y < |flags| && ScanState(flags, y, s) && !flags[y] && s.inRun
    ensures ScanState(flags, y + 1, Scan(s.runs + [Run(s.start, y)], false, s.start))
  {
    var runs' := s.runs + [Run(s.start, y)];
    CloseCovers(s.runs, s.start, y, flags);
    assert forall k :: 0 <= k < |s.runs| ==> runs'[k] == s.runs[k];
    CloseKeepsClosed(s.runs, flags, y, s.start);
  }

  /** Appending the run that ends at the unflagged line `y` keeps the closed runs well formed. */
  lemma CloseKeepsClosed(runs: seq<Run>, flags: seq<bool>, y: nat, start: nat)
    requires y < |flags| && !flags[y] && ClosedRuns(runs, flags, y)
    requires start < y && (forall i :: start <= i < y ==> flags[i]) && (start > 0 ==> !flags[start - 1])
    requires |runs| > 0 ==> runs[|runs| - 1].end < start
    ensures ClosedRuns(runs + [Run(start, y)], flags, y + 1)
  {
    var runs' := runs + [Run(start, y)];
    forall k | 0 <= k < |runs'|
      ensures runs'[k].start < runs'[k].end < y + 1 && runs'[k].end < |flags|
      ensures runs'[k].start > 0 ==> !flags[runs'[k].start - 1]
      ensures !flags[runs'[k].end]
    {
      if k < |runs| {
        assert runs'[k] == runs[k];
      }
    }
    forall k | 0 <= k < |runs'| - 1
      ensures runs'[k].end < runs'[k + 1].start
    {
      assert runs'[k] == runs[k];
      if k + 1 < |runs| {
        assert runs'[k + 1] == runs[k + 1];
      }
    }
    forall k, i | 0 <= k < |runs'| && runs'[k].start <= i < runs'[k].end
      ensures flags[i]
    {
      if k < |runs| {
        assert runs'[k] == runs[k];
      }
    }
  }

  /** The final state gives the runs, after closing a run that reaches the last line. */
  lemma ScanEnds(flags: seq<bool>, s: Scan)
    requires ScanState(flags, |flags|, s)
    ensures !s.inRun ==> IsRunsOf(s.runs, flags)
    ensures s.inRun ==> IsRunsOf(s.runs + [Run(s.start, |flags|)], flags)
  {
    if s.inRun {
      var runs' := s.runs + [Run(s.start, |flags|)];
      CloseCovers(s.runs, s.start, |flags|, flags);
      EndRunBounded(s.runs, s.start, flags);
      EndRunOrdered(s.runs, s.start, flags);
      EndRunFlagged(s.runs, s.start, flags);
    }
  }

  /** Closing a run at the last line keeps every run inside the flags and bounded by unflagged lines. */
  lemma EndRunBounded(runs: seq<Run>, start: nat, flags: seq<bool>)
    requires ClosedRuns(runs, flags, |flags|)
    requires start < |flags| && (start > 0 ==> !flags[start - 1])
    ensures var runs' := runs + [Run(start, |flags|)];
            forall k :: 0 <= k < |runs'| ==>
              runs'[k].start < runs'[k].end <= |flags|
              && (runs'[k].start > 0 ==> !flags[runs'[k].start - 1])
              && (runs'[k].end < |flags| ==> !flags[runs'[k].end])
  {
    var runs' := runs + [Run(start, |flags|)];
    forall k | 0 <= k < |runs'|
      ensures runs'[k].start < runs'[k].end <= |flags|
      ensures runs'[k].start > 0 ==> !flags[runs'[k].start - 1]
      ensures runs'[k].end < |flags| ==> !flags[runs'[k].end]
    {
      if k < |runs| {
        assert runs'[k] == runs[k];
      }
    }
  }

  /** Closing a run at the last line keeps the runs in order with gaps. */
  lemma EndRunOrdered(runs: seq<Run>, start: nat, flags: seq<bool>)
    requires ClosedRuns(runs, flags, |flags|)
    requires |runs| > 0 ==> runs[|runs| - 1].end < start
    ensures var runs' := runs + [Run(start, |flags|)];
            forall k :: 0 <= k < |runs'| - 1 ==> runs'[k].end < runs'[k + 1].start
  {
    var runs' := runs + [Run(start, |flags|)];
    forall k | 0 <= k < |runs'| - 1
      ensures runs'[k].end < runs'[k + 1].start
    {
      assert runs'[k] == runs[k];
      if k + 1 < |runs| {
        assert runs'[k + 1] == runs[k + 1];
      }
    }
  }

  /** Closing a run at the last line keeps every run's lines flagged. */
  lemma EndRunFlagged(runs: seq<Run>, start: nat, flags: seq<bool>)
    requires ClosedRuns(runs, flags, |flags|)
    requires forall i :: start <= i < |flags| ==> flags[i]
    ensures var runs' := runs + [Run(start, |flags|)];
            forall k, i :: 0 <= k < |runs'| && runs'[k].start <= i < runs'[k].end ==> flags[i]
  {
    var runs' := runs + [Run(start, |flags|)];
    forall k, i | 0 <= k < |runs'| && runs'[k].start <= i < runs'[k].end
      ensures flags[i]
    {
      if k < |runs| {
        assert runs'[k] == runs[k];
      }
    }
  }

  /** The scan of `extract_characters`: a run opens at the first flagged line and closes at the next unflagged one. */
  method Segment(flags: seq<bool>) returns (runs: seq<Run>)
    ensures IsRunsOf(runs, flags)
  {
    var s := Scan([], false, 0);
    var y: nat := 0;
    while y < |flags|
      invariant ScanState(flags, y, s)
      decreases |flags| - y
    {
      StepKeepsState(flags, y, s);
      s := Step(flags, y, s);
      y := y + 1;
    }
    ScanEnds(flags, s);
    runs := if s.inRun then s.runs + [Run(s.start, |flags|)] else s.runs;
  }

  // ---------------------------------------------------------------- ink

  /** A pixel is content when some colour channel is below 250; alpha is not consulted. */
  predicate IsInk(p: Pixel) {
    p.r < 250 || p.g < 250 || p.b < 250
  }

  /** Glyph pixels whose three colour channels all exceed 250 become transparent white. */
  function Whiten(p: Pixel): (q: Pixel)
    ensures IsInk(p) ==> q == p
    ensures q != p ==> q == Pixel(255, 255, 255, 0)
  {
    if p.r > 250 && p.g > 250 && p.b > 250 then Pixel(255, 255, 255, 0) else p
  }

  /** Whitening again changes nothing, and a pixel at exactly 250 in some channel is neither ink nor whitened. */
  lemma WhitenProperties(p: Pixel)
    ensures Whiten(Whiten(p)) == Whiten(p)
    ensures !IsInk(Whiten(p)) <==> !IsInk(p)
    ensures !IsInk(p) && (p.r == 250 || p.g == 250 || p.b == 250) ==> Whiten(p) == p
  {
  }

  predicate RowInk(img: Image, y: nat)
    requires y < img.height
  {
    exists x: nat :: x < img.width && IsInk(At(img, x, y))
  }

  /** Which rows of the sheet hold content. */
  function RowInkFlags(img: Image): (flags: seq<bool>)
    ensures |flags| == img.height
  {
    seq(img.height, y requires 0 <= y < img.height => RowInk(img, y))
  }

  predicate ColumnInk(img: Image, x: nat, band: Run)
    requires x < img.width && band.end <= img.height
  {
    exists y: nat :: band.start <= y < band.end && IsInk(At(img, x, y))
  }

  /** Which columns of a band of rows hold content. */
  function ColumnInkFlags(img: Image, band: Run): (flags: seq<bool>)
    requires band.end <= img.height
    ensures |flags| == img.width
  {
    seq(img.width, x requires 0 <= x < img.width => ColumnInk(img, x, band))
  }

  /** The inner loop over one row, stopping at the first content pixel. */
  method ScanRow(img: Image, y: nat) returns (found: bool)
    requires y < img.height
    ensures found <==> RowInk(img, y)
  {
    found := false;
    var x: nat := 0;
    while x < img.width && !found
      invariant x <= img.width
      invariant found ==> RowInk(img, y)
      invariant !found ==> forall x' :: 0 <= x' < x ==> !IsInk(At(img, x', y))
      decreases img.width - x
    {
      if IsInk(At(img, x, y)) {
        found := true;
      }
      x := x + 1;
    }
  }

  /** The inner loop over one column of a band, stopping at the first content pixel. */
  method ScanColumn(img: Image, x: nat, band: Run) returns (found: bool)
    requires x < img.width && band.end <= img.height
    ensures found <==> ColumnInk(img, x, band)
  {
    found := false;
    var y: nat := band.start;
    while y < band.end && !found
      invariant found ==> ColumnInk(img, x, band)
      invariant !found ==> forall y' :: band.start <= y' < y && y' < band.end ==> !IsInk(At(img, x, y'))
      decreases band.end - y
    {
      if IsInk(At(img, x, y)) {
        found := true;
      }
      y := y + 1;
    }
  }

  method RowFlags(img: Image) returns (flags: seq<bool>)
    ensures flags == RowInkFlags(img)
  {
    flags := [];
    var y: nat := 0;
    while y < img.height
      invariant y <= img.height && |flags| == y
      invariant forall i :: 0 <= i < y ==> flags[i] == RowInk(img, i)
      decreases img.height - y
    {
      var f := ScanRow(img, y);
      flags := flags + [f];
      y := y + 1;
    }
  }

  method ColumnFlags(img: Image, band: Run) returns (flags: seq<bool>)
    requires band.end <= img.height
    ensures flags == ColumnInkFlags(img, band)
  {
    flags := [];
    var x: nat := 0;
    while x < img.width
      invariant x <= img.width && |flags| == x
      invariant forall i :: 0 <= i < x ==> flags[i] == ColumnInk(img, i, band)
      decreases img.width - x
    {
      var f := ScanColumn(img, x, band);
      flags := flags + [f];
      x := x + 1;
    }
  }

  // ---------------------------------------------------------------- names

  /**
   * The sheet layout: digits, lower-case letters, upper-case letters (named
   * by the doubled lower-case letter) and the printable ASCII symbols, one row
   * of the sheet each.
   */
  const CharRows: seq<seq<string>> := [DigitRow, LowerRow, DoubledRow, SymbolRow]

  const DigitRow: seq<string> := ["0", "1", "2", "3", "4", "5", "6", "7", "8", "9"]
  const LowerRow: seq<string> :=
    ["a", "b", "c", "d", "e", "f", "g", "h", "i", "j", "k", "l", "m",
     "n", "o", "p", "q", "r", "s", "t", "u", "v", "w", "x", "y", "z"]
  const DoubledRow: seq<string> :=
    ["aa", "bb", "cc", "dd", "ee", "ff", "gg", "hh", "ii", "jj", "kk", "ll", "mm",
     "nn", "oo", "pp", "qq", "rr", "ss", "tt", "uu", "vv", "ww", "xx", "yy", "zz"]
  const SymbolRow: seq<string> :=
    ["!", "\"", "#", "$", "%", "&", "'", "(", ")", "*", "+", ",", "-", ".", "/", ":",
     ";", "<", "=", ">", "?", "@", "[", "\\", "]", "^", "_", "`", "{", "|", "}", "~"]

  /**
   * The file stem a glyph is saved under: a digit gets a `_` prefix, a single
   * symbol becomes its decimal code point, and letters keep their name.
   */
  function EncodeName(name: string): string {
    if |name| == 1 && IsDigitChar(name[0]) then "_" + name
    else if |name| == 1 && !IsAlnumChar(name[0]) then NatToDecimal(name[0] as int)
    else name
  }

  /** `chr(v)` succeeds, and gives a character, for these code points. */
  predicate IsCodePoint(v: nat) {
    v < 0xD800 || 0xE000 <= v < 0x11_0000
  }

  /**
   * The glyph name `stitch_text` reads back from a file stem, or `None` when
   * the stem names no glyph and the file is skipped.
   */
  function DecodeStem(stem: string): Option<string> {
    if StartsWith(stem, "_") && IsDigits(stem[1..]) && |stem| == 2 then Some([stem[1]])
    else if IsDigits(stem) then
      var v := DecimalValue(stem);
      if IsCodePoint(v) then Some([v as char]) else None
    else if |stem| == 1 && IsLowerStr(stem) then Some(stem)
    else if |stem| == 2 && IsLowerStr(stem) && stem[0] == stem[1] then Some(stem)
    else None
  }

  /** Names that survive the trip through a file name: any single character but an upper-case letter, or a doubled lower-case letter. */
  predicate IsGlyphName(name: string) {
    (|name| == 1 && !IsUpperChar(name[0])) || (|name| == 2 && IsLowerChar(name[0]) && name[0] == name[1])
  }

  /** Decoding the stem a glyph is saved under gives the glyph's name back. */
  lemma NameRoundTrip(name: string)
    requires IsGlyphName(name)
    ensures DecodeStem(EncodeName(name)) == Some(name)
  {
    var stem := EncodeName(name);
    if |name| == 1 && IsDigitChar(name[0]) {
      assert stem[..1] == "_" && stem[1..] == name;
      assert [stem[1]] == name;
    } else if |name| == 1 && !IsAlnumChar(name[0]) {
      var v := name[0] as int;
      DecimalRoundTrip(v);
      assert !StartsWith(stem, "_") by {
        assert IsDigitChar(stem[0]);
      }
      assert [v as char] == name;
    } else if |name| == 1 {
      assert IsLowerChar(name[0]);
      assert !IsDigitChar(stem[0]);
      assert !IsDigits(stem);
    } else {
      assert !IsDigitChar(stem[0]);
      assert !IsDigits(stem);
      assert stem[0] != '_';
    }
  }

  /** Distinct glyph names are saved under distinct file names. */
  lemma EncodeInjective(a: string, b: string)
    requires IsGlyphName(a) && IsGlyphName(b) && a != b
    ensures EncodeName(a) != EncodeName(b)
  {
    NameRoundTrip(a);
    NameRoundTrip(b);
  }

  /** Every name of the sheet layout survives the trip through a file name. */
  lemma RowNames(r: nat)
    requires r < |CharRows|
    ensures forall c :: 0 <= c < |CharRows[r]| ==> IsGlyphName(CharRows[r][c])
  {
    if r == 0 {
      DigitNames();
    } else if r == 1 {
      LowerNames();
    } else if r == 2 {
      DoubledNames();
    } else {
      SymbolNames();
    }
  }

  lemma DigitNames()
    ensures forall c :: 0 <= c < |DigitRow| ==> IsGlyphName(DigitRow[c])
  {
    forall c | 0 <= c < |DigitRow|
      ensures IsGlyphName(DigitRow[c])
    {
      assert |DigitRow[c]| == 1 && !IsUpperChar(DigitRow[c][0]);
    }
  }

  lemma LowerNames()
    ensures forall c :: 0 <= c < |LowerRow| ==> IsGlyphName(LowerRow[c])
  {
    forall c | 0 <= c < |LowerRow|
      ensures IsGlyphName(LowerRow[c])
    {
      assert |LowerRow[c]| == 1 && !IsUpperChar(LowerRow[c][0]);
    }
  }

  lemma SymbolNames()
    ensures forall c :: 0 <= c < |SymbolRow| ==> IsGlyphName(SymbolRow[c])
  {
    forall c | 0 <= c < |SymbolRow|
      ensures IsGlyphName(SymbolRow[c])
    {
      assert |SymbolRow[c]| == 1 && !IsUpperChar(SymbolRow[c][0]);
    }
  }

  lemma DoubledNames()
    ensures forall c :: 0 <= c < |DoubledRow| ==> IsGlyphName(DoubledRow[c])
  {
    forall c | 0 <= c < |DoubledRow|
      ensures IsGlyphName(DoubledRow[c])
    {
      assert |DoubledRow[c]| == 2 && IsLowerChar(DoubledRow[c][0]) && DoubledRow[c][0] == DoubledRow[c][1];
    }
  }

  /** Every name of the sheet layout round-trips through its file name. */
  lemma CharRowsRoundTrip()
    ensures |CharRows| == 4
    ensures forall r, c :: 0 <= r < |CharRows| && 0 <= c < |CharRows[r]| ==> DecodeStem(EncodeName(CharRows[r][c])) == Some(CharRows[r][c])
  {
    forall r, c | 0 <= r < |CharRows| && 0 <= c < |CharRows[r]|
      ensures DecodeStem(EncodeName(CharRows[r][c])) == Some(CharRows[r][c])
    {
      RowNames(r);
      NameRoundTrip(CharRows[r][c]);
    }
  }

  // ---------------------------------------------------------------- extraction

  function Min(a: nat, b: nat): nat {
    if a <= b then a else b
  }

  /** A crop box: columns `[left, right)` of rows `[top, bottom)`. */
  datatype Box = Box(left: nat, top: nat, right: nat, bottom: nat)

  /** The crop of `img` to `box`, with near-white pixels made transparent. */
  function CutImage(img: Image, box: Box): (r: Image)
    requires box.left <= box.right <= img.width && box.top <= box.bottom <= img.height
    ensures r.width == box.right - box.left && r.height == box.bottom - box.top
  {
    Image(box.right - box.left, box.bottom - box.top,
      (x: nat, y: nat) => if x < box.right - box.left && y < box.bottom - box.top then Whiten(img.pixel(box.left + x, box.top + y)) else Transparent)
  }

  /** A saved glyph: its name, its file name, where it was cut from, and its pixels. */
  datatype GlyphCut = GlyphCut(name: string, file: string, box: Box, image: Image)

  function MakeCut(img: Image, name: string, box: Box): GlyphCut
    requires box.left <= box.right <= img.width && box.top <= box.bottom <= img.height
  {
    GlyphCut(name, EncodeName(name) + ".png", box, CutImage(img, box))
  }

  /** `g` is the glyph `name` cut from `box` of the sheet: its file name encodes the name, and its pixels are the box's, whitened. */
  ghost predicate IsCut(g: GlyphCut, img: Image, name: string, box: Box) {
    g.name == name && g.file == EncodeName(name) + ".png" && g.box == box
    && g.image.width == box.right - box.left && g.image.height == box.bottom - box.top
    && forall x: nat, y: nat :: x < g.image.width && y < g.image.height ==>
         g.image.pixel(x, y) == Whiten(img.pixel(box.left + x, box.top + y))
  }

  /** The k-th glyph of sheet row r is cut from the k-th column run of the r-th row run. */
  ghost predicate CutsOfRow(img: Image, r: nat, band: Run, cols: seq<Run>, cuts: seq<GlyphCut>)
    requires r < |CharRows| && band.end <= img.height
  {
    IsRunsOf(cols, ColumnInkFlags(img, band))
    && |cuts| == Min(|cols|, |CharRows[r]|)
    && forall c :: 0 <= c < |cuts| ==>
         cols[c].end <= img.width && band.start <= band.end
         && IsCut(cuts[c], img, CharRows[r][c], Box(cols[c].start, band.start, cols[c].end, band.end))
  }

  lemma MakeCutIsCut(img: Image, name: string, box: Box)
    requires box.left <= box.right <= img.width && box.top <= box.bottom <= img.height
    ensures IsCut(MakeCut(img, name, box), img, name, box)
  {
  }

  /** The glyphs cut from one row run of the sheet, given its column runs. */
  function RowCuts(img: Image, r: nat, band: Run, cols: seq<Run>): (cuts: seq<GlyphCut>)
    requires r < |CharRows| && band.start <= band.end <= img.height
    requires IsRunsOf(cols, ColumnInkFlags(img, band))
    ensures CutsOfRow(img, r, band, cols, cuts)
  {
    var names := CharRows[r];
    var n := Min(|cols|, |names|);
    var cuts := seq(n, c requires 0 <= c < n => MakeCut(img, names[c], Box(cols[c].start, band.start, cols[c].end, band.end)));
    assert forall c :: 0 <= c < n ==> cols[c].end <= img.width;
    forall c | 0 <= c < n
      ensures IsCut(cuts[c], img, names[c], Box(cols[c].start, band.start, cols[c].end, band.end))
    {
      MakeCutIsCut(img, names[c], Box(cols[c].start, band.start, cols[c].end, band.end));
    }
    cuts
  }

  /** Appending the cuts of the next row keeps the cuts of the earlier rows. */
  lemma RowsExtended(img: Image, rows: seq<Run>, cols: seq<seq<Run>>, glyphs: seq<seq<GlyphCut>>, cs: seq<Run>, cuts: seq<GlyphCut>)
    requires |cols| == |glyphs| < |rows| && |glyphs| < |CharRows|
    requires forall r' :: 0 <= r' < |glyphs| ==> rows[r'].end <= img.height && CutsOfRow(img, r', rows[r'], cols[r'], glyphs[r'])
    requires rows[|glyphs|].end <= img.height && CutsOfRow(img, |glyphs|, rows[|glyphs|], cs, cuts)
    ensures forall r' :: 0 <= r' < |glyphs| + 1 ==>
      rows[r'].end <= img.height && CutsOfRow(img, r', rows[r'], (cols + [cs])[r'], (glyphs + [cuts])[r'])
  {
    forall r' | 0 <= r' < |glyphs| + 1
      ensures rows[r'].end <= img.height && CutsOfRow(img, r', rows[r'], (cols + [cs])[r'], (glyphs + [cuts])[r'])
    {
      if r' < |glyphs| {
        assert (cols + [cs])[r'] == cols[r'] && (glyphs + [cuts])[r'] == glyphs[r'];
      } else {
        assert (cols + [cs])[r'] == cs && (glyphs + [cuts])[r'] == cuts;
      }
    }
  }

  /**
   * `extract_characters`: the row runs of the sheet, the column runs of each
   * of the first four, and the glyphs cut from them, named by the sheet
   * layout. Runs beyond the layout's rows or a row's names are ignored.
   */
  method ExtractCharacters(img: Image) returns (rows: seq<Run>, cols: seq<seq<Run>>, glyphs: seq<seq<GlyphCut>>)
    ensures IsRunsOf(rows, RowInkFlags(img))
    ensures |cols| == |glyphs| == Min(|rows|, |CharRows|)
    ensures forall r :: 0 <= r < |glyphs| ==> rows[r].end <= img.height && CutsOfRow(img, r, rows[r], cols[r], glyphs[r])
  {
    var flags := RowFlags(img);
    rows := Segment(flags);
    cols := [];
    glyphs := [];
    var r := 0;
    while r < Min(|rows|, |CharRows|)
      invariant r <= Min(|rows|, |CharRows|)
      invariant |cols| == |glyphs| == r
      invariant forall r' :: 0 <= r' < r ==> rows[r'].end <= img.height && CutsOfRow(img, r', rows[r'], cols[r'], glyphs[r'])
      decreases Min(|rows|, |CharRows|) - r
    {
      var band := rows[r];
      var colFlags := ColumnFlags(img, band);
      var cs := Segment(colFlags);
      var cuts := RowCuts(img, r, band, cs);
      RowsExtended(img, rows, cols, glyphs, cs, cuts);
      cols := cols + [cs];
      glyphs := glyphs + [cuts];
      r := r + 1;
    }
  }

  /** Every glyph file is named by encoding its glyph's name, and decodes back to it. */
  lemma ExtractedFilesDecode(img: Image, rows: seq<Run>, cols: seq<seq<Run>>, glyphs: seq<seq<GlyphCut>>, r: nat, c: nat)
    requires |glyphs| <= |rows| && |glyphs| <= |cols| && r < |glyphs| && r < |CharRows| && rows[r].end <= img.height
    requires CutsOfRow(img, r, rows[r], cols[r], glyphs[r]) && c < |glyphs[r]|
    ensures glyphs[r][c].name == CharRows[r][c]
    ensures EndsWith(glyphs[r][c].file, ".png")
    ensures DecodeStem(glyphs[r][c].file[..|glyphs[r][c].file| - 4]) == Some(glyphs[r][c].name)
  {
    CharRowsRoundTrip();
    var f := glyphs[r][c].file;
    assert f == EncodeName(CharRows[r][c]) + ".png";
    assert f[..|f| - 4] == EncodeName(CharRows[r][c]);
  }
}

=== FILE: loading_screen.dfy ===
/**
 * The loading-screen creator: up to nine screenshots cropped to 16:9, each
 * with a material beside it, an optional map icon and an optional map
 * description, all placed under the addon's folders of the CS2 install.
 * Opening images, copying, writing and compiling files are effects; the
 * model describes which files are produced, where, and from what.
 */
module LoadingScreen {
  import opened Wrappers
  import opened Text
  import Paths

  const MaxImages: nat := 9

  function Min(a: nat, b: nat): nat { if a <= b then a else b }

  /** `select_images`: a non-empty selection replaces the list with its first nine files; a cancelled one keeps it. */
  function SelectImages(current: seq<string>, chosen: seq<string>): (r: seq<string>)
    ensures chosen == [] ==> r == current
    ensures chosen != [] ==> |r| == Min(MaxImages, |chosen|) && r == chosen[..|r|]
    ensures chosen != [] && |chosen| <= MaxImages ==> r == chosen
  {
    if chosen == [] then current else chosen[..Min(MaxImages, |chosen|)]
  }

  // ---------------------------------------------------------------- cropping

  /** A crop rectangle in pixel coordinates, right and bottom exclusive. */
  datatype Box = Box(left: real, top: real, right: real, bottom: real)

  predicate InsideImage(b: Box, w: nat, h: nat) {
    0.0 <= b.left <= b.right <= w as real && 0.0 <= b.top <= b.bottom <= h as real
  }

  predicate IsWhole(x: real) { x == x.Floor as real }

  /** Whether a `w` by `h` image is wider than 16:9. */
  predicate WiderThanWide(w: nat, h: nat) { 9 * w > 16 * h }

  /**
   * The centred 16:9 crop. A wider image keeps its full height and the
   * widest whole width not above `16/9` of it; any other image keeps its
   * full width and the tallest whole height not above `9/16` of it. A
   * zero-height image has no aspect ratio (the division raises).
   */
  function CropBox(w: nat, h: nat): (b: Option<Box>)
    ensures b.None? <==> h == 0
    ensures b.Some? ==> InsideImage(b.value, w, h)
    ensures b.Some? ==> b.value.left + b.value.right == w as real && b.value.top + b.value.bottom == h as real
    ensures b.Some? && WiderThanWide(w, h) ==>
      var cw := b.value.right - b.value.left;
      b.value.top == 0.0 && b.value.bottom == h as real && IsWhole(cw)
      && 9.0 * cw <= 16.0 * h as real < 9.0 * (cw + 1.0)
    ensures b.Some? && !WiderThanWide(w, h) ==>
      var ch := b.value.bottom - b.value.top;
      b.value.left == 0.0 && b.value.right == w as real && IsWhole(ch)
      && 16.0 * ch <= 9.0 * w as real < 16.0 * (ch + 1.0)
  {
    if h == 0 then None
    else if WiderThanWide(w, h) then
      var nw := 16 * h / 9;
      WholeCast(nw);
      CastBounds(9, nw, 16 * h);
      Some(Box((w - nw) as real / 2.0, 0.0, (w + nw) as real / 2.0, h as real))
    else
      var nh := 9 * w / 16;
      WholeCast(nh);
      CastBounds(16, nh, 9 * w);
      Some(Box(0.0, (h - nh) as real / 2.0, w as real, (h + nh) as real / 2.0))
  }

  lemma WholeCast(n: int)
    ensures IsWhole(n as real)
  {
  }

  /** `q = n / d` in integers brackets `n` between `d q` and `d (q + 1)` in reals too. */
  lemma CastBounds(d: nat, q: int, n: nat)
    requires d > 0 && q == n / d
    ensures (d as real) * (q as real) <= n as real < (d as real) * (q as real + 1.0)
  {
    assert d * q <= n < d * (q + 1);
    assert (d * q) as real == (d as real) * (q as real);
    assert (d * (q + 1)) as real == (d as real) * (q as real + 1.0);
  }

  // ---------------------------------------------------------------- names

  function ImageName(mapName: string, i: nat): string {
    mapName + "_" + NatToDecimal(i) + ".png"
  }

  function VmatName(mapName: string, i: nat): string {
    mapName + "_" + NatToDecimal(i) + "_png.vmat"
  }

  function IconName(mapName: string): string {
    "map_icon_" + mapName + ".svg"
  }

  function DescriptionName(mapName: string): string {
    mapName + ".txt"
  }

  /** Equal strings that agree around the middle agree in the middle. */
  lemma MiddleEqual(a: string, x: string, y: string, b: string)
    requires a + x + b == a + y + b
    ensures x == y
  {
    var s := a + x + b;
    assert |x| == |y|;
    assert x == s[|a|..|a| + |x|];
    assert y == (a + y + b)[|a|..|a| + |y|];
  }

  /** Different image numbers give different file names for both the screenshot and its material. */
  lemma NamesDistinct(mapName: string, i: nat, j: nat)
    requires i != j
    ensures ImageName(mapName, i) != ImageName(mapName, j)
    ensures VmatName(mapName, i) != VmatName(mapName, j)
  {
    DecimalRoundTrip(i);
    DecimalRoundTrip(j);
    if ImageName(mapName, i) == ImageName(mapName, j) {
      MiddleEqual(mapName + "_", NatToDecimal(i), NatToDecimal(j), ".png");
    }
    if VmatName(mapName, i) == VmatName(mapName, j) {
      MiddleEqual(mapName + "_", NatToDecimal(i), NatToDecimal(j), "_png.vmat");
    }
  }

  /** A screenshot name never equals a material name. */
  lemma ImageAndVmatDiffer(mapName: string, i: nat, j: nat)
    ensures ImageName(mapName, i) != VmatName(mapName, j)
  {
    var p, v := ImageName(mapName, i), VmatName(mapName, j);
    assert p[|p| - 1] == 'g';
    assert v[|v| - 1] == 't';
  }

  // ---------------------------------------------------------------- description

  /**
   * The description as written: the text box's content less exactly one
   * trailing newline; nothing is written when that leaves it empty.
   */
  function DescriptionText(boxText: string): (d: Option<string>)
    ensures d.None? <==> boxText == "" || boxText == "\n"
    ensures d.Some? ==> d.value != "" && (d.value + "\n" == boxText || (d.value == boxText && !EndsWith(boxText, "\n")))
  {
    var t := if EndsWith(boxText, "\n") then boxText[..|boxText| - 1] else boxText;
    if t == "" then None else Some(t)
  }

  /** Leading and inner whitespace, and all but one trailing newline, survive. */
  lemma DescriptionKeepsText(t: string)
    requires t != ""
    ensures DescriptionText(t + "\n") == Some(t)
  {
    assert (t + "\n")[..|t|] == t;
  }

  // ---------------------------------------------------------------- folders

  function ContentAddonDir(cs2: string, addon: string): string {
    Paths.JoinAll(cs2, ["content", "csgo_addons", addon])
  }

  function GameAddonDir(cs2: string, addon: string): string {
    Paths.JoinAll(cs2, ["game", "csgo_addons", addon])
  }

  function MapIconDir(cs2: string, addon: string): string {
    Paths.JoinAll(ContentAddonDir(cs2, addon), ["panorama", "images", "map_icons"])
  }

  function ScreenshotDir(cs2: string, addon: string): string {
    Paths.JoinAll(ContentAddonDir(cs2, addon), ["panorama", "images", "map_icons", "screenshots", "1080p"])
  }

  function MapsDir(cs2: string, addon: string): string {
    Paths.JoinAll(GameAddonDir(cs2, addon), ["maps"])
  }

  /** Joining plain components onto a plain directory leaves a plain directory. */
  lemma JoinedIsPlain(a: string, parts: seq<string>)
    requires a != "" && !EndsWith(a, [Paths.Sep]) && |parts| > 0
    requires forall k :: 0 <= k < |parts| ==> Paths.IsRelativeComponent(parts[k])
    ensures Paths.JoinAll(a, parts) == a + Paths.SepPrefixed(parts)
    ensures Paths.JoinAll(a, parts) != "" && !EndsWith(Paths.JoinAll(a, parts), [Paths.Sep])
  {
    Paths.JoinAllPlain(a, parts);
    var last := parts[|parts| - 1];
    Paths.SepPrefixedAppend(parts[..|parts| - 1], [last]);
    assert parts[..|parts| - 1] + [last] == parts;
    Paths.SepPrefixedOne(last);
    var j := Paths.JoinAll(a, parts);
    assert j[|j| - 1] == last[|last| - 1];
  }

  lemma JoinThree(a: string, x: string, y: string, z: string)
    requires a != "" && !EndsWith(a, [Paths.Sep])
    requires Paths.IsRelativeComponent(x) && Paths.IsRelativeComponent(y) && Paths.IsRelativeComponent(z)
    ensures Paths.JoinAll(a, [x, y, z]) == a + "/" + x + "/" + y + "/" + z
    ensures Paths.JoinAll(a, [x, y, z]) != "" && !EndsWith(Paths.JoinAll(a, [x, y, z]), [Paths.Sep])
  {
    var parts := [x, y, z];
    assert forall k :: 0 <= k < 3 ==> Paths.IsRelativeComponent(parts[k]);
    JoinedIsPlain(a, parts);
    Paths.SepPrefixedThree(x, y, z);
  }

  lemma JoinFive(a: string, x: string, y: string, z: string, u: string, v: string)
    requires a != "" && !EndsWith(a, [Paths.Sep])
    requires Paths.IsRelativeComponent(x) && Paths.IsRelativeComponent(y) && Paths.IsRelativeComponent(z)
    requires Paths.IsRelativeComponent(u) && Paths.IsRelativeComponent(v)
    ensures Paths.JoinAll(a, [x, y, z, u, v]) == Paths.JoinAll(a, [x, y, z]) + "/" + u + "/" + v
  {
    var three := [x, y, z];
    assert forall k :: 0 <= k < 3 ==> Paths.IsRelativeComponent(three[k]);
    JoinedIsPlain(a, three);
    assert [x, y, z, u, v] == three + [u, v];
    Paths.JoinAllAppend(a, three, [u, v]);
    var b := Paths.JoinAll(a, three);
    assert forall k :: 0 <= k < 2 ==> Paths.IsRelativeComponent([u, v][k]);
    Paths.JoinAllPlain(b, [u, v]);
    Paths.SepPrefixedTwo(u, v);
    var s: string := "/";
    Assoc(b, s + u + s, v);
    Assoc(b, s + u, s);
    Assoc(b, s, u);
  }

  /** With a plain install path and addon name the folders nest as the game expects: screenshots under the map icons. */
  lemma FolderLayout(cs2: string, addon: string)
    requires cs2 != "" && !EndsWith(cs2, [Paths.Sep]) && Paths.IsRelativeComponent(addon)
    ensures ContentAddonDir(cs2, addon) == cs2 + "/" + "content" + "/" + "csgo_addons" + "/" + addon
    ensures MapIconDir(cs2, addon) == ContentAddonDir(cs2, addon) + "/" + "panorama" + "/" + "images" + "/" + "map_icons"
    ensures ScreenshotDir(cs2, addon) == MapIconDir(cs2, addon) + "/" + "screenshots" + "/" + "1080p"
    ensures MapsDir(cs2, addon) == GameAddonDir(cs2, addon) + "/" + "maps"
    ensures GameAddonDir(cs2, addon) == cs2 + "/" + "game" + "/" + "csgo_addons" + "/" + addon
  {
    JoinThree(cs2, "content", "csgo_addons", addon);
    var c := ContentAddonDir(cs2, addon);
    JoinThree(c, "panorama", "images", "map_icons");
    JoinFive(c, "panorama", "images", "map_icons", "screenshots", "1080p");
    JoinThree(cs2, "game", "csgo_addons", addon);
    var g := GameAddonDir(cs2, addon);
    Paths.JoinAllPlain(g, ["maps"]);
    Paths.SepPrefixedOne("maps");
  }

  // ---------------------------------------------------------------- creating

  /** A selected screenshot and, when it could be opened, its size. */
  datatype ImageFile = ImageFile(path: string, size: Option<(nat, nat)>)

  /** An image the crop can handle: it opens and has a height. */
  predicate Opens(img: ImageFile) {
    img.size.Some? && img.size.value.1 > 0
  }

  /** A file the creator produces. */
  datatype Output =
    | Png(path: string, source: string, crop: Box)
    | Vmat(path: string, index: nat)
    | Icon(path: string, source: string)
    | Description(path: string, text: string)

  /** The screenshot and material made from image number `n`. */
  function ImagePair(mapName: string, dir: string, img: ImageFile, n: nat): seq<Output>
    requires Opens(img)
  {
    [Png(Paths.Join(dir, ImageName(mapName, n)), img.path, CropBox(img.size.value.0, img.size.value.1).value),
     Vmat(Paths.Join(dir, VmatName(mapName, n)), n)]
  }

  /** The outputs of images `first, first + 1, ...` up to the first one that fails; the flag says whether none failed. */
  function ImageOutputs(mapName: string, dir: string, images: seq<ImageFile>, first: nat): (r: (seq<Output>, bool))
    ensures r.1 <==> forall k :: 0 <= k < |images| ==> Opens(images[k])
    ensures r.1 ==> |r.0| == 2 * |images|
    ensures !r.1 ==> exists bad :: 0 <= bad < |images| && !Opens(images[bad]) && |r.0| == 2 * bad
                       && forall k :: 0 <= k < bad ==> Opens(images[k])
    ensures forall k :: 0 <= k < |images| && 2 * k + 2 <= |r.0| ==>
      Opens(images[k]) && r.0[2 * k..2 * k + 2] == ImagePair(mapName, dir, images[k], first + k)
    decreases |images|
  {
    if |images| == 0 then ([], true)
    else if !Opens(images[0]) then ([], false)
    else
      var rest := ImageOutputs(mapName, dir, images[1..], first + 1);
      var pair := ImagePair(mapName, dir, images[0], first);
      var out := pair + rest.0;
      ImageOutputsShift(mapName, dir, images, first, rest.0, pair, out);
      (out, rest.1)
  }

  lemma ImageOutputsShift(mapName: string, dir: string, images: seq<ImageFile>, first: nat,
                          rest: seq<Output>, pair: seq<Output>, out: seq<Output>)
    requires |images| > 0 && Opens(images[0])
    requires pair == ImagePair(mapName, dir, images[0], first) && out == pair + rest
    requires forall k :: 0 <= k < |images| - 1 && 2 * k + 2 <= |rest| ==>
      Opens(images[1..][k]) && rest[2 * k..2 * k + 2] == ImagePair(mapName, dir, images[1..][k], first + 1 + k)
    ensures forall k :: 0 <= k < |images| && 2 * k + 2 <= |out| ==>
      Opens(images[k]) && out[2 * k..2 * k + 2] == ImagePair(mapName, dir, images[k], first + k)
  {
    forall k | 0 <= k < |images| && 2 * k + 2 <= |out|
      ensures Opens(images[k]) && out[2 * k..2 * k + 2] == ImagePair(mapName, dir, images[k], first + k)
    {
      if k == 0 {
        assert out[..2] == pair;
      } else {
        assert images[1..][k - 1] == images[k];
        SliceAfter(pair, rest, 2 * k, 2 * k + 2);
      }
    }
  }

  /** A slice lying wholly after the first part of a concatenation is a slice of the second part. */
  lemma SliceAfter(p: seq<Output>, r: seq<Output>, a: nat, b: nat)
    requires |p| <= a <= b <= |p| + |r|
    ensures (p + r)[a..b] == r[a - |p|..b - |p|]
  {
  }

  lemma PairsSurviveAppend(a: seq<Output>, b: seq<Output>)
    ensures forall k :: 0 <= k && 2 * k + 2 <= |a| ==> (a + b)[2 * k..2 * k + 2] == a[2 * k..2 * k + 2]
  {
  }

  /** How `create_files` ends: a validation message, an error after some files were made, or success. */
  datatype Outcome =
    | Invalid(problem: Problem)
    | Failed(dirs: seq<string>, written: seq<Output>)
    | Created(dirs: seq<string>, written: seq<Output>)

  /** Why `create_files` refuses to start. */
  datatype Problem = NoAddonName | NoMapName | Cs2NotFound

  /** The title and text of the message box shown for each problem. */
  function ProblemBox(p: Problem): (box: (string, string)) {
    match p
    case NoAddonName => ("Error", "Please enter an addon folder name!")
    case NoMapName => ("Error", "Please enter a map name!")
    case Cs2NotFound =>
      ("CS2 Not Found",
       "Could not automatically find CS2 installation.\n\nPlease make sure Counter-Strike 2 is installed via Steam.")
  }

  predicate Truthy(s: Option<string>) { s.Some? && s.value != "" }

  /**
   * `create_files`. The addon and map fields are stripped; `cs2` is the
   * detected install path; `boxText` is the description box's content. The
   * folders are created first, then screenshots with their materials in
   * selection order, then the icon, then the description.
   */
  function CreateFiles(addonField: string, mapField: string, cs2: Option<string>, images: seq<ImageFile>,
                       svg: Option<string>, boxText: string): (o: Outcome)
    ensures o.Invalid? <==> IsBlank(addonField) || IsBlank(mapField) || !Truthy(cs2)
    ensures IsBlank(addonField) ==> o == Invalid(NoAddonName)
    ensures !IsBlank(addonField) && IsBlank(mapField) ==> o == Invalid(NoMapName)
    ensures !IsBlank(addonField) && !IsBlank(mapField) && !Truthy(cs2) ==> o == Invalid(Cs2NotFound)
    ensures o.Failed? <==> !o.Invalid? && exists k :: 0 <= k < |images| && !Opens(images[k])
    ensures !o.Invalid? ==>
      var addon, mapName := Strip(addonField), Strip(mapField);
      o.dirs == [ScreenshotDir(cs2.value, addon), MapIconDir(cs2.value, addon), MapsDir(cs2.value, addon)]
    ensures o.Created? ==>
      var mapName := Strip(mapField);
      var extra := (if Truthy(svg) then 1 else 0) + (if DescriptionText(boxText).Some? then 1 else 0);
      |o.written| == 2 * |images| + extra
      && (forall k :: 0 <= k < |images| ==>
            o.written[2 * k..2 * k + 2] == ImagePair(mapName, o.dirs[0], images[k], k + 1))
    ensures o.Created? && Truthy(svg) ==>
      o.written[2 * |images|] == Icon(Paths.Join(o.dirs[1], "map_icon_" + Strip(mapField) + ".svg"), svg.value)
    ensures o.Created? && DescriptionText(boxText).Some? ==>
      o.written[|o.written| - 1] == Description(Paths.Join(o.dirs[2], Strip(mapField) + ".txt"), DescriptionText(boxText).value)
  {
    if IsBlank(addonField) then Invalid(NoAddonName)
    else if IsBlank(mapField) then Invalid(NoMapName)
    else if !Truthy(cs2) then Invalid(Cs2NotFound)
    else
      var addon, mapName := Strip(addonField), Strip(mapField);
      var root := cs2.value;
      var dirs := [ScreenshotDir(root, addon), MapIconDir(root, addon), MapsDir(root, addon)];
      WriteOutputs(mapName, dirs, images, svg, boxText)
  }

  /**
   * The files `create_files` writes once its folders exist: screenshots with
   * their materials in selection order, stopping at the first image that
   * fails, then the icon when an SVG was chosen, then the description when
   * the box holds text.
   */
  function WriteOutputs(mapName: string, dirs: seq<string>, images: seq<ImageFile>, svg: Option<string>, boxText: string): (o: Outcome)
    requires |dirs| == 3
    ensures (o.Failed? || o.Created?) && o.dirs == dirs
    ensures o.Failed? <==> exists k :: 0 <= k < |images| && !Opens(images[k])
    ensures o.Created? ==>
      var extra := (if Truthy(svg) then 1 else 0) + (if DescriptionText(boxText).Some? then 1 else 0);
      |o.written| == 2 * |images| + extra
      && (forall k :: 0 <= k < |images| ==>
            o.written[2 * k..2 * k + 2] == ImagePair(mapName, dirs[0], images[k], k + 1))
    ensures o.Created? && Truthy(svg) ==>
      o.written[2 * |images|] == Icon(Paths.Join(dirs[1], "map_icon_" + mapName + ".svg"), svg.value)
    ensures o.Created? && DescriptionText(boxText).Some? ==>
      o.written[|o.written| - 1] == Description(Paths.Join(dirs[2], mapName + ".txt"), DescriptionText(boxText).value)
  {
    var shots := ImageOutputs(mapName, dirs[0], images, 1);
    if !shots.1 then Failed(dirs, shots.0)
    else
      var icon := if Truthy(svg) then [Icon(Paths.Join(dirs[1], IconName(mapName)), svg.value)] else [];
      var desc := match DescriptionText(boxText)
        case Some(t) => [Description(Paths.Join(dirs[2], DescriptionName(mapName)), t)]
        case None => [];
      PairsSurviveAppend(shots.0, icon + desc);
      Created(dirs, shots.0 + (icon + desc))
  }
}

=== FILE: paths.dfy ===
/**
 * The parts of Python's `os.path` the tools use, with POSIX semantics
 * (`/` is the only separator, no drive letters).
 */
module Paths {
  import opened Text

  const Sep: char := '/'

  function RStripChar(s: string, c: char): (r: string)
    ensures |r| <= |s| && r == s[..|r|]
    ensures |r| > 0 ==> r[|r| - 1] != c
    ensures forall i :: |r| <= i < |s| ==> s[i] == c
  {
    if |s| > 0 && s[|s| - 1] == c then RStripChar(s[..|s| - 1], c) else s
  }

  /** `os.path.basename(p)`: the text after the last separator. */
  function Basename(p: string): (b: string)
    ensures Sep !in b
    ensures EndsWith(p, b)
    ensures Sep !in p ==> b == p
  {
    p[RFind(p, Sep) + 1..]
  }

  /** `os.path.dirname(p)`: the text up to the last separator, trailing separators removed unless it is all separators. */
  function Dirname(p: string): (d: string)
    ensures StartsWith(p, d)
    ensures |d| == |p| ==> d == p
    ensures Sep !in p ==> d == ""
  {
    var head := p[..RFind(p, Sep) + 1];
    if head != [] && exists i :: 0 <= i < |head| && head[i] != Sep then RStripChar(head, Sep) else head
  }

  /**
   * `os.path.splitext(p)`: the extension starts at the last dot of the last
   * component, and is split off exactly when some character before that dot
   * in the component is not a dot (so `.rc` has no extension).
   */
  function SplitExt(p: string): (r: (string, string))
    ensures r.0 + r.1 == p
    ensures r.1 == "" || (r.1[0] == '.' && Sep !in r.1 && '.' !in r.1[1..])
    ensures r.1 != "" ==> exists i :: 0 <= i < |r.0| && r.0[i] != '.' && Sep !in r.0[i..]
    ensures r.1 == "" ==> forall i, j :: 0 <= i < j < |p| && Sep !in p[i..] && p[i] != '.' ==> p[j] != '.'
  {
    var sepIndex := RFind(p, Sep);
    var dotIndex := RFind(p, '.');
    if dotIndex > sepIndex && exists i :: sepIndex + 1 <= i < dotIndex && p[i] != '.' then
      ExtensionAfterName(p, sepIndex, dotIndex);
      (p[..dotIndex], p[dotIndex..])
    else
      NoExtension(p, sepIndex, dotIndex);
      (p, "")
  }

  /** Positions at or before the last separator see a separator after them. */
  lemma BeforeLastSep(p: string, sepIndex: int)
    requires sepIndex == RFind(p, Sep)
    ensures forall i :: 0 <= i <= sepIndex ==> Sep in p[i..]
  {
    forall i | 0 <= i <= sepIndex
      ensures Sep in p[i..]
    {
      assert p[i..][sepIndex - i] == Sep;
    }
  }

  lemma ExtensionAfterName(p: string, sepIndex: int, dotIndex: int)
    requires sepIndex == RFind(p, Sep) && 0 <= dotIndex < |p|
    requires dotIndex > sepIndex && exists i :: sepIndex + 1 <= i < dotIndex && p[i] != '.'
    ensures exists i :: 0 <= i < dotIndex && p[..dotIndex][i] != '.' && Sep !in p[..dotIndex][i..]
  {
    var i :| sepIndex + 1 <= i < dotIndex && p[i] != '.';
    assert p[..dotIndex][i..] == p[i..dotIndex];
    assert forall k :: i <= k < dotIndex ==> p[k] != Sep;
  }

  lemma NoExtension(p: string, sepIndex: int, dotIndex: int)
    requires sepIndex == RFind(p, Sep) && dotIndex == RFind(p, '.')
    requires !(dotIndex > sepIndex && exists i :: sepIndex + 1 <= i < dotIndex && p[i] != '.')
    ensures forall i, j :: 0 <= i < j < |p| && Sep !in p[i..] && p[i] != '.' ==> p[j] != '.'
  {
    BeforeLastSep(p, sepIndex);
  }

  /** Two cases of `splitext`: only the last dot counts, and a leading-dot name has no extension. */
  lemma SplitExtExamples()
    ensures SplitExt("a/b.c.png") == ("a/b.c", ".png")
    ensures SplitExt(".rc") == (".rc", "")
  {
    var p := "a/b.c.png";
    assert |p| == 9 && p[1] == Sep && p[5] == '.' && p[2] != '.';
    assert forall k :: 0 <= k < |p| && k != 1 ==> p[k] != Sep;
    assert forall k :: 5 < k < |p| ==> p[k] != '.';
    assert RFind(p, Sep) == 1;
    assert RFind(p, '.') == 5;
    assert p[..5] == "a/b.c" && p[5..] == ".png";
    var q := ".rc";
    assert |q| == 3 && q[0] == '.' && q[1] != '.' && q[2] != '.';
    assert Sep !in q;
    assert RFind(q, Sep) == -1;
    assert RFind(q, '.') == 0;
  }

  /** `os.path.splitext(os.path.basename(p))[0]`: the file name without its extension. */
  function Stem(p: string): string {
    SplitExt(Basename(p)).0
  }

  /** `os.path.join(a, b)` for one extra component. */
  function Join(a: string, b: string): (r: string)
    ensures StartsWith(b, [Sep]) ==> r == b
    ensures !StartsWith(b, [Sep]) && a != "" && !EndsWith(a, [Sep]) ==> r == a + [Sep] + b
  {
    if StartsWith(b, [Sep]) then b
    else if a == "" || EndsWith(a, [Sep]) then a + b
    else a + [Sep] + b
  }

  /** `os.path.join(a, *parts)` */
  function JoinAll(a: string, parts: seq<string>): string
    decreases |parts|
  {
    if |parts| == 0 then a else JoinAll(Join(a, parts[0]), parts[1..])
  }

  /** One plain component joined onto a directory that does not end in a separator. */
  lemma JoinPlain(a: string, b: string)
    requires a != "" && !EndsWith(a, [Sep]) && IsRelativeComponent(b)
    ensures Join(a, b) == a + "/" + b
    ensures Join(a, b) != "" && !EndsWith(Join(a, b), [Sep])
  {
    assert b[0] != Sep;
    var j := a + [Sep] + b;
    assert j[|j| - 1] == b[|b| - 1];
  }

  /** `os.path.join` of five plain components puts one separator before each. */
  lemma JoinAllFive(a: string, p0: string, p1: string, p2: string, p3: string, p4: string)
    requires a != "" && !EndsWith(a, [Sep])
    requires IsRelativeComponent(p0) && IsRelativeComponent(p1) && IsRelativeComponent(p2)
    requires IsRelativeComponent(p3) && IsRelativeComponent(p4)
    ensures JoinAll(a, [p0, p1, p2, p3, p4]) == a + "/" + p0 + "/" + p1 + "/" + p2 + "/" + p3 + "/" + p4
  {
    JoinPlain(a, p0);
    var j1 := Join(a, p0);
    JoinPlain(j1, p1);
    var j2 := Join(j1, p1);
    JoinPlain(j2, p2);
    var j3 := Join(j2, p2);
    JoinPlain(j3, p3);
    var j4 := Join(j3, p3);
    JoinPlain(j4, p4);
    var j5 := Join(j4, p4);
    assert [p0, p1, p2, p3, p4][1..] == [p1, p2, p3, p4];
    assert [p1, p2, p3, p4][1..] == [p2, p3, p4];
    assert [p2, p3, p4][1..] == [p3, p4];
    assert [p3, p4][1..] == [p4];
    assert [p4][1..] == [];
    assert JoinAll(j4, [p4]) == JoinAll(j5, []) == j5;
    assert JoinAll(j3, [p3, p4]) == JoinAll(j4, [p4]);
    assert JoinAll(j2, [p2, p3, p4]) == JoinAll(j3, [p3, p4]);
    assert JoinAll(j1, [p1, p2, p3, p4]) == JoinAll(j2, [p2, p3, p4]);
    assert JoinAll(a, [p0, p1, p2, p3, p4]) == JoinAll(j1, [p1, p2, p3, p4]);
  }

  /** Joining a concatenation of components joins the first group, then the second. */
  lemma {:induction false} JoinAllAppend(a: string, p: seq<string>, q: seq<string>)
    ensures JoinAll(a, p + q) == JoinAll(JoinAll(a, p), q)
    decreases |p|
  {
    if |p| == 0 {
      assert p + q == q;
    } else {
      assert (p + q)[0] == p[0] && (p + q)[1..] == p[1..] + q;
      JoinAllAppend(Join(a, p[0]), p[1..], q);
    }
  }

  /** A component that `Join` appends with exactly one separator. */
  predicate IsRelativeComponent(s: string) {
    s != "" && Sep !in s
  }

  /** Joining plain components onto a directory that does not end in a separator inserts exactly one separator before each. */
  lemma {:induction false} JoinAllPlain(a: string, parts: seq<string>)
    requires a != "" && !EndsWith(a, [Sep])
    requires forall k :: 0 <= k < |parts| ==> IsRelativeComponent(parts[k])
    ensures JoinAll(a, parts) == a + SepPrefixed(parts)
    decreases |parts|
  {
    if |parts| > 0 {
      var b := parts[0];
      assert b[0] != Sep;
      assert !StartsWith(b, [Sep]);
      var a' := Join(a, b);
      assert a' == a + [Sep] + b;
      assert a' != "" && !EndsWith(a', [Sep]) by {
        assert a'[|a'| - 1] == b[|b| - 1];
      }
      JoinAllPlain(a', parts[1..]);
      assert SepPrefixed(parts) == [Sep] + b + SepPrefixed(parts[1..]);
    }
  }

  /** Each component preceded by one separator. */
  function SepPrefixed(parts: seq<string>): string
    decreases |parts|
  {
    if |parts| == 0 then "" else [Sep] + parts[0] + SepPrefixed(parts[1..])
  }

  lemma SepPrefixedOne(a: string)
    ensures SepPrefixed([a]) == "/" + a
  {
    assert [a][1..] == [];
    assert SepPrefixed([a]) == "/" + a + "";
  }

  lemma SepPrefixedCons(a: string, rest: seq<string>)
    ensures SepPrefixed([a] + rest) == "/" + a + SepPrefixed(rest)
  {
    assert ([a] + rest)[1..] == rest;
  }

  lemma SepPrefixedTwo(a: string, b: string)
    ensures SepPrefixed([a, b]) == "/" + a + "/" + b
  {
    SepPrefixedCons(a, [b]);
    assert [a, b] == [a] + [b];
    SepPrefixedOne(b);
  }

  lemma SepPrefixedThree(a: string, b: string, c: string)
    ensures SepPrefixed([a, b, c]) == "/" + a + "/" + b + "/" + c
  {
    SepPrefixedTwo(b, c);
    SepPrefixedCons(a, [b, c]);
    assert [a, b, c] == [a] + [b, c];
  }

  lemma {:induction false} SepPrefixedAppend(a: seq<string>, b: seq<string>)
    ensures SepPrefixed(a + b) == SepPrefixed(a) + SepPrefixed(b)
    decreases |a|
  {
    if |a| > 0 {
      assert (a + b)[1..] == a[1..] + b;
      SepPrefixedAppend(a[1..], b);
    } else {
      assert a + b == b;
    }
  }
}

=== FILE: raster.dfy ===
/**
 * RGBA pixel grids as the tools handle them through Pillow: blank canvases,
 * clipped pasting that overwrites every channel, and resampling filters
 * described by the size they produce.
 */
module Raster {
  type Byte = x: int | 0 <= x < 256

  datatype Pixel = Pixel(r: Byte, g: Byte, b: Byte, a: Byte)

  const Transparent: Pixel := Pixel(0, 0, 0, 0)

  /** A `width` by `height` grid; only the pixels with `x < width` and `y < height` belong to the image. */
  datatype Image = Image(width: nat, height: nat, pixel: (nat, nat) -> Pixel)

  function At(img: Image, x: nat, y: nat): Pixel
    requires x < img.width && y < img.height
  {
    img.pixel(x, y)
  }

  /** `Image.new('RGBA', (w, h), fill)` */
  function Blank(w: nat, h: nat, fill: Pixel): (r: Image)
    ensures r.width == w && r.height == h
  {
    Image(w, h, (x: nat, y: nat) => fill)
  }

  /** Every pixel of a blank canvas has the fill colour. */
  lemma BlankPixel(w: nat, h: nat, fill: Pixel, x: nat, y: nat)
    requires x < w && y < h
    ensures At(Blank(w, h, fill), x, y) == fill
  {
  }

  /** Pixel `(x, y)` of the destination lies under `src` placed with its corner at `(ox, oy)`. */
  predicate Under(src: Image, ox: nat, oy: nat, x: nat, y: nat) {
    ox <= x < ox + src.width && oy <= y < oy + src.height
  }

  /**
   * `dst.paste(src, (ox, oy))` without a mask: the covered pixels take all four
   * channels of `src`, whatever falls outside `dst` is clipped away, and every
   * other pixel keeps its value.
   */
  function Paste(dst: Image, src: Image, ox: nat, oy: nat): (r: Image)
    ensures r.width == dst.width && r.height == dst.height
  {
    Image(dst.width, dst.height,
      (x: nat, y: nat) => if Under(src, ox, oy, x, y) then src.pixel(x - ox, y - oy) else dst.pixel(x, y))
  }

  /** A pasted pixel shows the source where the source lies over it, and keeps the destination elsewhere. */
  lemma PastePixel(dst: Image, src: Image, ox: nat, oy: nat, x: nat, y: nat)
    requires x < dst.width && y < dst.height
    ensures Under(src, ox, oy, x, y) ==> At(Paste(dst, src, ox, oy), x, y) == At(src, x - ox, y - oy)
    ensures !Under(src, ox, oy, x, y) ==> At(Paste(dst, src, ox, oy), x, y) == At(dst, x, y)
  {
  }

  /**
   * A resampling filter: `resample(img, w, h)` is `img` resized to `w` by `h`.
   * Only the size of the result is fixed; the pixel values are the filter's
   * own, since Pillow's LANCZOS filter blends neighbouring source pixels.
   */
  type Resampler = f: (Image, nat, nat) -> Image | forall img, w, h :: f(img, w, h).width == w && f(img, w, h).height == h
    witness (img: Image, w: nat, h: nat) => Blank(w, h, Transparent)
}

=== FILE: s2v_updater.dfy ===
/**
 * The Source2Viewer auto-updater's decisions: the remote version taken from
 * the latest commit, the local version read from the executable's product
 * version string, whether to update, and the `key=value` version cache it
 * keeps next to the launcher. Network access, the Windows version resource
 * and the file system are inputs.
 */
module S2vUpdater {
  import opened Wrappers
  import opened Text

  predicate IsHexChar(c: char) {
    IsDigitChar(c) || 'a' <= c <= 'f' || 'A' <= c <= 'F'
  }

  function Min(a: int, b: int): int { if a <= b then a else b }

  // ---------------------------------------------------------------- versions

  /** The remote version: the first eight characters of the commit SHA, upper-cased; nothing when there is no SHA. */
  function RemoteVersion(sha: Option<string>): (v: Option<string>)
    ensures v.Some? <==> sha.Some? && sha.value != ""
    ensures v.Some? ==> |v.value| == Min(8, |sha.value|) && v.value == Upper(sha.value[..|v.value|])
  {
    if sha.Some? && sha.value != "" then Some(Upper(sha.value[..Min(8, |sha.value|)])) else None
  }

  /** The number of hex digits in a row from index `i`. */
  function HexRun(s: string, i: nat): (n: nat)
    ensures i + n <= |s| || (i >= |s| && n == 0)
    ensures forall k :: i <= k < i + n ==> IsHexChar(s[k])
    ensures i + n < |s| ==> !IsHexChar(s[i + n])
    decreases |s| - i
  {
    if i < |s| && IsHexChar(s[i]) then 1 + HexRun(s, i + 1) else 0
  }

  /** A `+` at index `i` followed by at least six hex digits: where `\+([a-fA-F0-9]{6,8})` can match. */
  predicate ShaAt(s: string, i: nat) {
    i < |s| && s[i] == '+' && HexRun(s, i + 1) >= 6
  }

  /** The first index from `from` on where the pattern matches. */
  function FirstShaAt(s: string, from: nat): (r: Option<nat>)
    ensures r.Some? ==> from <= r.value && ShaAt(s, r.value) && forall j :: from <= j < r.value ==> !ShaAt(s, j)
    ensures r.None? ==> forall j :: from <= j ==> !ShaAt(s, j)
    decreases |s| - from
  {
    if from >= |s| then None
    else if ShaAt(s, from) then Some(from)
    else FirstShaAt(s, from + 1)
  }

  /** `re.search(r'\+([a-fA-F0-9]{6,8})', s).group(1)`: the leftmost match, taking as many digits as it can, up to eight. */
  function EmbeddedSha(s: string): (g: Option<string>)
    ensures g.None? <==> forall j :: !ShaAt(s, j)
    ensures g.Some? ==> 6 <= |g.value| <= 8 && forall k :: 0 <= k < |g.value| ==> IsHexChar(g.value[k])
  {
    match FirstShaAt(s, 0)
    case Some(i) =>
      var n := Min(HexRun(s, i + 1), 8);
      Some(s[i + 1..i + 1 + n])
    case None => None
  }

  /** The match starts right after the first qualifying `+`, and stops at eight digits or at the first non-digit. */
  lemma EmbeddedShaIsLeftmostLongest(s: string)
    requires EmbeddedSha(s).Some?
    ensures exists i: nat :: ShaAt(s, i) && (forall j :: 0 <= j < i ==> !ShaAt(s, j))
                        && s[i + 1..i + 1 + |EmbeddedSha(s).value|] == EmbeddedSha(s).value
                        && (|EmbeddedSha(s).value| < 8 ==> i + 1 + |EmbeddedSha(s).value| == |s| || !IsHexChar(s[i + 1 + |EmbeddedSha(s).value|]))
  {
    var i := FirstShaAt(s, 0).value;
    var g := EmbeddedSha(s).value;
    ShaMatchAt(s);
    assert ShaAt(s, i) && (forall j :: 0 <= j < i ==> !ShaAt(s, j))
           && s[i + 1..i + 1 + |g|] == g
           && (|g| < 8 ==> i + 1 + |g| == |s| || !IsHexChar(s[i + 1 + |g|]));
  }

  /** The match's digits follow the first qualifying `+` and stop at eight or at the first non-digit. */
  lemma ShaMatchAt(s: string)
    requires EmbeddedSha(s).Some?
    ensures FirstShaAt(s, 0).Some?
    ensures var i := FirstShaAt(s, 0).value;
            var g := EmbeddedSha(s).value;
            i + 1 + |g| <= |s| && s[i + 1..i + 1 + |g|] == g
            && (|g| < 8 ==> i + 1 + |g| == |s| || !IsHexChar(s[i + 1 + |g|]))
  {
    var i := FirstShaAt(s, 0).value;
    var run := HexRun(s, i + 1);
    assert EmbeddedSha(s).value == s[i + 1..i + 1 + Min(run, 8)];
  }

  /**
   * `get_local_version`: "0" when the executable is missing or the version
   * resource cannot be read on this platform; otherwise the embedded SHA of
   * the first locale's product version that has one, upper-cased, or "0"
   * when none has. An unreadable locale is `None`.
   */
  function LocalVersion(exeExists: bool, canRead: bool, productVersions: seq<Option<string>>): (v: string)
    ensures v != "0" <==> exeExists && canRead && exists k :: 0 <= k < |productVersions| && HasSha(productVersions[k])
    ensures v != "0" ==> exists k :: 0 <= k < |productVersions| && HasSha(productVersions[k])
                          && (forall j :: 0 <= j < k ==> !HasSha(productVersions[j]))
                          && v == Upper(EmbeddedSha(productVersions[k].value).value)
    decreases |productVersions|
  {
    if !exeExists || !canRead || |productVersions| == 0 then "0"
    else if HasSha(productVersions[0]) then
      var v := Upper(EmbeddedSha(productVersions[0].value).value);
      assert |v| >= 6;
      v
    else
      var v := LocalVersion(exeExists, canRead, productVersions[1..]);
      assert forall k :: 1 <= k < |productVersions| ==> productVersions[k] == productVersions[1..][k - 1];
      v
  }

  /** A product version string in which the pattern matches. */
  predicate HasSha(pv: Option<string>) {
    pv.Some? && EmbeddedSha(pv.value).Some?
  }

  /** What `main` does next. */
  datatype Decision = Abort | Install(version: string) | UpToDate(local: string, remote: string)

  /** No remote version aborts; otherwise the versions differing triggers an install. */
  function Decide(remote: Option<string>, local: string): (d: Decision)
    ensures d.Abort? <==> remote.None?
    ensures d.Install? <==> remote.Some? && remote.value != local
    ensures d.Install? ==> d.version == remote.value
    ensures d.UpToDate? ==> d.local == local && d.remote == remote.value && d.local == d.remote
  {
    match remote
    case None => Abort
    case Some(r) => if r != local then Install(r) else UpToDate(local, r)
  }

  /** A local version that could not be read is out of date against any SHA of two or more characters. */
  lemma UnreadableLocalUpdates(sha: string)
    requires |sha| >= 2
    ensures Decide(RemoteVersion(Some(sha)), "0") == Install(RemoteVersion(Some(sha)).value)
  {
    assert |RemoteVersion(Some(sha)).value| >= 2;
  }

  // ---------------------------------------------------------------- the version cache

  /** The cache's entries in file order; a Python dict keeps insertion order. */
  type Entries = seq<(string, string)>

  predicate UniqueKeys(d: Entries) {
    forall i, j :: 0 <= i < j < |d| ==> d[i].0 != d[j].0
  }

  function Lookup(d: Entries, key: string): (r: Option<string>)
    ensures r.Some? <==> exists i :: 0 <= i < |d| && d[i].0 == key
    ensures UniqueKeys(d) ==> forall i :: 0 <= i < |d| && d[i].0 == key ==> r == Some(d[i].1)
    decreases |d|
  {
    if |d| == 0 then None
    else if d[0].0 == key then Some(d[0].1)
    else
      assert forall i :: 1 <= i < |d| ==> d[i] == d[1..][i - 1];
      Lookup(d[1..], key)
  }

  /** The position of `key`, if present. */
  function IndexOf(d: Entries, key: string): (r: Option<nat>)
    ensures r.Some? ==> r.value < |d| && d[r.value].0 == key
    ensures r.None? ==> forall i :: 0 <= i < |d| ==> d[i].0 != key
    decreases |d|
  {
    if |d| == 0 then None
    else if d[0].0 == key then Some(0)
    else
      match IndexOf(d[1..], key)
      case Some(i) => Some(i + 1)
      case None => None
  }

  /** `d[key] = value`: an existing key keeps its place, a new key goes last. */
  function Put(d: Entries, key: string, value: string): (r: Entries)
    requires UniqueKeys(d)
    ensures UniqueKeys(r)
    ensures |r| == |d| || (|r| == |d| + 1 && r[..|d|] == d && Lookup(d, key).None?)
    ensures forall i :: 0 <= i < |d| ==> r[i].0 == d[i].0 && (d[i].0 != key ==> r[i] == d[i])
    ensures Lookup(r, key) == Some(value)
    ensures forall k :: k != key ==> Lookup(r, k) == Lookup(d, k)
  {
    match IndexOf(d, key)
    case Some(i) =>
      UpdateKeepsOthers(d, i, key, value);
      d[i := (key, value)]
    case None =>
      AppendKeepsOthers(d, key, value);
      d + [(key, value)]
  }

  /** Overwriting the value of the entry holding `key` changes the lookup of `key` alone. */
  lemma UpdateKeepsOthers(d: Entries, i: nat, key: string, value: string)
    requires UniqueKeys(d) && i < |d| && d[i].0 == key
    ensures var r := d[i := (key, value)];
            UniqueKeys(r) && Lookup(r, key) == Some(value) && forall k :: k != key ==> Lookup(r, k) == Lookup(d, k)
  {
    var r := d[i := (key, value)];
    assert forall j :: 0 <= j < |d| ==> r[j].0 == d[j].0;
    assert r[i].0 == key;
    forall k | k != key
      ensures Lookup(r, k) == Lookup(d, k)
    {
      assert forall j :: 0 <= j < |d| && d[j].0 == k ==> r[j] == d[j];
    }
  }

  /** Appending an entry for a new key changes the lookup of that key alone. */
  lemma AppendKeepsOthers(d: Entries, key: string, value: string)
    requires UniqueKeys(d) && forall i :: 0 <= i < |d| ==> d[i].0 != key
    ensures var r := d + [(key, value)];
            UniqueKeys(r) && r[..|d|] == d && Lookup(r, key) == Some(value)
            && forall k :: k != key ==> Lookup(r, k) == Lookup(d, k)
  {
    var r := d + [(key, value)];
    assert r[|d|].0 == key;
    assert r[..|d|] == d;
    forall k | k != key
      ensures Lookup(r, k) == Lookup(d, k)
    {
      assert forall j :: 0 <= j < |d| ==> r[j] == d[j];
    }
  }

  /**
   * One line of the cache: with an `=` anywhere, the stripped line split at
   * its first `=`, both halves stripped again when `stripParts` (as `main`
   * does; `download_and_install` does not); without one, nothing.
   */
  function ParseLine(line: string, stripParts: bool): (r: Option<(string, string)>)
    ensures r.Some? <==> '=' in line
    ensures r.Some? ==> '=' !in r.value.0
  {
    if '=' in line then
      var t := Strip(line);
      StripKeepsChar(line, '=');
      var kv := SplitFirst(t, '=');
      if stripParts then
        StripKeepsAbsence(kv.0, '=');
        Some((Strip(kv.0), Strip(kv.1)))
      else Some(kv)
    else None
  }

  lemma StripKeepsChar(s: string, c: char)
    requires c in s && !IsSpaceChar(c)
    ensures c in Strip(s)
  {
    var i :| 0 <= i < |s| && s[i] == c;
    var l := LStrip(s);
    assert l[i - (|s| - |l|)] == c;
    var r := RStrip(l);
    assert r[i - (|s| - |l|)] == c;
  }

  lemma StripKeepsAbsence(s: string, c: char)
    requires c !in s
    ensures c !in Strip(s)
  {
    var l := LStrip(s);
    var r := RStrip(l);
    assert forall k :: 0 <= k < |r| ==> r[k] == l[k] == s[|s| - |l| + k];
  }

  /** The entries of the cache lines, in order, later lines overriding earlier ones. */
  function ParseInto(acc: Entries, lines: seq<string>, stripParts: bool): (r: Entries)
    requires UniqueKeys(acc)
    ensures UniqueKeys(r)
    decreases |lines|
  {
    if |lines| == 0 then acc
    else
      match ParseLine(lines[0], stripParts)
      case Some(kv) => ParseInto(Put(acc, kv.0, kv.1), lines[1..], stripParts)
      case None => ParseInto(acc, lines[1..], stripParts)
  }

  /**
   * Text-mode reading with universal newlines: `\r\n` and a lone `\r` both
   * end a line, as `\n` does.
   */
  function UniversalNewlines(s: string): (t: string)
    ensures '\r' !in t
    ensures '\r' !in s ==> t == s
    decreases |s|
  {
    if |s| == 0 then s
    else
      var rest := if s[0] == '\r' && |s| > 1 && s[1] == '\n' then s[2..] else s[1..];
      var head := if s[0] == '\r' then '\n' else s[0];
      var t := [head] + UniversalNewlines(rest);
      assert s[0] != '\r' ==> s == [s[0]] + s[1..];
      t
  }

  /** `for line in f` over the cache file, opened in text mode. */
  function ParseVersions(content: string, stripParts: bool): Entries {
    ParseInto([], Split(UniversalNewlines(content), '\n'), stripParts)
  }

  /** A carriage return inside a value ends the line there: `a\rb` is read as the two lines `a` and `b`. */
  lemma CarriageReturnSplitsLine()
    ensures Split(UniversalNewlines("a\rb"), '\n') == ["a", "b"]
  {
    var s := "a\rb";
    assert s[1..] == "\rb" && s[1..][2..] == "" && "\rb"[1..] == "b" && "b"[1..] == "";
    assert UniversalNewlines("") == "";
    assert UniversalNewlines("b") == "b";
    assert UniversalNewlines("\rb") == "\nb";
    assert UniversalNewlines(s) == "a\nb";
    assert "a\nb" == "a" + "\nb";
    assert Split("b", '\n') == ["b"];
    assert "\nb"[1..] == "b";
    assert Split("\nb", '\n') == ["", "b"];
    SplitPrefixFree("a", "\nb", '\n');
    assert "a" + "" == "a";
    assert Split("a\nb", '\n') == ["a"] + ["b"];
  }

  function EntryLine(e: (string, string)): string {
    e.0 + "=" + e.1
  }

  /** One `key=value` line per entry. */
  function Serialise(d: Entries): (s: string)
    decreases |d|
  {
    if |d| == 0 then "" else EntryLine(d[0]) + "\n" + Serialise(d[1..])
  }

  /** An entry that survives writing and reading back. */
  predicate Storable(e: (string, string)) {
    '=' !in e.0 && '\n' !in e.0 && '\n' !in e.1 && '\r' !in e.0 && '\r' !in e.1 && IsStripped(e.0) && IsStripped(e.1)
  }

  lemma {:induction false} SplitSerialised(d: Entries)
    requires forall i :: 0 <= i < |d| ==> Storable(d[i])
    ensures Split(Serialise(d), '\n') == LinesOf(d) + [""]
    decreases |d|
  {
    if |d| > 0 {
      var a := EntryLine(d[0]);
      var rest := Serialise(d[1..]);
      SplitSerialised(d[1..]);
      assert '\n' !in a by {
        assert '\n' !in d[0].0 + "=";
      }
      assert Serialise(d) == a + ("\n" + rest);
      SplitPrefixFree(a, "\n" + rest, '\n');
      assert ("\n" + rest)[1..] == rest;
      assert Split("\n" + rest, '\n') == [""] + Split(rest, '\n');
      assert a + "" == a;
    }
  }

  lemma ParseEntryLine(e: (string, string), stripParts: bool)
    requires Storable(e)
    ensures ParseLine(EntryLine(e), stripParts) == Some(e)
  {
    var line := EntryLine(e);
    assert line[|e.0|] == '=';
    assert IsStripped(line) by {
      if |e.0| > 0 {
        assert line[0] == e.0[0];
      }
      if |e.1| > 0 {
        assert line[|line| - 1] == e.1[|e.1| - 1];
      }
    }
    StripProperties(line);
    StripProperties(e.0);
    StripProperties(e.1);
    SplitFirstUnique(e.0, e.1, '=');
  }

  function LinesOf(d: Entries): (lines: seq<string>)
    decreases |d|
  {
    if |d| == 0 then [] else [EntryLine(d[0])] + LinesOf(d[1..])
  }

  lemma UniqueShift(acc: Entries, d: Entries)
    requires |d| > 0 && UniqueKeys(acc + d)
    ensures forall i :: 0 <= i < |acc| ==> acc[i].0 != d[0].0
    ensures UniqueKeys(acc + [d[0]]) && acc + [d[0]] + d[1..] == acc + d
  {
    assert forall i :: 0 <= i < |acc| ==> acc[i] == (acc + d)[i];
    assert (acc + d)[|acc|] == d[0];
    assert forall i :: 0 <= i <= |acc| ==> (acc + [d[0]])[i] == (acc + d)[i];
  }

  /** A key not yet present is appended. */
  lemma PutNew(acc: Entries, key: string, value: string)
    requires UniqueKeys(acc) && forall i :: 0 <= i < |acc| ==> acc[i].0 != key
    ensures Put(acc, key, value) == acc + [(key, value)]
  {
  }

  lemma LinesAssoc(first: string, more: seq<string>)
    ensures [first] + more + [""] == [first] + (more + [""])
  {
  }

  /** A line that parses is stored before the remaining lines are read. */
  lemma ParseIntoCons(acc: Entries, line: string, rest: seq<string>, stripParts: bool)
    requires UniqueKeys(acc) && ParseLine(line, stripParts).Some?
    ensures var kv := ParseLine(line, stripParts).value;
            ParseInto(acc, [line] + rest, stripParts) == ParseInto(Put(acc, kv.0, kv.1), rest, stripParts)
  {
    assert ([line] + rest)[0] == line && ([line] + rest)[1..] == rest;
  }

  lemma {:induction false} ParseLines(acc: Entries, d: Entries, stripParts: bool)
    requires UniqueKeys(acc) && UniqueKeys(acc + d)
    requires forall i :: 0 <= i < |d| ==> Storable(d[i])
    ensures ParseInto(acc, LinesOf(d) + [""], stripParts) == acc + d
    decreases |d|
  {
    var lines := LinesOf(d) + [""];
    if |d| == 0 {
      assert lines == [""];
      assert '=' !in "";
      assert acc + d == acc;
    } else {
      ParseEntryLine(d[0], stripParts);
      UniqueShift(acc, d);
      PutNew(acc, d[0].0, d[0].1);
      var acc' := acc + [d[0]];
      var rest := LinesOf(d[1..]) + [""];
      assert LinesOf(d) == [EntryLine(d[0])] + LinesOf(d[1..]);
      LinesAssoc(EntryLine(d[0]), LinesOf(d[1..]));
      ParseIntoCons(acc, EntryLine(d[0]), rest, stripParts);
      ParseLines(acc', d[1..], stripParts);
    }
  }

  lemma {:induction false} SerialiseHasNoCarriageReturn(d: Entries)
    requires forall i :: 0 <= i < |d| ==> Storable(d[i])
    ensures '\r' !in Serialise(d)
    decreases |d|
  {
    if |d| > 0 {
      SerialiseHasNoCarriageReturn(d[1..]);
      assert '\r' !in EntryLine(d[0]) by {
        assert EntryLine(d[0]) == d[0].0 + "=" + d[0].1;
      }
    }
  }

  /** Writing the cache and reading it back gives the same entries in the same order, with either reader. */
  lemma ParseSerialise(d: Entries, stripParts: bool)
    requires UniqueKeys(d) && forall i :: 0 <= i < |d| ==> Storable(d[i])
    ensures ParseVersions(Serialise(d), stripParts) == d
  {
    SerialiseHasNoCarriageReturn(d);
    SplitSerialised(d);
    assert [] + d == d;
    ParseLines([], d, stripParts);
  }

  /**
   * After a check, `source2viewer` records the installed version and
   * `source2viewer_latest` the newest known one; every other entry is kept
   * in place.
   */
  function UpdateCache(d: Entries, installed: string, latest: string): (r: Entries)
    requires UniqueKeys(d)
    ensures UniqueKeys(r)
    ensures Lookup(r, "source2viewer") == Some(installed) && Lookup(r, "source2viewer_latest") == Some(latest)
    ensures forall k :: k != "source2viewer" && k != "source2viewer_latest" ==> Lookup(r, k) == Lookup(d, k)
    ensures |r| >= |d|
    ensures forall i :: 0 <= i < |d| && d[i].0 != "source2viewer" && d[i].0 != "source2viewer_latest" ==> r[i] == d[i]
  {
    Put(Put(d, "source2viewer", installed), "source2viewer_latest", latest)
  }
}

=== FILE: settings.dfy ===
/**
 * The launcher's settings store: the default settings, how a settings file
 * read from disk is merged with them, and the small accessors the launcher
 * uses. Reading and writing the JSON file are left to the caller: loading
 * takes the parsed document (or nothing when the file is missing, unreadable
 * or not JSON), and every update returns the settings to be written back.
 */
module Settings {
  import opened Wrappers
  import Text

  /** A parsed JSON value. */
  datatype Json =
    | JNull
    | JBool(b: bool)
    | JNum(n: real)
    | JStr(s: string)
    | JList(items: seq<Json>)
    | JObject(fields: map<string, Json>)

  type SettingsMap = map<string, Json>

  const DefaultButtonOrder: seq<string> :=
    ["mapping", "listen", "dedicated_server", "insecure", "source2viewer", "cs2importer",
     "skyboxconverter", "loading_screen", "point_worldtext", "vtf2png", "sounds"]

  const DefaultVisibleButtons: map<string, Json> := map[
    "dedicated_server" := JBool(false),
    "insecure" := JBool(false),
    "listen" := JBool(true),
    "mapping" := JBool(true),
    "source2viewer" := JBool(true),
    "cs2importer" := JBool(true),
    "skyboxconverter" := JBool(true),
    "loading_screen" := JBool(true),
    "point_worldtext" := JBool(false),
    "vtf2png" := JBool(false),
    "sounds" := JBool(true)
  ]

  function Strs(names: seq<string>): (r: seq<Json>)
    ensures |r| == |names| && forall i :: 0 <= i < |names| ==> r[i] == JStr(names[i])
  {
    seq(|names|, i requires 0 <= i < |names| => JStr(names[i]))
  }

  const Defaults: SettingsMap := map[
    "theme" := JStr("system"),
    "visible_buttons" := JObject(DefaultVisibleButtons),
    "button_order" := JList(Strs(DefaultButtonOrder)),
    "window_position" := JNull,
    "appearance_mode" := JStr("system"),
    "color_theme" := JStr("blue"),
    "source2viewer_path" := JNull,
    "show_move_icons" := JBool(false),
    "auto_update_source2viewer" := JBool(true),
    "compact_mode" := JBool(true),
    "auto_update_metamod" := JBool(true),
    "auto_update_cs2kz" := JBool(true)
  ]

  // ---------------------------------------------------------------- loading

  /** The defaults a settings file is merged with: all settings, and separately the button map and order inside them. */
  datatype Config = Config(settings: SettingsMap, buttons: map<string, Json>, order: seq<string>)

  predicate WellFormed(c: Config) {
    && "visible_buttons" in c.settings && c.settings["visible_buttons"] == JObject(c.buttons)
    && "button_order" in c.settings && c.settings["button_order"] == JList(Strs(c.order))
  }

  const DefaultConfig: Config := Config(Defaults, DefaultVisibleButtons, DefaultButtonOrder)

  lemma DefaultConfigWellFormed()
    ensures WellFormed(DefaultConfig)
  {
  }

  lemma EmptyOrHasFirst<T>(m: seq<T>)
    ensures |m| == 0 || m[0] in m
  {
  }

  /** No name occurs twice. */
  predicate Distinct(names: seq<string>) {
    forall i, j :: 0 <= i < j < |names| ==> names[i] != names[j]
  }

  /** The default buttons missing from `order`, in default order: what merging should append. */
  function MissingButtons(order: seq<Json>, names: seq<string>): (r: seq<Json>)
    ensures forall x :: x in r <==> exists i :: 0 <= i < |names| && x == JStr(names[i]) && x !in order
    ensures Distinct(names) ==> forall i, j :: 0 <= i < j < |r| ==> r[i] != r[j]
    decreases |names|
  {
    if |names| == 0 then []
    else
      var rest := MissingButtons(order, names[1..]);
      assert forall i :: 1 <= i < |names| ==> names[i] == names[1..][i - 1];
      if JStr(names[0]) in order then rest else [JStr(names[0])] + rest
  }

  /**
   * The loop of `load_settings` over the default order: every default button
   * not yet in the loaded list is appended to it, one at a time.
   */
  function MergeOrder(order: seq<Json>, names: seq<string>): (r: seq<Json>)
    ensures |order| <= |r| && r[..|order|] == order
    ensures forall i :: 0 <= i < |names| ==> JStr(names[i]) in r
    ensures forall x :: x in r ==> x in order || x in Strs(names)
    decreases |names|
  {
    if |names| == 0 then order
    else
      var n := JStr(names[0]);
      var next := if n in order then order else order + [n];
      var r := MergeOrder(next, names[1..]);
      assert r[..|order|] == r[..|next|][..|order|];
      assert n in r by {
        assert n in next;
        assert next == r[..|next|];
      }
      assert forall i :: 1 <= i < |names| ==> names[i] == names[1..][i - 1];
      forall x | x in r
        ensures x in order || x in Strs(names)
      {
        if x in Strs(names[1..]) {
          var i :| 0 <= i < |names| - 1 && Strs(names[1..])[i] == x;
          assert Strs(names)[i + 1] == x;
        } else if x !in order {
          assert x == n && Strs(names)[0] == n;
        }
      }
      r
  }

  /** Appending a button that no later default names does not change which of them are missing. */
  lemma {:induction false} MissingIgnores(order: seq<Json>, x: Json, names: seq<string>)
    requires forall i :: 0 <= i < |names| ==> JStr(names[i]) != x
    ensures MissingButtons(order + [x], names) == MissingButtons(order, names)
    decreases |names|
  {
    if |names| > 0 {
      MissingIgnores(order, x, names[1..]);
    }
  }

  /**
   * With distinct default names, the merged order is the loaded order
   * followed by exactly the missing default buttons, once each, in default
   * order.
   */
  lemma {:induction false} MergeOrderAppendsMissing(order: seq<Json>, names: seq<string>)
    requires Distinct(names)
    ensures MergeOrder(order, names) == order + MissingButtons(order, names)
    decreases |names|
  {
    if |names| > 0 {
      var n := JStr(names[0]);
      var tail := names[1..];
      DistinctTail(names);
      if n in order {
        MergeOrderAppendsMissing(order, tail);
      } else {
        MergeOrderAppendsMissing(order + [n], tail);
        MissingIgnores(order, n, tail);
        assert order + [n] + MissingButtons(order, tail) == order + ([n] + MissingButtons(order, tail));
      }
    }
  }

  /** Without repeats, the rest of the names are distinct and none of them is the first. */
  lemma DistinctTail(names: seq<string>)
    requires Distinct(names) && |names| > 0
    ensures Distinct(names[1..])
    ensures forall i :: 0 <= i < |names| - 1 ==> JStr(names[1..][i]) != JStr(names[0])
  {
    var tail := names[1..];
    forall i, j | 0 <= i < j < |tail|
      ensures tail[i] != tail[j]
    {
      assert tail[i] == names[i + 1] && tail[j] == names[j + 1];
    }
    forall i | 0 <= i < |tail|
      ensures JStr(tail[i]) != JStr(names[0])
    {
      assert tail[i] == names[i + 1];
    }
  }

  /** An order that already holds every default button is left as it is. */
  lemma {:induction false} MergeOrderComplete(order: seq<Json>, names: seq<string>)
    requires forall i :: 0 <= i < |names| ==> JStr(names[i]) in order
    ensures MergeOrder(order, names) == order
    decreases |names|
  {
    if |names| > 0 {
      MergeOrderComplete(order, names[1..]);
    }
  }

  /** `btn in value` holds for every default button: list items, substrings of a string, or keys of an object. */
  predicate HasAllButtons(value: Json, names: seq<string>) {
    match value
    case JList(items) => forall i :: 0 <= i < |names| ==> JStr(names[i]) in items
    case JStr(t) => forall i :: 0 <= i < |names| ==> Text.Contains(t, names[i])
    case JObject(fields) => forall i :: 0 <= i < |names| ==> names[i] in fields
    case _ => |names| == 0
  }

  /**
   * One loaded entry after merging. Button maps are completed with the
   * defaults; a button list is completed by `MergeOrder`; a string or object
   * button order is kept when every default button is in it and otherwise
   * fails on `append`, as does any other value once the first `in` test
   * raises; anything else is taken as is.
   */
  function MergeEntry(c: Config, key: string, value: Json): Option<Json> {
    if key == "visible_buttons" then
      if value.JObject? then Some(JObject(c.buttons + value.fields)) else None
    else if key == "button_order" then
      if value.JList? then Some(JList(MergeOrder(value.items, c.order)))
      else if HasAllButtons(value, c.order) then Some(value)
      else None
    else Some(value)
  }

  /** Every loaded entry merges; otherwise loading raises and falls back to the defaults. */
  predicate Mergeable(c: Config, loaded: SettingsMap) {
    forall k :: k in loaded ==> MergeEntry(c, k, loaded[k]).Some?
  }

  /** The defaults overridden by the merged loaded entries. */
  function Merge(c: Config, loaded: SettingsMap): (s: SettingsMap)
    requires Mergeable(c, loaded)
    ensures s.Keys == c.settings.Keys + loaded.Keys
  {
    map k | k in c.settings.Keys + loaded.Keys ::
      if k in loaded then MergeEntry(c, k, loaded[k]).value else c.settings[k]
  }

  /** Loading against any defaults: see `LoadSettings`. */
  function Load(c: Config, file: Option<Json>): (s: SettingsMap)
    ensures file.None? ==> s == c.settings
    ensures file.Some? && (!file.value.JObject? || !Mergeable(c, file.value.fields)) ==> s == c.settings
    ensures s.Keys >= c.settings.Keys
    ensures file.Some? && file.value.JObject? && Mergeable(c, file.value.fields) ==>
      s.Keys == c.settings.Keys + file.value.fields.Keys
      && forall k :: k in file.value.fields && k != "visible_buttons" && k != "button_order" ==> s[k] == file.value.fields[k]
  {
    if file.Some? && file.value.JObject? && Mergeable(c, file.value.fields) then Merge(c, file.value.fields)
    else c.settings
  }

  /**
   * `load_settings`: the defaults when there is no readable settings
   * document, when it is not an object, or when one of its entries cannot be
   * merged; otherwise the defaults overridden by the merged loaded entries.
   */
  function LoadSettings(file: Option<Json>): (s: SettingsMap)
    ensures file.None? ==> s == Defaults
    ensures file.Some? && (!file.value.JObject? || !Mergeable(DefaultConfig, file.value.fields)) ==> s == Defaults
    ensures s.Keys >= Defaults.Keys
    ensures file.Some? && file.value.JObject? && Mergeable(DefaultConfig, file.value.fields) ==>
      s.Keys == Defaults.Keys + file.value.fields.Keys
      && forall k :: k in file.value.fields && k != "visible_buttons" && k != "button_order" ==> s[k] == file.value.fields[k]
    ensures file.Some? && file.value.JObject? && Mergeable(DefaultConfig, file.value.fields)
            && "button_order" in file.value.fields && !file.value.fields["button_order"].JList? ==>
      s["button_order"] == file.value.fields["button_order"]
    ensures file.Some? && file.value.JObject? && Mergeable(DefaultConfig, file.value.fields)
            && "button_order" in file.value.fields && file.value.fields["button_order"].JList? ==>
      var o := file.value.fields["button_order"].items;
      s["button_order"] == JList(o + MissingButtons(o, DefaultButtonOrder))
  {
    if file.Some? && file.value.JObject? && Mergeable(DefaultConfig, file.value.fields)
       && "button_order" in file.value.fields && file.value.fields["button_order"].JList? then
      DefaultButtonsDistinct();
      MergedOrderGetsMissing(DefaultConfig, file.value.fields);
      Load(DefaultConfig, file)
    else Load(DefaultConfig, file)
  }

  /**
   * What a successful merge keeps: every key of the file and of the
   * defaults, the file's value for plain keys, the default value for keys
   * the file lacks, every default button visible-or-not with the file's
   * choice winning, and a button order holding every default button: the
   * file's list extended by the missing ones, or the file's string or object
   * unchanged.
   */
  lemma MergeProperties(c: Config, loaded: SettingsMap)
    requires WellFormed(c) && Mergeable(c, loaded)
    ensures var s := Merge(c, loaded);
            && (forall k :: k in loaded && k != "visible_buttons" && k != "button_order" ==> s[k] == loaded[k])
            && (forall k :: k in c.settings && k !in loaded ==> s[k] == c.settings[k])
            && s["visible_buttons"].JObject?
            && (forall b :: b in c.buttons ==> b in s["visible_buttons"].fields)
            && ("visible_buttons" in loaded ==>
                  forall b :: b in loaded["visible_buttons"].fields ==> s["visible_buttons"].fields[b] == loaded["visible_buttons"].fields[b])
            && ("visible_buttons" in loaded ==>
                  s["visible_buttons"].fields.Keys == c.buttons.Keys + loaded["visible_buttons"].fields.Keys
                  && forall b :: b in c.buttons && b !in loaded["visible_buttons"].fields ==> s["visible_buttons"].fields[b] == c.buttons[b])
            && ("visible_buttons" !in loaded ==> s["visible_buttons"] == c.settings["visible_buttons"])
            && HasAllButtons(s["button_order"], c.order)
            && ("button_order" in loaded && loaded["button_order"].JList? ==>
                  s["button_order"].JList? && loaded["button_order"].items <= s["button_order"].items)
            && ("button_order" in loaded && !loaded["button_order"].JList? ==> s["button_order"] == loaded["button_order"])
  {
    var s := Merge(c, loaded);
    if "button_order" !in loaded {
      var order := Strs(c.order);
      assert s["button_order"] == JList(order);
      forall i | 0 <= i < |c.order|
        ensures JStr(c.order[i]) in order
      {
        assert order[i] == JStr(c.order[i]);
      }
    } else if loaded["button_order"].JList? {
      var o := loaded["button_order"].items;
      assert s["button_order"].items == MergeOrder(o, c.order);
      assert o <= MergeOrder(o, c.order);
    } else {
      assert MergeEntry(c, "button_order", loaded["button_order"]).Some?;
    }
  }

  /** The default buttons are all different. */
  lemma DefaultButtonsDistinct()
    ensures Distinct(DefaultButtonOrder)
  {
  }

  /** A merged button list is the loaded one followed by the missing default buttons, for any defaults without repeats. */
  lemma MergedOrderGetsMissing(c: Config, loaded: SettingsMap)
    requires Distinct(c.order) && Mergeable(c, loaded) && "button_order" in loaded && loaded["button_order"].JList?
    ensures var o := loaded["button_order"].items;
            Merge(c, loaded)["button_order"] == JList(o + MissingButtons(o, c.order))
  {
    var o := loaded["button_order"].items;
    assert Merge(c, loaded)["button_order"] == JList(MergeOrder(o, c.order));
    MergeOrderAppendsMissing(o, c.order);
  }

  /** Merged settings merge again to themselves: saving and reloading changes nothing. */
  lemma MergeIdempotent(c: Config, loaded: SettingsMap)
    requires WellFormed(c) && Mergeable(c, loaded)
    ensures Mergeable(c, Merge(c, loaded))
    ensures Merge(c, Merge(c, loaded)) == Merge(c, loaded)
  {
    var s := Merge(c, loaded);
    MergeProperties(c, loaded);
    var bo := s["button_order"];
    if bo.JList? {
      MergeOrderComplete(bo.items, c.order);
    }
    var vb := s["visible_buttons"].fields;
    assert c.buttons + vb == vb;
    forall k | k in s
      ensures MergeEntry(c, k, s[k]) == Some(s[k])
    {
    }
    var s2 := Merge(c, s);
    assert forall k :: k in s2 ==> s2[k] == s[k];
  }

  // ---------------------------------------------------------------- accessors

  /** `get(key, default)` */
  function Get(s: SettingsMap, key: string, default: Json): Json {
    if key in s then s[key] else default
  }

  /** `set(key, value)`: the settings to be written back. */
  function Set(s: SettingsMap, key: string, value: Json): (r: SettingsMap)
    ensures Get(r, key, JNull) == value
    ensures forall k, d :: k != key ==> Get(r, k, d) == Get(s, k, d)
    ensures r.Keys == s.Keys + {key}
  {
    s[key := value]
  }

  /** Python's truth value of a JSON value. */
  predicate Truthy(j: Json) {
    match j
    case JNull => false
    case JBool(b) => b
    case JNum(n) => n != 0.0
    case JStr(t) => t != ""
    case JList(items) => items != []
    case JObject(fields) => fields != map[]
  }

  /** `get_window_position`: the stored position, or nothing when it is absent or false-like. */
  function WindowPosition(s: SettingsMap): (r: Option<Json>)
    ensures r.Some? <==> "window_position" in s && Truthy(s["window_position"])
    ensures r.Some? ==> r.value == s["window_position"]
  {
    var pos := Get(s, "window_position", JNull);
    if Truthy(pos) then Some(pos) else None
  }

  /** A position set through `set_window_position` is read back. */
  lemma WindowPositionRoundTrip(s: SettingsMap, x: real, y: real)
    ensures WindowPosition(Set(s, "window_position", JList([JNum(x), JNum(y)]))) == Some(JList([JNum(x), JNum(y)]))
  {
  }

  /**
   * `set_button_visibility`: the button's entry in the visible-buttons
   * object (the stored one, or the defaults when there is none) is replaced;
   * a stored value that is not an object cannot be updated.
   */
  function SetButtonVisibility(s: SettingsMap, button: string, visible: bool): (r: Option<SettingsMap>)
    ensures r.None? <==> !Get(s, "visible_buttons", JObject(DefaultVisibleButtons)).JObject?
    ensures r.Some? ==> (r.value.Keys == s.Keys + {"visible_buttons"}
                         && forall k :: k in s && k != "visible_buttons" ==> r.value[k] == s[k])
  {
    match Get(s, "visible_buttons", JObject(DefaultVisibleButtons))
    case JObject(vb) => Some(Set(s, "visible_buttons", JObject(vb[button := JBool(visible)])))
    case _ => None
  }

  /** Only the chosen button's visibility changes. */
  lemma ButtonVisibilityChangesOne(s: SettingsMap, button: string, visible: bool)
    requires "visible_buttons" in s && s["visible_buttons"].JObject?
    ensures var r := SetButtonVisibility(s, button, visible);
            r.Some? && r.value["visible_buttons"].JObject?
            && r.value["visible_buttons"].fields[button] == JBool(visible)
            && (forall b :: b != button ==> (b in r.value["visible_buttons"].fields <==> b in s["visible_buttons"].fields))
            && (forall b :: b != button && b in s["visible_buttons"].fields ==>
                  r.value["visible_buttons"].fields[b] == s["visible_buttons"].fields[b])
  {
  }
}

=== FILE: skybox_faces.dfy ===
/**
 * Skybox face identification and the face-remapping table of the legacy
 * skybox converter (scripts/skybox_gui_old.py): each of six selected files is
 * assigned to a cube slot by substring patterns in its lower-cased file name.
 */
module SkyboxFaces {
  import opened Wrappers
  import opened Text
  import Paths

  datatype Slot = Up | Left | Front | Right | Back | Down

  /** The order slots are tried in when matching, and pasted in when stitching. */
  const TargetSlots: seq<Slot> := [Up, Left, Front, Right, Back, Down]

  const AllSlots: set<Slot> := {Up, Left, Front, Right, Back, Down}

  function SlotName(s: Slot): string {
    match s
    case Up => "up"
    case Left => "left"
    case Front => "front"
    case Right => "right"
    case Back => "back"
    case Down => "down"
  }

  /** Per-slot file-name patterns, including the `_pz`/`_nx`-style axis aliases. */
  function Patterns(s: Slot): seq<string> {
    match s
    case Up => ["_up.", "up.", "_up_", "up_", "_pz.", "pz.", "_pz_", "pz_"]
    case Down => ["_down.", "down.", "_down_", "down_", "_dn.", "dn.", "_dn_", "dn_", "_nz.", "nz.", "_nz_", "nz_"]
    case Left => ["_left.", "left.", "_left_", "left_", "_lf.", "lf.", "_lf_", "lf_", "_nx.", "nx.", "_nx_", "nx_"]
    case Right => ["_right.", "right.", "_right_", "right_", "_rt.", "rt.", "_rt_", "rt_", "_px.", "px.", "_px_", "px_"]
    case Front => ["_front.", "front.", "_front_", "front_", "_ft.", "ft.", "_ft_", "ft_", "_ny.", "ny.", "_ny_", "ny_"]
    case Back => ["_back.", "back.", "_back_", "back_", "_bk.", "bk.", "_bk_", "bk_", "_py.", "py.", "_py_", "py_"]
  }

  lemma TargetSlotsAreAllSlots()
    ensures forall s: Slot :: s in TargetSlots && s in AllSlots
    ensures forall i, j :: 0 <= i < j < |TargetSlots| ==> TargetSlots[i] != TargetSlots[j]
    ensures forall s: Slot :: IndexOfSlot(s) < |TargetSlots| && TargetSlots[IndexOfSlot(s)] == s
  {
    forall s: Slot ensures s in TargetSlots && s in AllSlots && IndexOfSlot(s) < |TargetSlots| && TargetSlots[IndexOfSlot(s)] == s {
      assert s.Up? || s.Left? || s.Front? || s.Right? || s.Back? || s.Down?;
    }
  }

  // ---------------------------------------------------------------- matching one name

  /** Some pattern of the list occurs in `name`. */
  function AnyOccurs(name: string, pats: seq<string>): (b: bool)
    ensures b <==> exists k :: 0 <= k < |pats| && Contains(name, pats[k])
  {
    if |pats| == 0 then false
    else Contains(name, pats[0]) || AnyOccurs(name, pats[1..])
  }

  predicate SlotMatches(s: Slot, name: string) {
    AnyOccurs(name, Patterns(s))
  }

  /** The first slot of `slots` whose patterns occur in `name`. */
  function FirstMatch(name: string, slots: seq<Slot>): (r: Option<Slot>)
    ensures r.None? <==> forall i :: 0 <= i < |slots| ==> !SlotMatches(slots[i], name)
    ensures r.Some? ==> exists i :: 0 <= i < |slots| && slots[i] == r.value && SlotMatches(slots[i], name)
                                    && forall j :: 0 <= j < i ==> !SlotMatches(slots[j], name)
  {
    if |slots| == 0 then None
    else if SlotMatches(slots[0], name) then Some(slots[0])
    else
      var r := FirstMatch(name, slots[1..]);
      if r.Some? then FirstMatchShift(name, slots, r.value); r else r
  }

  /** A first match in the tail of `slots` is the first match in `slots` when the head does not match. */
  lemma FirstMatchShift(name: string, slots: seq<Slot>, v: Slot)
    requires |slots| > 0 && !SlotMatches(slots[0], name)
    requires exists i :: 0 <= i < |slots[1..]| && slots[1..][i] == v && SlotMatches(slots[1..][i], name)
                         && forall j :: 0 <= j < i ==> !SlotMatches(slots[1..][j], name)
    ensures exists i :: 0 <= i < |slots| && slots[i] == v && SlotMatches(slots[i], name)
                        && forall j :: 0 <= j < i ==> !SlotMatches(slots[j], name)
  {
    var i :| 0 <= i < |slots[1..]| && slots[1..][i] == v && SlotMatches(slots[1..][i], name)
             && forall j :: 0 <= j < i ==> !SlotMatches(slots[1..][j], name);
    forall j | 0 <= j < i + 1
      ensures !SlotMatches(slots[j], name)
    {
      if j > 0 {
        assert slots[j] == slots[1..][j - 1];
      }
    }
    assert slots[i + 1] == v;
  }

  /** The slot a selected file is assigned to, from its lower-cased base name. */
  function SlotOf(path: string): Option<Slot> {
    FirstMatch(Lower(Paths.Basename(path)), TargetSlots)
  }

  // ---------------------------------------------------------------- scanning the selection

  datatype IdentifyError =
    | Cancelled
    | WrongCount(count: nat)
    | DuplicateFace(slot: Slot)
    | IncompleteSet(matchedCount: nat, missing: seq<Slot>, unmatched: seq<string>)

  /** A selected path with the slot its name matches, if any. */
  datatype Tagged = Tagged(path: string, slot: Option<Slot>)

  /** Every selected path with its slot. */
  function Tag(paths: seq<string>): (ts: seq<Tagged>)
    ensures |ts| == |paths|
    ensures forall i :: 0 <= i < |ts| ==> ts[i].path == paths[i]
  {
    seq(|paths|, i requires 0 <= i < |paths| => Tagged(paths[i], SlotOf(paths[i])))
  }

  lemma TagSlot(paths: seq<string>, i: int)
    requires 0 <= i < |paths|
    ensures Tag(paths)[i] == Tagged(paths[i], SlotOf(paths[i]))
  {
  }

  /** The slot-to-path assignments in the order they were made, and the base names of unmatched files. */
  datatype Scan = Scan(files: seq<(Slot, string)>, unmatched: seq<string>)

  function SlotsIn(files: seq<(Slot, string)>): set<Slot> {
    set k | 0 <= k < |files| :: files[k].0
  }

  /** The matching loop: files in selection order, aborting on the first file whose slot is already taken. */
  function ScanFiles(ts: seq<Tagged>): Result<Scan, IdentifyError>
    decreases |ts|
  {
    if |ts| == 0 then Ok(Scan([], []))
    else
      var prev :- ScanFiles(ts[..|ts| - 1]);
      var t := ts[|ts| - 1];
      match t.slot
      case None => Ok(Scan(prev.files, prev.unmatched + [Paths.Basename(t.path)]))
      case Some(s) =>
        if s in SlotsIn(prev.files) then Err(DuplicateFace(s))
        else Ok(Scan(prev.files + [(s, t.path)], prev.unmatched))
  }

  function IndexOfSlot(s: Slot): nat {
    match s
    case Up => 0
    case Left => 1
    case Front => 2
    case Right => 3
    case Back => 4
    case Down => 5
  }

  predicate InSlotOrder(slots: seq<Slot>) {
    forall i, j :: 0 <= i < j < |slots| ==> IndexOfSlot(slots[i]) < IndexOfSlot(slots[j])
  }

  /** The members of `slots` that no assignment claims, in their order. */
  function Unclaimed(files: seq<(Slot, string)>, slots: seq<Slot>): (m: seq<Slot>)
    requires InSlotOrder(slots)
    ensures forall s :: s in m <==> s in slots && s !in SlotsIn(files)
    ensures InSlotOrder(m)
    decreases |slots|
  {
    if |slots| == 0 then []
    else
      var rest := Unclaimed(files, slots[1..]);
      if slots[0] !in SlotsIn(files) then
        HeadBeforeRest(slots, rest);
        [slots[0]] + rest
      else rest
  }

  /** The head of an ordered list of slots can go in front of any ordered selection from its tail. */
  lemma HeadBeforeRest(slots: seq<Slot>, rest: seq<Slot>)
    requires |slots| > 0 && InSlotOrder(slots) && InSlotOrder(rest)
    requires forall x :: x in rest ==> x in slots[1..]
    ensures InSlotOrder([slots[0]] + rest)
  {
    forall x | x in rest
      ensures IndexOfSlot(slots[0]) < IndexOfSlot(x)
    {
      var k :| 0 <= k < |slots[1..]| && slots[1..][k] == x;
      assert slots[k + 1] == x;
    }
    var r := [slots[0]] + rest;
    forall i, j | 0 <= i < j < |r|
      ensures IndexOfSlot(r[i]) < IndexOfSlot(r[j])
    {
      assert r[j] == rest[j - 1];
      if i > 0 {
        assert r[i] == rest[i - 1];
      } else {
        assert r[j] in rest;
      }
    }
  }

  /** The slots no assignment claims, in `TargetSlots` order. */
  function MissingSlots(files: seq<(Slot, string)>): (m: seq<Slot>)
    ensures forall s :: s in m <==> s !in SlotsIn(files)
    ensures InSlotOrder(m)
  {
    TargetSlotsAreAllSlots();
    Unclaimed(files, TargetSlots)
  }

  /**
   * `select_skybox_files` after the dialog: nothing selected cancels, any count
   * but six is refused, a duplicate slot aborts at once, and an incomplete set
   * reports the missing slots and the unmatched names.
   */
  function SelectSkyboxFiles(paths: seq<string>): Result<seq<(Slot, string)>, IdentifyError> {
    Identify(Tag(paths))
  }

  function Identify(ts: seq<Tagged>): Result<seq<(Slot, string)>, IdentifyError> {
    if |ts| == 0 then Err(Cancelled)
    else if |ts| != 6 then Err(WrongCount(|ts|))
    else
      var sc :- ScanFiles(ts);
      if |sc.files| != 6 then Err(IncompleteSet(|sc.files|, MissingSlots(sc.files), sc.unmatched))
      else Ok(sc.files)
  }

  // ---------------------------------------------------------------- reference definitions

  /** Every matching file with its slot, in selection order. */
  function Matched(ts: seq<Tagged>): seq<(Slot, string)>
    decreases |ts|
  {
    if |ts| == 0 then []
    else
      var t := ts[|ts| - 1];
      Matched(ts[..|ts| - 1]) + (if t.slot.Some? then [(t.slot.value, t.path)] else [])
  }

  /** The base names of the files that match no slot, in selection order. */
  function Unmatched(ts: seq<Tagged>): seq<string>
    decreases |ts|
  {
    if |ts| == 0 then []
    else
      var t := ts[|ts| - 1];
      Unmatched(ts[..|ts| - 1]) + (if t.slot.None? then [Paths.Basename(t.path)] else [])
  }

  /** Two different files are assigned the same slot. */
  predicate HasDuplicate(ts: seq<Tagged>) {
    exists i, j :: 0 <= i < j < |ts| && ts[i].slot.Some? && ts[i].slot == ts[j].slot
  }

  /** Some file is assigned slot `s`. */
  predicate Claimed(ts: seq<Tagged>, s: Slot) {
    exists i :: 0 <= i < |ts| && ts[i].slot == Some(s)
  }

  lemma {:induction false} MatchedSlots(ts: seq<Tagged>)
    ensures forall s :: s in SlotsIn(Matched(ts)) <==> Claimed(ts, s)
    decreases |ts|
  {
    if |ts| > 0 {
      var init := ts[..|ts| - 1];
      var t := ts[|ts| - 1];
      var m := Matched(init);
      MatchedSlots(init);
      assert forall i :: 0 <= i < |init| ==> init[i] == ts[i];
      forall s ensures s in SlotsIn(Matched(ts)) <==> Claimed(ts, s) {
        if s in SlotsIn(Matched(ts)) {
          var k :| 0 <= k < |Matched(ts)| && Matched(ts)[k].0 == s;
          if k < |m| {
            assert m[k].0 == s;
            assert s in SlotsIn(m);
            var i :| 0 <= i < |init| && init[i].slot == Some(s);
            assert ts[i].slot == Some(s);
          } else {
            assert ts[|ts| - 1].slot == Some(s);
          }
        }
        if Claimed(ts, s) {
          var i :| 0 <= i < |ts| && ts[i].slot == Some(s);
          if i < |init| {
            assert init[i].slot == Some(s);
            assert Claimed(init, s);
            var k :| 0 <= k < |m| && m[k].0 == s;
            assert Matched(ts)[k] == m[k];
          } else {
            assert Matched(ts)[|Matched(ts)| - 1] == (s, t.path);
          }
        }
      }
    }
  }

  /** Every assignment pairs a selected file with the slot its name matches. */
  lemma {:induction false} MatchedOrigin(ts: seq<Tagged>)
    ensures forall k :: 0 <= k < |Matched(ts)| ==>
              exists i :: 0 <= i < |ts| && ts[i] == Tagged(Matched(ts)[k].1, Some(Matched(ts)[k].0))
    decreases |ts|
  {
    if |ts| > 0 {
      var init := ts[..|ts| - 1];
      var m := Matched(init);
      MatchedOrigin(init);
      forall k | 0 <= k < |Matched(ts)|
        ensures exists i :: 0 <= i < |ts| && ts[i] == Tagged(Matched(ts)[k].1, Some(Matched(ts)[k].0))
      {
        if k < |m| {
          assert Matched(ts)[k] == m[k];
          var i :| 0 <= i < |init| && init[i] == Tagged(m[k].1, Some(m[k].0));
          assert ts[i] == init[i];
        } else {
          assert ts[|ts| - 1] == Tagged(Matched(ts)[k].1, Some(Matched(ts)[k].0));
        }
      }
    } else {
      assert Matched(ts) == [];
    }
  }

  lemma NoDuplicateInit(ts: seq<Tagged>)
    requires |ts| > 0 && !HasDuplicate(ts)
    ensures !HasDuplicate(ts[..|ts| - 1])
  {
    var init := ts[..|ts| - 1];
    forall i, j | 0 <= i < j < |init| ensures !(init[i].slot.Some? && init[i].slot == init[j].slot) {
      assert ts[i] == init[i] && ts[j] == init[j];
    }
  }

  /** A duplicate-free prefix gains a duplicate by its last file exactly when that file's slot was already claimed. */
  lemma DuplicateByLast(ts: seq<Tagged>)
    requires |ts| > 0 && !HasDuplicate(ts[..|ts| - 1])
    ensures HasDuplicate(ts) <==> ts[|ts| - 1].slot.Some? && Claimed(ts[..|ts| - 1], ts[|ts| - 1].slot.value)
  {
    var init := ts[..|ts| - 1];
    var t := ts[|ts| - 1];
    assert forall i :: 0 <= i < |init| ==> init[i] == ts[i];
    if HasDuplicate(ts) {
      var i, j :| 0 <= i < j < |ts| && ts[i].slot.Some? && ts[i].slot == ts[j].slot;
      assert j == |ts| - 1;
      assert init[i].slot == Some(t.slot.value);
    }
    if t.slot.Some? && Claimed(init, t.slot.value) {
      var i :| 0 <= i < |init| && init[i].slot == t.slot;
      assert ts[i].slot == ts[|ts| - 1].slot;
    }
  }

  /** The matching loop succeeds exactly when no slot is claimed twice, and then it computes the reference assignments. */
  lemma {:induction false} ScanFilesCorrect(ts: seq<Tagged>)
    ensures ScanFiles(ts).Ok? <==> !HasDuplicate(ts)
    ensures ScanFiles(ts).Ok? ==> ScanFiles(ts).value == Scan(Matched(ts), Unmatched(ts))
    decreases |ts|
  {
    if |ts| > 0 {
      var init := ts[..|ts| - 1];
      ScanFilesCorrect(init);
      if HasDuplicate(init) {
        var i, j :| 0 <= i < j < |init| && init[i].slot.Some? && init[i].slot == init[j].slot;
        assert ts[i] == init[i] && ts[j] == init[j];
      } else {
        MatchedSlots(init);
        DuplicateByLast(ts);
      }
    }
  }

  /** File `j` is the first one whose slot an earlier file already claimed. */
  predicate FirstClashAt(ts: seq<Tagged>, j: int) {
    0 <= j < |ts| && !HasDuplicate(ts[..j]) && HasDuplicate(ts[..j + 1])
  }

  /** A duplicate aborts the scan with the slot of the first file whose slot an earlier file already claimed. */
  lemma {:induction false} DuplicateReportsFirstClash(ts: seq<Tagged>)
    ensures ScanFiles(ts).Err? ==>
              exists j :: FirstClashAt(ts, j) && ScanFiles(ts).error == DuplicateFace(ts[j].slot.value)
    decreases |ts|
  {
    if |ts| > 0 && ScanFiles(ts).Err? {
      var init := ts[..|ts| - 1];
      ScanFilesCorrect(init);
      if ScanFiles(init).Err? {
        assert ScanFiles(ts).error == ScanFiles(init).error;
        DuplicateReportsFirstClash(init);
        var j :| FirstClashAt(init, j) && ScanFiles(init).error == DuplicateFace(init[j].slot.value);
        assert init[..j] == ts[..j] && init[..j + 1] == ts[..j + 1];
        assert ts[j] == init[j];
        assert FirstClashAt(ts, j);
      } else {
        ScanFilesCorrect(ts);
        assert ts[..|ts| - 1] == init && ts[..|ts|] == ts;
        assert FirstClashAt(ts, |ts| - 1);
      }
    }
  }

  lemma SubsetCard<T>(a: set<T>, b: set<T>)
    requires a <= b
    ensures |a| <= |b|
    decreases b
  {
    if a != {} {
      var x :| x in a;
      SubsetCard(a - {x}, b - {x});
    }
  }

  /** Six distinct slots are all of them. */
  lemma SlotsOfSix(s: set<Slot>)
    ensures |s| == 6 <==> s == AllSlots
  {
    TargetSlotsAreAllSlots();
    if s != AllSlots {
      var x :| x in AllSlots && x !in s;
      SubsetCard(s, AllSlots - {x});
    }
  }

  /** A duplicate-free assignment list has as many entries as distinct slots. */
  lemma {:induction false} DistinctSlotsCount(ts: seq<Tagged>)
    requires !HasDuplicate(ts)
    ensures |SlotsIn(Matched(ts))| == |Matched(ts)|
    decreases |ts|
  {
    if |ts| > 0 {
      var init := ts[..|ts| - 1];
      var t := ts[|ts| - 1];
      var m := Matched(init);
      NoDuplicateInit(ts);
      DistinctSlotsCount(init);
      MatchedSlots(init);
      DuplicateByLast(ts);
      if t.slot.Some? {
        assert Matched(ts) == m + [(t.slot.value, t.path)];
        SlotsInSnoc(m, (t.slot.value, t.path));
      } else {
        assert Matched(ts) == m + [] == m;
      }
    }
  }

  /** One more assignment adds its slot to the claimed slots. */
  lemma SlotsInSnoc(m: seq<(Slot, string)>, x: (Slot, string))
    ensures SlotsIn(m + [x]) == SlotsIn(m) + {x.0}
  {
    var m' := m + [x];
    forall s | s in SlotsIn(m')
      ensures s in SlotsIn(m) + {x.0}
    {
      var k :| 0 <= k < |m'| && m'[k].0 == s;
      if k < |m| {
        assert m[k].0 == s;
      }
    }
    forall s | s in SlotsIn(m)
      ensures s in SlotsIn(m')
    {
      var k :| 0 <= k < |m| && m[k].0 == s;
      assert m'[k].0 == s;
    }
    assert m'[|m|].0 == x.0;
  }

  /** Without duplicates, six assignments means every slot is claimed. */
  lemma SixAssignmentsClaimAll(ts: seq<Tagged>)
    requires !HasDuplicate(ts)
    ensures |Matched(ts)| == 6 <==> forall s: Slot :: Claimed(ts, s)
    ensures |Matched(ts)| == 6 ==> SlotsIn(Matched(ts)) == AllSlots
  {
    var m := Matched(ts);
    MatchedSlots(ts);
    DistinctSlotsCount(ts);
    SlotsOfSix(SlotsIn(m));
    TargetSlotsAreAllSlots();
    if forall s: Slot :: Claimed(ts, s) {
      assert SlotsIn(m) == AllSlots;
    }
  }

  lemma IdentifyShape(ts: seq<Tagged>)
    requires |ts| == 6 && !HasDuplicate(ts)
    ensures Identify(ts).Ok? <==> |Matched(ts)| == 6
    ensures Identify(ts).Ok? ==> Identify(ts).value == Matched(ts)
    ensures Identify(ts).Err? ==> Identify(ts).error == IncompleteSet(|Matched(ts)|, MissingSlots(Matched(ts)), Unmatched(ts))
  {
    ScanFilesCorrect(ts);
  }

  lemma IdentifySucceedsExactly(ts: seq<Tagged>)
    ensures Identify(ts).Ok? <==> |ts| == 6 && !HasDuplicate(ts) && forall s: Slot :: Claimed(ts, s)
    ensures Identify(ts).Ok? ==>
              |Identify(ts).value| == 6 && SlotsIn(Identify(ts).value) == AllSlots
              && forall k :: 0 <= k < |Identify(ts).value| ==>
                   exists i :: 0 <= i < |ts| && ts[i] == Tagged(Identify(ts).value[k].1, Some(Identify(ts).value[k].0))
  {
    if |ts| == 6 && !HasDuplicate(ts) {
      IdentifyShape(ts);
      SixAssignmentsClaimAll(ts);
      MatchedOrigin(ts);
    } else {
      ScanFilesCorrect(ts);
    }
  }

  /**
   * Identification succeeds exactly for six files with no slot claimed twice
   * and every slot claimed, and a success holds all six slots.
   */
  lemma SelectSucceedsExactly(paths: seq<string>)
    ensures SelectSkyboxFiles(paths).Ok? <==>
              |paths| == 6 && !HasDuplicate(Tag(paths)) && forall s: Slot :: Claimed(Tag(paths), s)
    ensures SelectSkyboxFiles(paths).Ok? ==>
              |SelectSkyboxFiles(paths).value| == 6 && SlotsIn(SelectSkyboxFiles(paths).value) == AllSlots
  {
    IdentifySucceedsExactly(Tag(paths));
  }

  /** Each file of a successful identification is one of the selected files. */
  lemma SelectedFilesComeFromSelection(paths: seq<string>)
    ensures SelectSkyboxFiles(paths).Ok? ==>
              var files := SelectSkyboxFiles(paths).value;
              forall k :: 0 <= k < |files| ==> files[k].1 in paths
  {
    FilesFromTagged(Tag(paths), paths);
  }

  lemma FilesFromTagged(ts: seq<Tagged>, paths: seq<string>)
    requires |ts| == |paths| && forall i :: 0 <= i < |ts| ==> ts[i].path == paths[i]
    ensures Identify(ts).Ok? ==> forall k :: 0 <= k < |Identify(ts).value| ==> Identify(ts).value[k].1 in paths
  {
    IdentifySucceedsExactly(ts);
    if Identify(ts).Ok? {
      var files := Identify(ts).value;
      forall k | 0 <= k < |files| ensures files[k].1 in paths {
        var i :| 0 <= i < |ts| && ts[i] == Tagged(files[k].1, Some(files[k].0));
        assert paths[i] == files[k].1;
      }
    }
  }

  /** Each slot of a successful identification is paired with a file whose name matches that slot first. */
  lemma SelectedFilesMatchTheirSlots(paths: seq<string>)
    ensures SelectSkyboxFiles(paths).Ok? ==>
              var files := SelectSkyboxFiles(paths).value;
              forall k :: 0 <= k < |files| ==> SlotOf(files[k].1) == Some(files[k].0)
  {
    var ts := Tag(paths);
    assert forall i :: 0 <= i < |ts| ==> ts[i].slot == SlotOf(ts[i].path);
    SlotsFromTagged(ts, SlotOf);
  }

  lemma SlotsFromTagged(ts: seq<Tagged>, slotOf: string -> Option<Slot>)
    requires forall i :: 0 <= i < |ts| ==> ts[i].slot == slotOf(ts[i].path)
    ensures Identify(ts).Ok? ==> forall k :: 0 <= k < |Identify(ts).value| ==> slotOf(Identify(ts).value[k].1) == Some(Identify(ts).value[k].0)
  {
    IdentifySucceedsExactly(ts);
    if Identify(ts).Ok? {
      var files := Identify(ts).value;
      forall k | 0 <= k < |files| ensures slotOf(files[k].1) == Some(files[k].0) {
        var i :| 0 <= i < |ts| && ts[i] == Tagged(files[k].1, Some(files[k].0));
      }
    }
  }

  /** An incomplete six-file selection lists exactly the unclaimed slots, in `TargetSlots` order, and the unmatched base names in selection order. */
  lemma IncompleteReport(ts: seq<Tagged>)
    requires |ts| == 6 && !HasDuplicate(ts)
    requires exists s: Slot :: !Claimed(ts, s)
    ensures Identify(ts).Err? && Identify(ts).error.IncompleteSet?
    ensures forall s :: s in Identify(ts).error.missing <==> !Claimed(ts, s)
    ensures InSlotOrder(Identify(ts).error.missing)
    ensures Identify(ts).error.unmatched == Unmatched(ts)
  {
    ScanFilesCorrect(ts);
    MatchedSlots(ts);
    IdentifySucceedsExactly(ts);
  }

  // ---------------------------------------------------------------- the remapping table

  datatype Flip = FlipLeftRight | FlipTopBottom

  /** A target slot takes its pixels from `source`, rotated counter-clockwise by `rotation` degrees and then flipped. */
  datatype Rule = Rule(source: Slot, rotation: int, flip: Option<Flip>)

  /** The default remapping: the horizontal faces are exchanged pairwise, with no rotation or flip. */
  function DefaultTransform(target: Slot): Rule {
    match target
    case Up => Rule(Up, 0, None)
    case Down => Rule(Down, 0, None)
    case Left => Rule(Back, 0, None)
    case Front => Rule(Right, 0, None)
    case Right => Rule(Front, 0, None)
    case Back => Rule(Left, 0, None)
  }

  function SourceOf(target: Slot): Slot {
    DefaultTransform(target).source
  }

  /** No rule rotates or flips, and the sources are a permutation (indeed an involution) of the slots. */
  lemma DefaultTransformIsPermutation()
    ensures forall t: Slot :: DefaultTransform(t).rotation == 0 && DefaultTransform(t).flip.None?
    ensures forall t: Slot :: SourceOf(SourceOf(t)) == t
    ensures forall t1: Slot, t2: Slot :: SourceOf(t1) == SourceOf(t2) ==> t1 == t2
    ensures forall t: Slot :: (t == Up || t == Down) <==> SourceOf(t) == t
  {
    forall t: Slot ensures SourceOf(SourceOf(t)) == t {
      match t
      case Up =>
      case Down =>
      case Left =>
      case Front =>
      case Right =>
      case Back =>
    }
  }
}

=== FILE: skybox_gui.dfy ===
/**
 * The decisions of the newer skybox converter window: finding the game's
 * install root above the detected path, listing addons, deriving the skybox
 * prefix from the first selected face, validating a conversion request, and
 * encoding the converter's parameters as environment variables.
 */
module SkyboxGui {
  import opened Wrappers
  import opened Text
  import Paths

  const InstallDirName: string := "Counter-Strike Global Offensive"

  // ---------------------------------------------------------------- install root

  /** The `n`-th ancestor of `p` by repeated `dirname`. */
  function Up(p: string, n: nat): string
    decreases n
  {
    if n == 0 then p else Up(Paths.Dirname(p), n - 1)
  }

  lemma {:induction false} UpIsPrefix(p: string, n: nat)
    ensures StartsWith(p, Up(p, n))
    decreases n
  {
    if n > 0 {
      var d := Paths.Dirname(p);
      UpIsPrefix(d, n - 1);
      StartsWithTrans(p, d, Up(d, n - 1));
    }
  }

  /**
   * The walk from the detected path up through its parents, stopping at the
   * first one named after the install directory, at a path that is its own
   * parent, or at the empty path.
   */
  function FindInstallRoot(p: string): (r: string)
    ensures StartsWith(p, r)
    ensures r == "" || EndsWith(r, InstallDirName) || Paths.Dirname(r) == r
    decreases |p|
  {
    if p == "" || EndsWith(p, InstallDirName) then p
    else
      var d := Paths.Dirname(p);
      if d == p then p
      else
        var r := FindInstallRoot(d);
        StartsWithTrans(p, d, r);
        r
  }

  /** The root is one of the detected path's ancestors (or the path itself). */
  lemma {:induction false} RootIsAncestor(p: string)
    ensures exists n: nat :: Up(p, n) == FindInstallRoot(p)
    decreases |p|
  {
    var d := Paths.Dirname(p);
    if p == "" || EndsWith(p, InstallDirName) || d == p {
      assert Up(p, 0) == FindInstallRoot(p);
    } else {
      RootIsAncestor(d);
      var n: nat :| Up(d, n) == FindInstallRoot(d);
      assert Up(p, n + 1) == FindInstallRoot(p);
    }
  }

  /** No ancestor below the root is named after the install directory: the walk stops at the nearest one. */
  lemma {:induction false} RootIsNearest(p: string, n: nat)
    ensures |Up(p, n)| > |FindInstallRoot(p)| ==> !EndsWith(Up(p, n), InstallDirName)
    decreases |p|
  {
    var d := Paths.Dirname(p);
    if p == "" || EndsWith(p, InstallDirName) || d == p {
      UpIsPrefix(p, n);
    } else if n > 0 {
      RootIsNearest(d, n - 1);
    }
  }

  /** A path already inside the install directory is its own root. */
  lemma RootOfRoot(p: string)
    requires EndsWith(p, InstallDirName)
    ensures FindInstallRoot(p) == p
  {
  }

  /** A path named after the install directory is a plain directory name to join onto. */
  lemma InstallRootIsPlain(root: string)
    requires EndsWith(root, InstallDirName)
    ensures root != "" && !EndsWith(root, "/")
  {
    assert root[|root| - 1] == InstallDirName[|InstallDirName| - 1];
  }

  lemma AddonsUnderRoot(root: string)
    requires EndsWith(root, InstallDirName)
    ensures Paths.JoinAll(root, ["content", "csgo_addons"]) == root + "/content/csgo_addons"
  {
    InstallRootIsPlain(root);
    assert Paths.IsRelativeComponent("content") && Paths.IsRelativeComponent("csgo_addons");
    Paths.JoinAllPlain(root, ["content", "csgo_addons"]);
    Paths.SepPrefixedTwo("content", "csgo_addons");
  }

  /** `<root>/content/csgo_addons`, when the walk found the install root. */
  function AddonsDir(cs2Path: string): (r: Option<string>)
    ensures r.Some? <==> EndsWith(FindInstallRoot(cs2Path), InstallDirName)
    ensures r.Some? ==> r.value == FindInstallRoot(cs2Path) + "/content/csgo_addons"
  {
    var root := FindInstallRoot(cs2Path);
    if EndsWith(root, InstallDirName) then
      AddonsUnderRoot(root);
      Some(Paths.JoinAll(root, ["content", "csgo_addons"]))
    else None
  }

  datatype DirEntry = DirEntry(name: string, isDir: bool)

  /** A listed entry that counts as an addon: a directory whose name does not start with a dot. */
  predicate IsAddon(e: DirEntry) {
    e.isDir && !StartsWith(e.name, ".")
  }

  /** How many entries of a listing are addons. */
  function CountAddons(entries: seq<DirEntry>): nat
    decreases |entries|
  {
    if |entries| == 0 then 0 else (if IsAddon(entries[0]) then 1 else 0) + CountAddons(entries[1..])
  }

  /**
   * The addons are the sub-directories of the addons directory whose names
   * do not start with a dot, in listing order: the addon entry at position
   * `i` is addon number `CountAddons(entries[..i])`.
   */
  function AddonList(entries: seq<DirEntry>): (addons: seq<string>)
    ensures forall a :: a in addons <==> DirEntry(a, true) in entries && !StartsWith(a, ".")
    ensures |addons| == CountAddons(entries) && |addons| <= |entries|
    ensures forall i :: 0 <= i < |entries| && IsAddon(entries[i]) ==>
              CountAddons(entries[..i]) < |addons| && addons[CountAddons(entries[..i])] == entries[i].name
    decreases |entries|
  {
    if |entries| == 0 then []
    else
      var rest := AddonList(entries[1..]);
      assert forall e :: e in entries <==> e == entries[0] || e in entries[1..];
      var addons := if IsAddon(entries[0]) then [entries[0].name] + rest else rest;
      AddonRanks(entries, rest, addons);
      addons
  }

  /** The step of `AddonList`: the ranks in the rest of the listing shift by one when the first entry is an addon. */
  lemma AddonRanks(entries: seq<DirEntry>, rest: seq<string>, addons: seq<string>)
    requires |entries| > 0
    requires |rest| == CountAddons(entries[1..])
    requires forall i :: 0 <= i < |entries[1..]| && IsAddon(entries[1..][i]) ==>
               CountAddons(entries[1..][..i]) < |rest| && rest[CountAddons(entries[1..][..i])] == entries[1..][i].name
    requires addons == if IsAddon(entries[0]) then [entries[0].name] + rest else rest
    ensures forall i :: 0 <= i < |entries| && IsAddon(entries[i]) ==>
              CountAddons(entries[..i]) < |addons| && addons[CountAddons(entries[..i])] == entries[i].name
  {
    forall i | 0 <= i < |entries| && IsAddon(entries[i])
      ensures CountAddons(entries[..i]) < |addons| && addons[CountAddons(entries[..i])] == entries[i].name
    {
      if i > 0 {
        assert entries[..i][1..] == entries[1..][..i - 1];
        assert entries[..i][0] == entries[0];
        assert entries[1..][i - 1] == entries[i];
      }
    }
  }

  /** Where the converted skybox of an addon goes: `<root>/content/csgo_addons/<addon>/materials/skybox`. */
  function AddonOutputDir(root: string, addon: string): (r: string)
    ensures root != "" && !EndsWith(root, "/") && Paths.IsRelativeComponent(addon) ==>
              r == root + "/" + "content" + "/" + "csgo_addons" + "/" + addon + "/" + "materials" + "/" + "skybox"
  {
    if root != "" && !EndsWith(root, "/") && Paths.IsRelativeComponent(addon) then
      Paths.JoinAllFive(root, "content", "csgo_addons", addon, "materials", "skybox");
      Paths.JoinAll(root, ["content", "csgo_addons", addon, "materials", "skybox"])
    else Paths.JoinAll(root, ["content", "csgo_addons", addon, "materials", "skybox"])
  }

  // ---------------------------------------------------------------- the skybox prefix

  /** The face suffixes in the order they are tried. */
  const FaceSuffixesAsWritten: seq<string> :=
    ["up", "dn", "lf", "rt", "ft", "bk", "top", "down", "left", "right", "front", "back"]

  /** The same suffixes with the full face names tried before the abbreviations. */
  const FaceSuffixes: seq<string> :=
    ["top", "down", "left", "right", "front", "back", "up", "dn", "lf", "rt", "ft", "bk"]

  /** The index of the first suffix in `suffixes` that `s` ends with. */
  function FirstSuffix(s: string, suffixes: seq<string>): (r: Option<nat>)
    ensures r.Some? ==> r.value < |suffixes| && EndsWith(s, suffixes[r.value])
                        && forall j :: 0 <= j < r.value ==> !EndsWith(s, suffixes[j])
    ensures r.None? ==> forall j :: 0 <= j < |suffixes| ==> !EndsWith(s, suffixes[j])
    decreases |suffixes|
  {
    if |suffixes| == 0 then None
    else if EndsWith(s, suffixes[0]) then Some(0)
    else
      match FirstSuffix(s, suffixes[1..])
      case Some(k) => Some(k + 1)
      case None => None
  }

  /** `stem` with the first suffix it ends with cut off once; at most one suffix goes. */
  function StripSuffix(stem: string, suffixes: seq<string>): (prefix: string)
    ensures StartsWith(stem, prefix)
    ensures FirstSuffix(stem, suffixes).None? ==> prefix == stem
    ensures FirstSuffix(stem, suffixes).Some? ==> prefix + suffixes[FirstSuffix(stem, suffixes).value] == stem
  {
    match FirstSuffix(stem, suffixes)
    case Some(k) =>
      var prefix := stem[..|stem| - |suffixes[k]|];
      assert prefix + suffixes[k] == stem;
      prefix
    case None => stem
  }

  /**
   * The prefix derived from the first selected face, as written: its file
   * name without extension and without the first suffix of
   * `FaceSuffixesAsWritten` it ends with, so `ft` is cut from `left`.
   */
  function SkyboxPrefix(firstFile: string): (prefix: string)
    ensures StartsWith(Paths.Stem(firstFile), prefix)
    ensures (forall i :: 0 <= i < |FaceSuffixesAsWritten| ==> !EndsWith(Paths.Stem(firstFile), FaceSuffixesAsWritten[i])) ==>
              prefix == Paths.Stem(firstFile)
    ensures prefix == Paths.Stem(firstFile) || exists i :: 0 <= i < |FaceSuffixesAsWritten| && prefix + FaceSuffixesAsWritten[i] == Paths.Stem(firstFile)
    ensures var k := FirstSuffix(Paths.Stem(firstFile), FaceSuffixesAsWritten);
            k.Some? ==> prefix + FaceSuffixesAsWritten[k.value] == Paths.Stem(firstFile)
  {
    StripSuffix(Paths.Stem(firstFile), FaceSuffixesAsWritten)
  }

  /** The last two characters of a suffix. */
  function Tail2(w: string): (char, char)
    requires |w| >= 2
  {
    (w[|w| - 2], w[|w| - 1])
  }

  /** A stem ending in `w` ends in `s` only if the two share their last two characters. */
  lemma EndsWithAppended(p: string, w: string, s: string)
    requires |w| >= 2 && |s| >= 2
    ensures EndsWith(p + w, s) ==> Tail2(w) == Tail2(s)
  {
    var t := p + w;
    if EndsWith(t, s) {
      assert t[|t| - 1] == s[|s| - 1] && t[|t| - 2] == s[|s| - 2] by {
        assert t[|t| - |s|..][|s| - 1] == s[|s| - 1];
        assert t[|t| - |s|..][|s| - 2] == s[|s| - 2];
      }
    }
  }

  /** The cut made when the suffix at index `k` is the first one `s` ends with. */
  lemma StripAt(s: string, suffixes: seq<string>, k: nat)
    requires k < |suffixes| && EndsWith(s, suffixes[k])
    requires forall j :: 0 <= j < k ==> !EndsWith(s, suffixes[j])
    ensures StripSuffix(s, suffixes) == s[..|s| - |suffixes[k]|]
  {
    assert FirstSuffix(s, suffixes) == Some(k);
  }

  /** A suffix with no earlier entry clashing with it is cut off whole, after any stem. */
  lemma ClashFreeAt(p: string, suffixes: seq<string>, k: nat)
    requires k < |suffixes| && forall j :: 0 <= j < |suffixes| ==> |suffixes[j]| >= 2
    requires forall j :: 0 <= j < k ==> Tail2(suffixes[j]) != Tail2(suffixes[k])
    ensures StripSuffix(p + suffixes[k], suffixes) == p
  {
    var w := suffixes[k];
    forall j | 0 <= j < k
      ensures !EndsWith(p + w, suffixes[j])
    {
      EndsWithAppended(p, w, suffixes[j]);
    }
    assert (p + w)[|p + w| - |w|..] == w;
    StripAt(p + w, suffixes, k);
    assert (p + w)[..|p + w| - |w|] == p;
  }

  /** As written, every face name or abbreviation other than `left` is cut off whole. */
  lemma PrefixAsWrittenCutsFaceName(p: string, k: nat)
    requires k < |FaceSuffixesAsWritten| && FaceSuffixesAsWritten[k] != "left"
    ensures StripSuffix(p + FaceSuffixesAsWritten[k], FaceSuffixesAsWritten) == p
  {
    ClashFreeAt(p, FaceSuffixesAsWritten, k);
  }

  /** As written, a stem ending in `left` loses only its `ft`: `sky_left` gives the prefix `sky_le`. */
  lemma PrefixAsWrittenCutsLeft(p: string)
    ensures StripSuffix(p + "left", FaceSuffixesAsWritten) == p + "le"
  {
    assert p + "left" == (p + "le") + FaceSuffixesAsWritten[4];
    ClashFreeAt(p + "le", FaceSuffixesAsWritten, 4);
  }

  /** A stem that ends in `ft` ends in `left` only when the rest ends in `le`. */
  lemma LeftNeedsLe(p: string)
    ensures EndsWith(p + "ft", "left") ==> EndsWith(p, "le")
  {
    var t := p + "ft";
    if EndsWith(t, "left") {
      var n := |t|;
      assert t[n - 4..][0] == 'l' && t[n - 4..][1] == 'e';
      assert p[|p| - 2] == t[n - 4] && p[|p| - 1] == t[n - 3];
      assert p[|p| - 2..] == "le";
    }
  }

  /** With the full names tried first, every face name and every abbreviation other than `ft` is cut off whole. */
  lemma PrefixCutsFaceName(p: string, k: nat)
    requires k < |FaceSuffixes| && FaceSuffixes[k] != "ft"
    ensures StripSuffix(p + FaceSuffixes[k], FaceSuffixes) == p
  {
    ClashFreeAt(p, FaceSuffixes, k);
  }

  /** `ft` is cut off whole too, unless what precedes it ends in `le` and so spells `left`. */
  lemma PrefixCutsFt(p: string)
    requires !EndsWith(p, "le")
    ensures StripSuffix(p + "ft", FaceSuffixes) == p
  {
    var l := FaceSuffixes;
    var t := p + "ft";
    forall j | 0 <= j < 10
      ensures !EndsWith(t, l[j])
    {
      EndsWithAppended(p, "ft", l[j]);
      LeftNeedsLe(p);
    }
    assert t[|t| - 2..] == l[10];
    StripAt(t, l, 10);
    assert t[..|t| - 2] == p;
  }

  // ---------------------------------------------------------------- selection and validation

  /** The window's selection state. */
  datatype Selection = Selection(files: seq<string>, prefix: string, status: string)

  /**
   * Picking faces in the file dialog. A cancelled dialog changes nothing; a
   * count other than six only sets an error status; six files replace the
   * selection and set the prefix from the first.
   */
  function SelectFiles(s: Selection, chosen: seq<string>): (r: Selection)
    ensures |chosen| == 0 ==> r == s
    ensures |chosen| != 0 && |chosen| != 6 ==>
              r.files == s.files && r.prefix == s.prefix
              && r.status == "Error: Please select exactly 6 files. You selected " + NatToDecimal(|chosen|)
    ensures |chosen| == 6 ==> r.files == chosen && r.prefix == SkyboxPrefix(chosen[0]) && r.status == s.status
  {
    if |chosen| == 0 then s
    else if |chosen| != 6 then
      s.(status := "Error: Please select exactly 6 files. You selected " + NatToDecimal(|chosen|))
    else s.(files := chosen, prefix := SkyboxPrefix(chosen[0]))
  }

  datatype OutputMode = Custom | Addon

  /** What the convert button sees. */
  datatype Request = Request(files: seq<string>, mode: OutputMode, outputDir: string,
                             addons: seq<string>, addonIndex: nat, prefix: string)

  /** The output destination is chosen: a directory in custom mode, an existing addon otherwise. */
  predicate HasDestination(q: Request) {
    match q.mode
    case Custom => q.outputDir != ""
    case Addon => q.addonIndex < |q.addons|
  }

  /** The prefix used: the typed one, or the derived one when it is blank. */
  function EffectivePrefix(q: Request): string
    requires |q.files| > 0
  {
    if IsBlank(q.prefix) then SkyboxPrefix(q.files[0]) else q.prefix
  }

  /**
   * `start_conversion`: the checks in order, six faces, then a destination,
   * then a usable prefix; the conversion starts (`Ok` with the prefix) only
   * when all of them pass.
   */
  function StartConversion(q: Request): (r: Result<string, string>)
    ensures |q.files| != 6 ==> r == Err("Error: Please select all 6 skybox faces")
    ensures |q.files| == 6 && q.mode == Custom && q.outputDir == "" ==> r == Err("Error: Please select output directory")
    ensures |q.files| == 6 && q.mode == Addon && q.addonIndex >= |q.addons| ==> r == Err("Error: No addon selected")
    ensures r.Ok? <==> |q.files| == 6 && HasDestination(q) && !IsBlank(EffectivePrefix(q))
    ensures r.Ok? ==> r.value == EffectivePrefix(q)
  {
    if |q.files| != 6 then Err("Error: Please select all 6 skybox faces")
    else if q.mode == Custom && q.outputDir == "" then Err("Error: Please select output directory")
    else if q.mode == Addon && (|q.addons| == 0 || q.addonIndex >= |q.addons|) then Err("Error: No addon selected")
    else
      var prefix := EffectivePrefix(q);
      if IsBlank(prefix) then Err("Error: Could not determine skybox prefix from files")
      else Ok(prefix)
  }

  // ---------------------------------------------------------------- converter parameters

  function Flag(b: bool): (f: string)
    ensures f == "1" <==> b
    ensures f == "0" <==> !b
  {
    if b then "1" else "0"
  }

  /** The environment handed to the converter process. */
  datatype ConverterEnv = ConverterEnv(inputDir: string, outputDir: string, prefix: string,
                                       createSkybox: string, createMoondome: string, cleanup: string,
                                       originalPaths: string)

  function MakeEnv(inputDir: string, outputDir: string, prefix: string,
                   createSkybox: bool, createMoondome: bool, cleanup: bool,
                   files: seq<string>): ConverterEnv
  {
    ConverterEnv(inputDir, outputDir, prefix, Flag(createSkybox), Flag(createMoondome), Flag(cleanup), Join(files, '|'))
  }

  /**
   * The converter recovers every option and, when no path holds a `|`, the
   * list of original paths.
   */
  lemma EnvRoundTrip(inputDir: string, outputDir: string, prefix: string,
                     createSkybox: bool, createMoondome: bool, cleanup: bool, files: seq<string>)
    requires |files| >= 1 && forall k :: 0 <= k < |files| ==> '|' !in files[k]
    ensures var env := MakeEnv(inputDir, outputDir, prefix, createSkybox, createMoondome, cleanup, files);
            (env.createSkybox == "1" <==> createSkybox)
            && (env.createMoondome == "1" <==> createMoondome)
            && (env.cleanup == "1" <==> cleanup)
            && Split(env.originalPaths, '|') == files
  {
    SplitJoin(files, '|');
  }
}

=== FILE: skybox_stitch.dfy ===
/**
 * Stitching six identified faces into one 4x3 cross-layout skybox image
 * (`stitch_skybox` in scripts/skybox_gui_old.py). Decoding and saving image
 * files are parameters; the pixel grid work is modelled exactly.
 */
module SkyboxStitch {
  import opened Wrappers
  import opened Text
  import opened Raster
  import opened SkyboxFaces

  // ---------------------------------------------------------------- the cross layout

  /** Left edge of a slot's cell in a canvas of `b`-pixel cells. */
  function CellX(t: Slot, b: nat): nat {
    match t
    case Up => b
    case Left => 0
    case Front => b
    case Right => 2 * b
    case Back => 3 * b
    case Down => b
  }

  /** Top edge of a slot's cell. */
  function CellY(t: Slot, b: nat): nat {
    match t
    case Up => 0
    case Left => b
    case Front => b
    case Right => b
    case Back => b
    case Down => 2 * b
  }

  predicate InCell(t: Slot, b: nat, x: nat, y: nat) {
    CellX(t, b) <= x < CellX(t, b) + b && CellY(t, b) <= y < CellY(t, b) + b
  }

  /** The six cells lie inside the 4b x 3b canvas and no two of them overlap. */
  lemma CellsPartition(b: nat)
    ensures forall t: Slot :: CellX(t, b) + b <= 4 * b && CellY(t, b) + b <= 3 * b
    ensures forall t1: Slot, t2: Slot, x: nat, y: nat :: InCell(t1, b, x, y) && InCell(t2, b, x, y) ==> t1 == t2
  {
  }

  /** The pixels of the canvas's two top corners, bottom corners and right end of the middle row lie in no cell. */
  lemma CornersOutsideCells(b: nat)
    ensures forall t: Slot :: !InCell(t, b, 0, 2 * b) && !InCell(t, b, 0, 0) && !InCell(t, b, 3 * b, 0)
  {
  }

  // ---------------------------------------------------------------- pasting a sequence of faces

  /** A face pasted with its corner at the corner of a slot's cell. */
  datatype Placed = Placed(slot: Slot, face: Image)

  function PasteCells(canvas: Image, cells: seq<Placed>, b: nat): (r: Image)
    ensures r.width == canvas.width && r.height == canvas.height
    decreases |cells|
  {
    if |cells| == 0 then canvas
    else
      var c := cells[|cells| - 1];
      Paste(PasteCells(canvas, cells[..|cells| - 1], b), c.face, CellX(c.slot, b), CellY(c.slot, b))
  }

  predicate Covers(c: Placed, b: nat, x: nat, y: nat) {
    Under(c.face, CellX(c.slot, b), CellY(c.slot, b), x, y)
  }

  /** The index of the last pasted face that covers pixel `(x, y)`. */
  function LastCover(cells: seq<Placed>, b: nat, x: nat, y: nat): (r: Option<nat>)
    ensures r.Some? ==> r.value < |cells| && Covers(cells[r.value], b, x, y)
                        && forall k :: r.value < k < |cells| ==> !Covers(cells[k], b, x, y)
    ensures r.None? ==> forall k :: 0 <= k < |cells| ==> !Covers(cells[k], b, x, y)
    decreases |cells|
  {
    if |cells| == 0 then None
    else if Covers(cells[|cells| - 1], b, x, y) then Some(|cells| - 1)
    else
      var r := LastCover(cells[..|cells| - 1], b, x, y);
      assert forall k :: 0 <= k < |cells| - 1 ==> cells[..|cells| - 1][k] == cells[k];
      r
  }

  /** Pasting in order leaves each pixel showing the last face that covers it, or the canvas where none does. */
  lemma {:induction false} PasteCellsPixel(canvas: Image, cells: seq<Placed>, b: nat, x: nat, y: nat)
    requires x < canvas.width && y < canvas.height
    ensures LastCover(cells, b, x, y).None? ==> At(PasteCells(canvas, cells, b), x, y) == At(canvas, x, y)
    ensures LastCover(cells, b, x, y).Some? ==>
              var c := cells[LastCover(cells, b, x, y).value];
              At(PasteCells(canvas, cells, b), x, y) == At(c.face, x - CellX(c.slot, b), y - CellY(c.slot, b))
    decreases |cells|
  {
    if |cells| > 0 {
      var init := cells[..|cells| - 1];
      var c := cells[|cells| - 1];
      var before := PasteCells(canvas, init, b);
      assert PasteCells(canvas, cells, b) == Paste(before, c.face, CellX(c.slot, b), CellY(c.slot, b));
      PastePixel(before, c.face, CellX(c.slot, b), CellY(c.slot, b), x, y);
      if Covers(c, b, x, y) {
        assert LastCover(cells, b, x, y) == Some(|cells| - 1);
      } else {
        PasteCellsPixel(canvas, init, b, x, y);
        assert LastCover(cells, b, x, y) == LastCover(init, b, x, y);
        if LastCover(init, b, x, y).Some? {
          assert init[LastCover(init, b, x, y).value] == cells[LastCover(init, b, x, y).value];
        }
      }
    }
  }

  // ---------------------------------------------------------------- loading

  datatype StitchError =
    | VtfSupportUndefined
    | VtfLibraryMissing
    | LoadFailed(reason: string)
    | NoImages
    | MissingFace(slot: Slot)
    | SaveFailed(reason: string)

  /** Reads and decodes one file into RGBA, or fails with the exception's text. */
  type Decoder = string -> Result<Image, string>

  predicate IsVtf(path: string) {
    EndsWith(Lower(path), ".vtf")
  }

  function Decoded(d: Result<Image, string>): Result<Image, StitchError> {
    if d.Ok? then Ok(d.value) else Err(LoadFailed(d.error))
  }

  /**
   * Loading one face as the code is written: a `.vtf` path reads the flag
   * `VTF_SUPPORT`, which the module never defines, so every VTF face fails.
   */
  function LoadFaceAsWritten(decode: Decoder, path: string): (r: Result<Image, StitchError>)
    ensures IsVtf(path) ==> r == Err(VtfSupportUndefined)
    ensures !IsVtf(path) ==> (r.Ok? <==> decode(path).Ok?)
  {
    if IsVtf(path) then Err(VtfSupportUndefined) else Decoded(decode(path))
  }

  /**
   * Loading one face as intended: a `.vtf` path goes through the VTF decoder
   * when that library is installed, and fails with the install hint when not.
   */
  function LoadFace(decode: Decoder, vtf: Option<Decoder>, path: string): (r: Result<Image, StitchError>)
    ensures IsVtf(path) && vtf.None? ==> r == Err(VtfLibraryMissing)
    ensures IsVtf(path) && vtf.Some? ==> (r.Ok? <==> vtf.value(path).Ok?)
    ensures !IsVtf(path) ==> (r.Ok? <==> decode(path).Ok?)
  {
    if IsVtf(path) then
      if vtf.None? then Err(VtfLibraryMissing) else Decoded(vtf.value(path))
    else Decoded(decode(path))
  }

  /** The two loaders agree on every path except VTF files. */
  lemma LoadersAgreeOffVtf(decode: Decoder, vtf: Option<Decoder>, path: string)
    ensures !IsVtf(path) ==> LoadFace(decode, vtf, path) == LoadFaceAsWritten(decode, path)
    ensures IsVtf(path) && vtf.Some? && vtf.value(path).Ok? ==>
              LoadFace(decode, vtf, path).Ok? && LoadFaceAsWritten(decode, path).Err?
  {
  }

  /** Loading every file in selection order; the first failure aborts, and a later file of the same slot replaces an earlier one. */
  function LoadImages(files: seq<(Slot, string)>, load: string -> Result<Image, StitchError>): (r: Result<map<Slot, Image>, StitchError>)
    ensures r.Ok? <==> forall k :: 0 <= k < |files| ==> load(files[k].1).Ok?
    ensures r.Ok? ==> r.value.Keys == SlotsIn(files)
    ensures r.Err? ==> exists k :: 0 <= k < |files| && load(files[k].1) == Err(r.error)
                                   && forall i :: 0 <= i < k ==> load(files[i].1).Ok?
    decreases |files|
  {
    if |files| == 0 then Ok(map[])
    else
      var init := files[..|files| - 1];
      var f := files[|files| - 1];
      assert forall k :: 0 <= k < |init| ==> init[k] == files[k];
      var m :- LoadImages(init, load);
      var img :- load(f.1);
      assert SlotsIn(files) == SlotsIn(init) + {f.0} by {
        forall s ensures s in SlotsIn(files) <==> s in SlotsIn(init) + {f.0} {
          if s in SlotsIn(files) {
            var k :| 0 <= k < |files| && files[k].0 == s;
            if k < |init| {
              assert init[k].0 == s;
            }
          }
          if s in SlotsIn(init) {
            var k :| 0 <= k < |init| && init[k].0 == s;
            assert files[k].0 == s;
          }
          if s == f.0 {
            assert files[|files| - 1].0 == s;
          }
        }
      }
      Ok(m[f.0 := img])
  }

  // ---------------------------------------------------------------- fitting and assembling

  /** Resizing as written: only a face whose width differs from the base size is resized to a square. */
  function FitAsWritten(img: Image, b: nat, resample: Resampler): (r: Image)
    ensures r.width == b
    ensures img.width != b ==> r.height == b
    ensures img.width == b ==> r == img
  {
    if img.width != b then resample(img, b, b) else img
  }

  /** Resizing as intended: every face that is not already `b` by `b` is resized to that square. */
  function Fit(img: Image, b: nat, resample: Resampler): (r: Image)
    ensures r.width == b && r.height == b
    ensures img.width == b && img.height == b ==> r == img
  {
    if img.width != b || img.height != b then resample(img, b, b) else img
  }

  /** The fitting as written, as a value for `Assemble`. */
  function FitterAsWritten(resample: Resampler): (Image, nat) -> Image {
    (img: Image, b: nat) => FitAsWritten(img, b, resample)
  }

  /** The intended fitting, as a value for `Assemble`. */
  function Fitter(resample: Resampler): (Image, nat) -> Image {
    (img: Image, b: nat) => Fit(img, b, resample)
  }

  /** The six faces in paste order, each taken from its rule's source face and fitted. */
  function FitCells(slots: seq<Slot>, images: map<Slot, Image>, b: nat, fit: (Image, nat) -> Image): (r: Result<seq<Placed>, StitchError>)
    ensures r.Ok? <==> forall k :: 0 <= k < |slots| ==> SourceOf(slots[k]) in images
    ensures r.Ok? ==> |r.value| == |slots|
                      && forall k :: 0 <= k < |slots| ==> r.value[k] == Placed(slots[k], fit(images[SourceOf(slots[k])], b))
    ensures r.Err? ==> exists k :: 0 <= k < |slots| && SourceOf(slots[k]) !in images && r.error == MissingFace(SourceOf(slots[k]))
                                   && forall i :: 0 <= i < k ==> SourceOf(slots[i]) in images
    decreases |slots|
  {
    if |slots| == 0 then Ok([])
    else
      var src := SourceOf(slots[0]);
      if src !in images then Err(MissingFace(src))
      else
        var rest := FitCells(slots[1..], images, b, fit);
        assert forall k :: 1 <= k < |slots| ==> slots[1..][k - 1] == slots[k];
        if rest.Err? then
          assert exists k :: 0 <= k < |slots| && SourceOf(slots[k]) !in images && rest.error == MissingFace(SourceOf(slots[k]))
                             && forall i :: 0 <= i < k ==> SourceOf(slots[i]) in images by {
            var k :| 0 <= k < |slots[1..]| && SourceOf(slots[1..][k]) !in images && rest.error == MissingFace(SourceOf(slots[1..][k]))
                     && forall i :: 0 <= i < k ==> SourceOf(slots[1..][i]) in images;
            assert forall i :: 0 <= i < k + 1 ==> SourceOf(slots[i]) in images by {
              forall i | 0 <= i < k + 1 ensures SourceOf(slots[i]) in images {
                if i > 0 {
                  assert slots[i] == slots[1..][i - 1];
                }
              }
            }
          }
          Err(rest.error)
        else
          Ok([Placed(slots[0], fit(images[src], b))] + rest.value)
  }

  /** The empty 4b x 3b canvas with the fitted faces pasted in `TargetSlots` order. */
  function Assemble(images: map<Slot, Image>, b: nat, fit: (Image, nat) -> Image): Result<Image, StitchError> {
    var cells :- FitCells(TargetSlots, images, b, fit);
    Ok(PasteCells(Blank(4 * b, 3 * b, Transparent), cells, b))
  }

  /** Every face comes out of `fit` exactly one `b`-pixel cell in size. */
  ghost predicate FitsCells(fit: (Image, nat) -> Image, b: nat) {
    forall img: Image :: fit(img, b).width == b && fit(img, b).height == b
  }

  lemma FitFitsCells(b: nat, resample: Resampler)
    ensures FitsCells(Fitter(resample), b)
  {
  }

  lemma AllSourcesPresent(images: map<Slot, Image>)
    requires forall s: Slot :: s in images
    ensures forall k :: 0 <= k < |TargetSlots| ==> SourceOf(TargetSlots[k]) in images
  {
  }

  /** With all six faces loaded, the paste list is the six target slots in order, each with its source face fitted. */
  lemma TargetCells(images: map<Slot, Image>, b: nat, fit: (Image, nat) -> Image)
    requires forall s: Slot :: s in images
    ensures FitCells(TargetSlots, images, b, fit).Ok?
    ensures var cells := FitCells(TargetSlots, images, b, fit).value;
            |cells| == 6 && Assemble(images, b, fit) == Ok(PasteCells(Blank(4 * b, 3 * b, Transparent), cells, b))
            && forall k :: 0 <= k < 6 ==> cells[k] == Placed(TargetSlots[k], fit(images[SourceOf(TargetSlots[k])], b))
  {
    AllSourcesPresent(images);
  }

  lemma CellUnique(t1: Slot, t2: Slot, b: nat, x: nat, y: nat)
    requires InCell(t1, b, x, y) && InCell(t2, b, x, y)
    ensures t1 == t2
  {
  }

  /** Six cells pasted in `TargetSlots` order. */
  predicate InTargetOrder(cells: seq<Placed>) {
    |cells| == 6 && forall k :: 0 <= k < 6 ==> cells[k].slot == TargetSlots[k]
  }

  /** When six cell-sized faces are pasted in target order, a pixel inside a cell shows that cell's face. */
  lemma ShowsOwnCell(canvas: Image, cells: seq<Placed>, b: nat, t: Slot, x: nat, y: nat)
    requires InTargetOrder(cells)
    requires forall k :: 0 <= k < 6 ==> cells[k].face.width == b && cells[k].face.height == b
    requires InCell(t, b, x, y) && x < canvas.width && y < canvas.height
    ensures At(PasteCells(canvas, cells, b), x, y) == At(cells[IndexOfSlot(t)].face, x - CellX(t, b), y - CellY(t, b))
  {
    PasteCellsPixel(canvas, cells, b, x, y);
    TargetSlotsAreAllSlots();
    var k := IndexOfSlot(t);
    assert Covers(cells[k], b, x, y);
    var j := LastCover(cells, b, x, y).value;
    CellUnique(cells[j].slot, t, b, x, y);
    assert TargetSlots[j] == TargetSlots[k];
  }

  /** The paste list of a complete set of faces, in target order and with each face fitted. */
  lemma TargetCellsFit(images: map<Slot, Image>, b: nat, fit: (Image, nat) -> Image)
    requires forall s: Slot :: s in images
    requires FitsCells(fit, b)
    ensures FitCells(TargetSlots, images, b, fit).Ok?
    ensures var cells := FitCells(TargetSlots, images, b, fit).value;
            InTargetOrder(cells) && forall k :: 0 <= k < 6 ==> cells[k].face.width == b && cells[k].face.height == b
  {
    TargetCells(images, b, fit);
    var cells := FitCells(TargetSlots, images, b, fit).value;
    forall k | 0 <= k < 6 ensures cells[k].slot == TargetSlots[k] && cells[k].face.width == b && cells[k].face.height == b {
      var face := fit(images[SourceOf(TargetSlots[k])], b);
      assert cells[k] == Placed(TargetSlots[k], face);
    }
  }

  /** When every face fits its cell and all six are loaded, a pixel inside a cell shows that cell's source face. */
  lemma AssembleFillsCells(images: map<Slot, Image>, b: nat, fit: (Image, nat) -> Image, t: Slot, x: nat, y: nat)
    requires forall s: Slot :: s in images
    requires FitsCells(fit, b)
    requires InCell(t, b, x, y)
    ensures Assemble(images, b, fit).Ok?
    ensures Assemble(images, b, fit).value.width == 4 * b && Assemble(images, b, fit).value.height == 3 * b
    ensures At(Assemble(images, b, fit).value, x, y) == At(fit(images[SourceOf(t)], b), x - CellX(t, b), y - CellY(t, b))
  {
    TargetCells(images, b, fit);
    TargetCellsFit(images, b, fit);
    var cells := FitCells(TargetSlots, images, b, fit).value;
    var canvas := Blank(4 * b, 3 * b, Transparent);
    ShowsOwnCell(canvas, cells, b, t, x, y);
    TargetSlotsAreAllSlots();
    assert cells[IndexOfSlot(t)].face == fit(images[SourceOf(t)], b);
  }

  /** When every face fits its cell, a pixel outside the six cells stays transparent. */
  lemma AssembleClearsOutside(images: map<Slot, Image>, b: nat, fit: (Image, nat) -> Image, x: nat, y: nat)
    requires forall s: Slot :: s in images
    requires FitsCells(fit, b)
    requires x < 4 * b && y < 3 * b
    requires forall t: Slot :: !InCell(t, b, x, y)
    ensures Assemble(images, b, fit).Ok?
    ensures At(Assemble(images, b, fit).value, x, y) == Transparent
  {
    TargetCells(images, b, fit);
    var cells := FitCells(TargetSlots, images, b, fit).value;
    var canvas := Blank(4 * b, 3 * b, Transparent);
    BlankPixel(4 * b, 3 * b, Transparent, x, y);
    PasteCellsPixel(canvas, cells, b, x, y);
    forall k | 0 <= k < 6 ensures !Covers(cells[k], b, x, y) {
      var face := fit(images[SourceOf(TargetSlots[k])], b);
      assert cells[k] == Placed(TargetSlots[k], face);
      assert face.width == b && face.height == b;
      assert !InCell(TargetSlots[k], b, x, y);
    }
  }

  /**
   * The intended stitcher with all six faces loaded: each pixel of a cell
   * shows the cell's rule-source face resized to the cell, and every pixel
   * outside the six cells is transparent.
   */
  lemma AssembleCorrect(images: map<Slot, Image>, b: nat, resample: Resampler, x: nat, y: nat)
    requires forall s: Slot :: s in images
    requires x < 4 * b && y < 3 * b
    ensures Assemble(images, b, Fitter(resample)).Ok?
    ensures forall t: Slot :: InCell(t, b, x, y) ==>
              At(Assemble(images, b, Fitter(resample)).value, x, y)
              == At(Fit(images[SourceOf(t)], b, resample), x - CellX(t, b), y - CellY(t, b))
    ensures (forall t: Slot :: !InCell(t, b, x, y)) ==> At(Assemble(images, b, Fitter(resample)).value, x, y) == Transparent
  {
    var fit := Fitter(resample);
    FitFitsCells(b, resample);
    TargetCells(images, b, fit);
    forall t: Slot | InCell(t, b, x, y)
      ensures At(Assemble(images, b, fit).value, x, y) == At(Fit(images[SourceOf(t)], b, resample), x - CellX(t, b), y - CellY(t, b))
    {
      AssembleFillsCells(images, b, fit, t, x, y);
    }
    if forall t: Slot :: !InCell(t, b, x, y) {
      AssembleClearsOutside(images, b, fit, x, y);
    }
  }

  /**
   * With a fitting that, like the code as written, leaves every face whose
   * width already equals the base size untouched: when the face sourced for
   * the left cell is taller than wide, its lower part lands in the
   * bottom-left corner, which no cell owns.
   */
  lemma AssembleSpills(images: map<Slot, Image>, b: nat, fit: (Image, nat) -> Image)
    requires forall s: Slot :: s in images
    requires forall img: Image :: fit(img, b).width == b && (img.width == b ==> fit(img, b) == img)
    requires b > 0 && images[Back].width == b && images[Back].height > b
    ensures Assemble(images, b, fit).Ok?
    ensures At(Assemble(images, b, fit).value, 0, 2 * b) == At(images[Back], 0, b)
  {
    TargetCells(images, b, fit);
    var cells := FitCells(TargetSlots, images, b, fit).value;
    assert InTargetOrder(cells);
    assert cells[1] == Placed(Left, images[Back]);
    LeftCellSpills(Blank(4 * b, 3 * b, Transparent), cells, b);
  }

  /** Six cells pasted in target order with a left face taller than a cell: the pixel below the left cell shows that face. */
  lemma LeftCellSpills(canvas: Image, cells: seq<Placed>, b: nat)
    requires InTargetOrder(cells)
    requires b > 0 && cells[1].face.width > 0 && cells[1].face.height > b
    requires 0 < canvas.width && 2 * b < canvas.height
    ensures At(PasteCells(canvas, cells, b), 0, 2 * b) == At(cells[1].face, 0, b)
  {
    PasteCellsPixel(canvas, cells, b, 0, 2 * b);
    assert Covers(cells[1], b, 0, 2 * b);
    var j := LastCover(cells, b, 0, 2 * b).value;
    assert CellX(cells[j].slot, b) == 0;
    TargetSlotsAreAllSlots();
    assert TargetSlots[j] == TargetSlots[1];
  }

  /**
   * As written, a face whose width equals the base size is pasted unresized,
   * so a tall face sourced for the left cell paints the bottom-left corner,
   * which lies in no cell.
   */
  lemma AssembleAsWrittenSpills(images: map<Slot, Image>, b: nat, resample: Resampler)
    requires forall s: Slot :: s in images
    requires b > 0 && images[Back].width == b && images[Back].height > b
    ensures Assemble(images, b, FitterAsWritten(resample)).Ok?
    ensures At(Assemble(images, b, FitterAsWritten(resample)).value, 0, 2 * b) == At(images[Back], 0, b)
    ensures forall t: Slot :: !InCell(t, b, 0, 2 * b)
  {
    CornersOutsideCells(b);
    FitAsWrittenKeepsWidth(b, resample);
    AssembleSpills(images, b, FitterAsWritten(resample));
  }

  lemma FitAsWrittenKeepsWidth(b: nat, resample: Resampler)
    ensures forall img: Image :: FitterAsWritten(resample)(img, b).width == b
                                 && (img.width == b ==> FitterAsWritten(resample)(img, b) == img)
  {
  }

  /** The corrected stitcher leaves that corner transparent for the same input. */
  lemma AssembleKeepsCornerClear(images: map<Slot, Image>, b: nat, resample: Resampler)
    requires forall s: Slot :: s in images
    requires b > 0
    ensures Assemble(images, b, Fitter(resample)).Ok?
    ensures At(Assemble(images, b, Fitter(resample)).value, 0, 2 * b) == Transparent
  {
    CornersOutsideCells(b);
    FitFitsCells(b, resample);
    AssembleClearsOutside(images, b, Fitter(resample), 0, 2 * b);
  }

  // ---------------------------------------------------------------- the whole stitch

  /** Loading, sizing by the first file's width, and assembling; saving is a parameter. */
  function Compose(files: seq<(Slot, string)>, load: string -> Result<Image, StitchError>, fit: (Image, nat) -> Image): Result<Image, StitchError> {
    var images :- LoadImages(files, load);
    if |files| == 0 then Err(NoImages)
    else
      var b := load(files[0].1).value.width;
      Assemble(images, b, fit)
  }

  function ErrorMessage(e: StitchError): string {
    match e
    case VtfSupportUndefined => "Error creating skybox: name 'VTF_SUPPORT' is not defined"
    case VtfLibraryMissing => "VTF files detected but vtf2img library is not installed.\nPlease install it with: pip install vtf2img"
    case LoadFailed(reason) => "Error creating skybox: " + reason
    case NoImages => "Error creating skybox: unsupported operand type(s) for *: 'NoneType' and 'int'"
    case MissingFace(s) => "Error creating skybox: '" + SlotName(s) + "'"
    case SaveFailed(reason) => "Error creating skybox: " + reason
  }

  function SuccessMessage(output: string, img: Image): string {
    "Skybox saved successfully to:\n" + output + "\n\nResolution: " + NatToDecimal(img.width) + "x" + NatToDecimal(img.height)
  }

  /** Writes the image as PNG to the path, or fails with the exception's text. */
  type Saver = (string, Image) -> Option<string>

  function Finish(composed: Result<Image, StitchError>, output: string, save: Saver): (bool, string) {
    if composed.Err? then (false, ErrorMessage(composed.error))
    else if save(output, composed.value).Some? then (false, ErrorMessage(SaveFailed(save(output, composed.value).value)))
    else (true, SuccessMessage(output, composed.value))
  }

  /** The face loader as written. */
  function LoaderAsWritten(decode: Decoder): string -> Result<Image, StitchError> {
    p => LoadFaceAsWritten(decode, p)
  }

  /** The intended face loader. */
  function Loader(decode: Decoder, vtf: Option<Decoder>): string -> Result<Image, StitchError> {
    p => LoadFace(decode, vtf, p)
  }

  /** `stitch_skybox` as written. */
  function StitchAsWritten(files: seq<(Slot, string)>, output: string, decode: Decoder, resample: Resampler, save: Saver): (bool, string) {
    Finish(Compose(files, LoaderAsWritten(decode), FitterAsWritten(resample)), output, save)
  }

  /** `stitch_skybox` with both defects corrected. */
  function Stitch(files: seq<(Slot, string)>, output: string, decode: Decoder, vtf: Option<Decoder>,
                  resample: Resampler, save: Saver): (bool, string) {
    Finish(Compose(files, Loader(decode, vtf), Fitter(resample)), output, save)
  }

  /** As written, any VTF face makes the stitch fail with the undefined-name error, unless an earlier face already failed. */
  lemma StitchAsWrittenRejectsVtf(files: seq<(Slot, string)>, output: string, decode: Decoder, resample: Resampler, save: Saver)
    requires exists k :: 0 <= k < |files| && IsVtf(files[k].1)
    ensures !StitchAsWritten(files, output, decode, resample, save).0
  {
    var k :| 0 <= k < |files| && IsVtf(files[k].1);
    assert LoaderAsWritten(decode)(files[k].1).Err?;
  }

  /** With every slot among the files, composing succeeds exactly when every file loads, at four by three cells of the first file's width. */
  lemma ComposeSucceedsExactly(files: seq<(Slot, string)>, load: string -> Result<Image, StitchError>, fit: (Image, nat) -> Image)
    requires |files| > 0 && SlotsIn(files) == AllSlots
    ensures Compose(files, load, fit).Ok? <==> forall k :: 0 <= k < |files| ==> load(files[k].1).Ok?
    ensures Compose(files, load, fit).Ok? ==>
              Compose(files, load, fit).value.width == 4 * load(files[0].1).value.width
              && Compose(files, load, fit).value.height == 3 * load(files[0].1).value.width
  {
    var r := LoadImages(files, load);
    if r.Ok? {
      TargetSlotsAreAllSlots();
      var b := load(files[0].1).value.width;
      AssembleComplete(r.value, b, fit);
      assert Compose(files, load, fit) == Assemble(r.value, b, fit);
    }
  }

  /** With all six faces loaded, assembling succeeds with a canvas of four by three cells. */
  lemma AssembleComplete(images: map<Slot, Image>, b: nat, fit: (Image, nat) -> Image)
    requires forall s: Slot :: s in images
    ensures Assemble(images, b, fit).Ok?
    ensures Assemble(images, b, fit).value.width == 4 * b && Assemble(images, b, fit).value.height == 3 * b
  {
    TargetCells(images, b, fit);
  }

  /**
   * The intended stitch of a complete selection: the image is composed exactly
   * when every face loads, and success is reported, with the image's size,
   * exactly when it is also saved.
   */
  lemma StitchSucceedsExactly(files: seq<(Slot, string)>, output: string, decode: Decoder, vtf: Option<Decoder>,
                               resample: Resampler, save: Saver)
    requires |files| == 6 && SlotsIn(files) == AllSlots
    ensures var c := Compose(files, Loader(decode, vtf), Fitter(resample));
            var st := Stitch(files, output, decode, vtf, resample, save);
            (c.Ok? <==> forall k :: 0 <= k < |files| ==> LoadFace(decode, vtf, files[k].1).Ok?)
            && (st.0 <==> c.Ok? && save(output, c.value).None?)
            && (st.0 ==> st.1 == SuccessMessage(output, c.value))
  {
    ComposeSucceedsExactly(files, Loader(decode, vtf), Fitter(resample));
  }
}

=== FILE: skybox_vmat.dfy ===
/**
 * The Source 2 material files written next to a stitched skybox: a `sky.vfx`
 * skybox material and a `csgo_moondome.vfx` moondome material, both naming
 * the stitched PNG as their texture, and the end of the converter's run
 * that writes them only after a successful stitch.
 */
module SkyboxVmat {
  import opened Wrappers
  import opened Text
  import Paths
  import opened SkyboxFaces

  // The two material templates, split around the texture path they embed.

  const LdrHead: string :=
    "// THIS FILE IS AUTO-GENERATED (STANDARD SKYBOX)\n"
    + "\n"
    + "Layer0\n"
    + "{\n"
    + "    shader \"sky.vfx\"\n"
    + "\n"
    + "    //---- Format ----\n"
    + "    F_TEXTURE_FORMAT2 1 // Dxt1 (LDR)\n"
    + "\n"
    + "    //---- Texture ----\n"
    + "    g_flBrightnessExposureBias \"0.000\"\n"
    + "    g_flRenderOnlyExposureBias \"0.000\"\n"
    + "    SkyTexture \""

  const LdrTail: string :=
    "\"\n"
    + "\n"
    + "\n"
    + "    VariableState\n"
    + "    {\n"
    + "        \"Texture\"\n"
    + "        {\n"
    + "        }\n"
    + "    }\n"
    + "}"

  const MoondomeHead: string :=
    "// THIS FILE IS AUTO-GENERATED (MOONDOME)\n"
    + "\n"
    + "Layer0\n"
    + "{\n"
    + "    shader \"csgo_moondome.vfx\"\n"
    + "\n"
    + "    //---- Color ----\n"
    + "    g_flTexCoordRotation \"0.000\"\n"
    + "    g_nScaleTexCoordUByModelScaleAxis \"0\" // None\n"
    + "    g_nScaleTexCoordVByModelScaleAxis \"0\" // None\n"
    + "    g_vColorTint \"[1.000000 1.000000 1.000000 0.000000]\"\n"
    + "    g_vTexCoordCenter \"[0.500 0.500]\"\n"
    + "    g_vTexCoordOffset \"[0.000 0.000]\"\n"
    + "    g_vTexCoordScale \"[1.000 1.000]\"\n"
    + "    g_vTexCoordScrollSpeed \"[0.000 0.000]\"\n"
    + "    TextureColor \"[1.000000 1.000000 1.000000 0.000000]\"\n"
    + "\n"
    + "    //---- CubeParallax ----\n"
    + "    g_flCubeParallax \"0.000\"\n"
    + "\n"
    + "    //---- Fog ----\n"
    + "    g_bFogEnabled \"1\"\n"
    + "\n"
    + "    //---- Texture ----\n"
    + "    TextureCubeMap \""

  const MoondomeTail: string :=
    "\"\n"
    + "\n"
    + "    //---- Texture Address Mode ----\n"
    + "    g_nTextureAddressModeU \"0\" // Wrap\n"
    + "    g_nTextureAddressModeV \"0\" // Wrap\n"
    + "\n"
    + "\n"
    + "    VariableState\n"
    + "    {\n"
    + "        \"Color\"\n"
    + "        {\n"
    + "        }\n"
    + "        \"CubeParallax\"\n"
    + "        {\n"
    + "        }\n"
    + "        \"Fog\"\n"
    + "        {\n"
    + "        }\n"
    + "        \"Texture\"\n"
    + "        {\n"
    + "        }\n"
    + "        \"Texture Address Mode\"\n"
    + "        {\n"
    + "        }\n"
    + "    }\n"
    + "}"

  /** The engine path of the stitched PNG: `materials/skybox/` followed by its file name. */
  function TexturePath(output: string): (t: string)
    ensures StartsWith(t, "materials/skybox/") && EndsWith(t, Paths.Basename(output))
    ensures |t| == |"materials/skybox/"| + |Paths.Basename(output)|
  {
    "materials/skybox/" + Paths.Basename(output)
  }

  /** `get_ldr_vmat_content` */
  function SkyboxMaterial(texture: string): string {
    LdrHead + texture + LdrTail
  }

  /** `get_moondome_vmat_content` */
  function MoondomeMaterial(texture: string): string {
    MoondomeHead + texture + MoondomeTail
  }

  /** The text between a template's two halves, if `content` is an instance of that template. */
  function Embedded(content: string, head: string, tail: string): (r: Option<string>)
    ensures r.Some? ==> content == head + r.value + tail
    ensures r.None? ==> forall t :: content != head + t + tail
  {
    if |head| + |tail| <= |content| && StartsWith(content, head) && EndsWith(content, tail) then
      var middle := content[|head|..|content| - |tail|];
      assert content == head + middle + tail;
      Some(middle)
    else
      None
  }

  /** Each material gives back exactly the texture path it was made from. */
  lemma MaterialsEmbedTexture(texture: string)
    ensures Embedded(SkyboxMaterial(texture), LdrHead, LdrTail) == Some(texture)
    ensures Embedded(MoondomeMaterial(texture), MoondomeHead, MoondomeTail) == Some(texture)
  {
    var s := SkyboxMaterial(texture);
    assert s[|LdrHead|..|s| - |LdrTail|] == texture;
    var m := MoondomeMaterial(texture);
    assert m[|MoondomeHead|..|m| - |MoondomeTail|] == texture;
  }

  /** The two materials differ in their first line, whatever textures they name. */
  lemma MaterialsDiffer(t: string, u: string)
    ensures SkyboxMaterial(t) != MoondomeMaterial(u)
  {
    assert LdrHead[32] == 'S';
    assert MoondomeHead[32] == 'M';
    assert SkyboxMaterial(t)[32] == 'S';
    assert MoondomeMaterial(u)[32] == 'M';
  }

  datatype MaterialKind = SkyboxKind | MoondomeKind

  /** A material file to write: its kind, path and text. */
  datatype Vmat = Vmat(kind: MaterialKind, path: string, content: string)

  /** `skybox_<stem>.vmat` or `moondome_<stem>.vmat` beside the PNG, for an output path of `<dir>/<stem>.<ext>`. */
  function VmatFor(kind: MaterialKind, output: string): Vmat {
    var dir := Paths.Dirname(output);
    var texture := TexturePath(output);
    match kind
    case SkyboxKind => Vmat(kind, Paths.Join(dir, "skybox_" + Paths.Stem(output) + ".vmat"), SkyboxMaterial(texture))
    case MoondomeKind => Vmat(kind, Paths.Join(dir, "moondome_" + Paths.Stem(output) + ".vmat"), MoondomeMaterial(texture))
  }

  /** The materials the user asked for, skybox first. */
  function Requested(output: string, createSkybox: bool, createMoondome: bool): seq<Vmat> {
    Chosen(VmatFor(SkyboxKind, output), VmatFor(MoondomeKind, output), createSkybox, createMoondome)
  }

  /** The first material when its box is ticked, then the second when its box is. */
  function Chosen(first: Vmat, second: Vmat, takeFirst: bool, takeSecond: bool): (plan: seq<Vmat>)
    ensures |plan| == (if takeFirst then 1 else 0) + (if takeSecond then 1 else 0)
    ensures takeFirst ==> plan[0] == first
    ensures takeSecond ==> plan[|plan| - 1] == second
    ensures forall i :: 0 <= i < |plan| ==> plan[i] == first || plan[i] == second
  {
    (if takeFirst then [first] else []) + (if takeSecond then [second] else [])
  }

  /** Writing one file; `false` when it raised. */
  type Writer = (string, string) -> bool

  /** Writes the plan in order and stops at the first write that raises. */
  function WriteInOrder(plan: seq<Vmat>, write: Writer): (written: seq<string>)
    ensures |written| <= |plan|
    ensures forall i :: 0 <= i < |written| ==> written[i] == plan[i].path && write(plan[i].path, plan[i].content)
    ensures |written| < |plan| ==> !write(plan[|written|].path, plan[|written|].content)
  {
    if |plan| == 0 then []
    else if write(plan[0].path, plan[0].content) then [plan[0].path] + WriteInOrder(plan[1..], write)
    else []
  }

  /**
   * `create_vmat_files`: the paths of the files written, in order. One
   * failure ends the run, which still returns what was written before it.
   */
  function CreateVmatFiles(output: string, createSkybox: bool, createMoondome: bool, write: Writer): (created: seq<string>)
    ensures !createSkybox && !createMoondome ==> created == []
  {
    if !createSkybox && !createMoondome then [] else WriteInOrder(Requested(output, createSkybox, createMoondome), write)
  }

  /** Writing stops short of the plan exactly when some write of the plan fails. */
  lemma {:induction false} WriteInOrderAll(plan: seq<Vmat>, write: Writer)
    ensures |WriteInOrder(plan, write)| == |plan| <==> forall i :: 0 <= i < |plan| ==> write(plan[i].path, plan[i].content)
    decreases |plan|
  {
    if |plan| > 0 && write(plan[0].path, plan[0].content) {
      WriteInOrderAll(plan[1..], write);
      assert forall i :: 1 <= i < |plan| ==> plan[1..][i - 1] == plan[i];
    }
  }

  /** Each material file, read back through its own template, names the stitched PNG. */
  lemma VmatNamesTexture(kind: MaterialKind, output: string)
    ensures VmatFor(kind, output).kind == kind
    ensures MaterialTexture(VmatFor(kind, output)) == Some(TexturePath(output))
  {
    MaterialsEmbedTexture(TexturePath(output));
  }

  /** The requested materials: one per choice, skybox first, each naming the stitched PNG. */
  lemma RequestedShape(output: string, createSkybox: bool, createMoondome: bool)
    ensures var plan := Requested(output, createSkybox, createMoondome);
            |plan| == (if createSkybox then 1 else 0) + (if createMoondome then 1 else 0)
            && (createSkybox ==> plan[0].kind == SkyboxKind)
            && (createMoondome ==> plan[|plan| - 1].kind == MoondomeKind)
            && (forall i :: 0 <= i < |plan| ==> MaterialTexture(plan[i]) == Some(TexturePath(output)))
  {
    var sky := VmatFor(SkyboxKind, output);
    var moon := VmatFor(MoondomeKind, output);
    VmatNamesTexture(SkyboxKind, output);
    VmatNamesTexture(MoondomeKind, output);
    var plan := Requested(output, createSkybox, createMoondome);
    assert plan == Chosen(sky, moon, createSkybox, createMoondome);
    forall i | 0 <= i < |plan| ensures MaterialTexture(plan[i]) == Some(TexturePath(output)) {
      if plan[i] == sky {
        assert MaterialTexture(sky) == Some(TexturePath(output));
      } else {
        assert plan[i] == moon;
      }
    }
  }

  /**
   * The files written are a prefix of the requested ones, all of them when
   * every write succeeds, and each requested material names the stitched PNG
   * as its texture.
   */
  lemma CreateVmatFilesCorrect(output: string, createSkybox: bool, createMoondome: bool, write: Writer)
    ensures var plan := Requested(output, createSkybox, createMoondome);
            var created := CreateVmatFiles(output, createSkybox, createMoondome, write);
            |plan| == (if createSkybox then 1 else 0) + (if createMoondome then 1 else 0)
            && (createSkybox ==> plan[0].kind == SkyboxKind)
            && (createMoondome ==> plan[|plan| - 1].kind == MoondomeKind)
            && |created| <= |plan|
            && (forall i :: 0 <= i < |created| ==> created[i] == plan[i].path)
            && (|created| == |plan| <==> forall i :: 0 <= i < |plan| ==> write(plan[i].path, plan[i].content))
            && (forall i :: 0 <= i < |plan| ==> MaterialTexture(plan[i]) == Some(TexturePath(output)))
  {
    var plan := Requested(output, createSkybox, createMoondome);
    assert CreateVmatFiles(output, createSkybox, createMoondome, write) == WriteInOrder(plan, write);
    RequestedShape(output, createSkybox, createMoondome);
    WriteInOrderAll(plan, write);
  }

  /** The texture a material file names, read back through its own template. */
  function MaterialTexture(v: Vmat): Option<string> {
    match v.kind
    case SkyboxKind => Embedded(v.content, LdrHead, LdrTail)
    case MoondomeKind => Embedded(v.content, MoondomeHead, MoondomeTail)
  }

  /** How `main` ends: an early exit, or the result shown to the user together with the exit code. */
  datatype Outcome =
    | Quit(code: int)
    | Report(success: bool, message: string, vmats: seq<string>, code: int)

  /** One line per material file written. */
  function VmatList(paths: seq<string>): string {
    Join(seq(|paths|, i requires 0 <= i < |paths| => "  \U{2022} " + Paths.Basename(paths[i])), '\n')
  }

  /**
   * `main`, with the dialogs' answers as inputs: the face selection, the two
   * material choices and the output path (empty when cancelled). `stitch`
   * stands for `stitch_skybox`. Materials are written only after a successful
   * stitch; the exit code is 0 exactly on success; a failed selection exits
   * with 1 and a cancelled output with 0, before anything is stitched.
   */
  function RunMain(selection: Result<seq<(Slot, string)>, IdentifyError>, createSkybox: bool, createMoondome: bool,
                   output: string, stitch: (seq<(Slot, string)>, string) -> (bool, string), write: Writer): (o: Outcome)
    ensures selection.Err? ==> o == Quit(1)
    ensures selection.Ok? && output == "" ==> o == Quit(0)
    ensures selection.Ok? && output != "" ==> o.Report? && o.success == stitch(selection.value, output).0
    ensures o.Report? ==> (o.code == 0 <==> o.success)
    ensures o.Report? && !o.success ==> o.vmats == [] && o.message == stitch(selection.value, output).1
    ensures o.Report? && o.success ==>
              o.vmats == CreateVmatFiles(output, createSkybox, createMoondome, write)
              && StartsWith(o.message, stitch(selection.value, output).1)
  {
    if selection.Err? then Quit(1)
    else if output == "" then Quit(0)
    else
      var (ok, message) := stitch(selection.value, output);
      var vmats := if ok then CreateVmatFiles(output, createSkybox, createMoondome, write) else [];
      var shown := if ok && vmats != [] then message + "\n\nVMAT files created:\n" + VmatList(vmats) else message;
      Report(ok, shown, vmats, if ok then 0 else 1)
  }
}

=== FILE: sorting.dfy ===
/**
 * Python's `sorted` / `list.sort`: a stable insertion sort under a total
 * preorder, and the code-point order Python uses on strings.
 */
module Sorting {

  /** `le` is total and transitive, as a sort key's `<=` is. */
  ghost predicate IsTotalPreorder<T(!new)>(le: (T, T) -> bool) {
    (forall a, b :: le(a, b) || le(b, a))
    && (forall a, b, c :: le(a, b) && le(b, c) ==> le(a, c))
  }

  predicate SortedBy<T>(s: seq<T>, le: (T, T) -> bool) {
    forall i, j :: 0 <= i < j < |s| ==> le(s[i], s[j])
  }

  /** An element not above any element of a sorted sequence can go in front of it. */
  lemma PrependSorted<T(!new)>(y: T, s: seq<T>, le: (T, T) -> bool)
    requires SortedBy(s, le)
    requires forall k :: 0 <= k < |s| ==> le(y, s[k])
    ensures SortedBy([y] + s, le)
  {
    var r := [y] + s;
    forall i, j | 0 <= i < j < |r|
      ensures le(r[i], r[j])
    {
      if i == 0 {
        assert r[j] == s[j - 1];
      } else {
        assert r[i] == s[i - 1] && r[j] == s[j - 1];
      }
    }
  }

  /** The head of a sorted sequence is not above anything that was inserted after it. */
  lemma HeadBelowInserted<T(!new)>(x: T, s: seq<T>, rest: seq<T>, le: (T, T) -> bool)
    requires |s| > 0 && SortedBy(s, le) && le(s[0], x)
    requires multiset(rest) == multiset(s[1..]) + multiset{x}
    ensures forall k :: 0 <= k < |rest| ==> le(s[0], rest[k])
  {
    forall k | 0 <= k < |rest|
      ensures le(s[0], rest[k])
    {
      assert rest[k] in multiset(rest);
      if rest[k] != x {
        assert rest[k] in multiset(s[1..]);
        var j :| 0 <= j < |s[1..]| && s[1..][j] == rest[k];
        assert s[j + 1] == rest[k];
      }
    }
  }

  /** Something not above the head of a sorted sequence is not above any of it. */
  lemma BelowHead<T(!new)>(x: T, s: seq<T>, le: (T, T) -> bool)
    requires IsTotalPreorder(le) && |s| > 0 && SortedBy(s, le) && !le(s[0], x)
    ensures forall k :: 0 <= k < |s| ==> le(x, s[k])
  {
    assert le(x, s[0]);
    forall k | 0 < k < |s|
      ensures le(x, s[k])
    {
      assert le(s[0], s[k]);
    }
  }

  /** Inserts `x` after every element not above it, which keeps equal keys in their original order. */
  function Insert<T(!new)>(x: T, s: seq<T>, le: (T, T) -> bool): (r: seq<T>)
    requires IsTotalPreorder(le) && SortedBy(s, le)
    ensures SortedBy(r, le)
    ensures multiset(r) == multiset(s) + multiset{x}
    ensures |r| == |s| + 1
    decreases |s|
  {
    if |s| == 0 then [x]
    else if le(s[0], x) then
      var rest := Insert(x, s[1..], le);
      assert s == [s[0]] + s[1..];
      HeadBelowInserted(x, s, rest, le);
      PrependSorted(s[0], rest, le);
      [s[0]] + rest
    else
      BelowHead(x, s, le);
      PrependSorted(x, s, le);
      assert s == [s[0]] + s[1..];
      [x] + s
  }

  /** `a` and `b` have equal keys. */
  predicate Tied<T>(le: (T, T) -> bool, a: T, b: T) {
    le(a, b) && le(b, a)
  }

  /** The elements of `s` whose key equals `y`'s, in their order in `s`. */
  function TiedWith<T>(s: seq<T>, y: T, le: (T, T) -> bool): seq<T>
    decreases |s|
  {
    if |s| == 0 then [] else (if Tied(le, s[0], y) then [s[0]] else []) + TiedWith(s[1..], y, le)
  }

  /** Appending an element extends the ties of its key and leaves the others alone. */
  lemma {:induction false} TiedWithAppend<T>(a: seq<T>, x: T, y: T, le: (T, T) -> bool)
    ensures TiedWith(a + [x], y, le) == TiedWith(a, y, le) + (if Tied(le, x, y) then [x] else [])
    decreases |a|
  {
    if |a| == 0 {
      assert a + [x] == [x] + [];
      TiedWithCons(x, [], y, le);
    } else {
      TiedWithAppend(a[1..], x, y, le);
      assert a + [x] == [a[0]] + (a[1..] + [x]);
      assert a == [a[0]] + a[1..];
      TiedStep(a[0], a[1..] + [x], a[1..], if Tied(le, x, y) then [x] else [], y, le);
    }
  }

  /** Nothing in `s` ties with `y` when everything in `s` lies strictly above `x`, which ties with `y`. */
  lemma {:induction false} NoneTied<T(!new)>(s: seq<T>, x: T, y: T, le: (T, T) -> bool)
    requires IsTotalPreorder(le) && Tied(le, x, y)
    requires forall k :: 0 <= k < |s| ==> !le(s[k], x)
    ensures TiedWith(s, y, le) == []
    decreases |s|
  {
    if |s| > 0 {
      assert !le(s[0], y);
      NoneTied(s[1..], x, y, le);
    }
  }

  lemma TiedWithCons<T>(h: T, t: seq<T>, y: T, le: (T, T) -> bool)
    ensures TiedWith([h] + t, y, le) == (if Tied(le, h, y) then [h] else []) + TiedWith(t, y, le)
  {
    assert ([h] + t)[1..] == t;
  }

  /** Everything in a sorted sequence lies strictly above `x` when its head does. */
  lemma AboveAll<T(!new)>(x: T, s: seq<T>, le: (T, T) -> bool)
    requires IsTotalPreorder(le) && SortedBy(s, le) && |s| > 0 && !le(s[0], x)
    ensures forall k :: 0 <= k < |s| ==> !le(s[k], x)
  {
  }

  /** `Insert` puts `x` after every element tied with it: the ties of `x`'s key end with `x`. */
  lemma {:induction false} InsertStable<T(!new)>(x: T, s: seq<T>, y: T, le: (T, T) -> bool)
    requires IsTotalPreorder(le) && SortedBy(s, le)
    ensures TiedWith(Insert(x, s, le), y, le) == TiedWith(s, y, le) + (if Tied(le, x, y) then [x] else [])
    decreases |s|
  {
    if |s| == 0 {
      TiedWithCons(x, [], y, le);
    } else if le(s[0], x) {
      InsertStable(x, s[1..], y, le);
      InsertUnfold(x, s, le);
      PastHead(s, Insert(x, s, le), Insert(x, s[1..], le), if Tied(le, x, y) then [x] else [], y, le);
    } else {
      InsertAtHead(x, s, y, le);
    }
  }

  /** The step of `InsertStable` where `x` goes past the head `s[0]` into the rest. */
  lemma PastHead<T>(s: seq<T>, r: seq<T>, rest: seq<T>, xs: seq<T>, y: T, le: (T, T) -> bool)
    requires |s| > 0 && r == [s[0]] + rest
    requires TiedWith(rest, y, le) == TiedWith(s[1..], y, le) + xs
    ensures TiedWith(r, y, le) == TiedWith(s, y, le) + xs
  {
    assert s == [s[0]] + s[1..];
    TiedStep(s[0], rest, s[1..], xs, y, le);
  }

  /** Putting the same element in front of two sequences keeps a difference at the end of their ties. */
  lemma TiedStep<T>(h: T, rest: seq<T>, t: seq<T>, xs: seq<T>, y: T, le: (T, T) -> bool)
    requires TiedWith(rest, y, le) == TiedWith(t, y, le) + xs
    ensures TiedWith([h] + rest, y, le) == TiedWith([h] + t, y, le) + xs
  {
    TiedWithCons(h, rest, y, le);
    TiedWithCons(h, t, y, le);
    ConcatAssoc(if Tied(le, h, y) then [h] else [], TiedWith(t, y, le), xs);
  }

  lemma ConcatAssoc<T>(a: seq<T>, b: seq<T>, c: seq<T>)
    ensures a + (b + c) == (a + b) + c
  {
  }

  lemma InsertUnfold<T(!new)>(x: T, s: seq<T>, le: (T, T) -> bool)
    requires IsTotalPreorder(le) && SortedBy(s, le) && |s| > 0 && le(s[0], x)
    ensures Insert(x, s, le) == [s[0]] + Insert(x, s[1..], le)
  {
  }

  /** The step of `InsertStable` where `x` goes in front: nothing after it ties with it. */
  lemma InsertAtHead<T(!new)>(x: T, s: seq<T>, y: T, le: (T, T) -> bool)
    requires IsTotalPreorder(le) && SortedBy(s, le) && |s| > 0 && !le(s[0], x)
    ensures TiedWith(Insert(x, s, le), y, le) == TiedWith(s, y, le) + (if Tied(le, x, y) then [x] else [])
  {
    assert Insert(x, s, le) == [x] + s;
    TiedWithCons(x, s, y, le);
    if Tied(le, x, y) {
      AboveAll(x, s, le);
      NoneTied(s, x, y, le);
    }
  }

  /** Inserting the last element of `s` into a stably sorted prefix keeps every key's ties in `s`'s order. */
  lemma InsertKeepsTies<T(!new)>(s: seq<T>, sorted: seq<T>, le: (T, T) -> bool)
    requires IsTotalPreorder(le) && |s| > 0 && SortedBy(sorted, le)
    requires forall y :: TiedWith(sorted, y, le) == TiedWith(s[..|s| - 1], y, le)
    ensures forall y :: TiedWith(Insert(s[|s| - 1], sorted, le), y, le) == TiedWith(s, y, le)
  {
    var x := s[|s| - 1];
    var init := s[..|s| - 1];
    assert s == init + [x];
    forall y
      ensures TiedWith(Insert(x, sorted, le), y, le) == TiedWith(s, y, le)
    {
      InsertStable(x, sorted, y, le);
      TiedWithAppend(init, x, y, le);
    }
  }

  /**
   * `sorted(s, key=...)`: a sorted permutation of `s` that is stable, as
   * Python's sort is: elements with equal keys keep their order in `s`.
   */
  function SortBy<T(!new)>(s: seq<T>, le: (T, T) -> bool): (r: seq<T>)
    requires IsTotalPreorder(le)
    ensures SortedBy(r, le)
    ensures multiset(r) == multiset(s)
    ensures forall y :: TiedWith(r, y, le) == TiedWith(s, y, le)
    ensures |r| == |s|
    decreases |s|
  {
    if |s| == 0 then []
    else
      var prefix := SortBy(s[..|s| - 1], le);
      var r := Insert(s[|s| - 1], prefix, le);
      InsertKeepsTies(s, prefix, le);
      assert s == s[..|s| - 1] + [s[|s| - 1]];
      r
  }

  /** Python's `<=` on strings: lexicographic by code point. */
  predicate StrLe(a: string, b: string)
    decreases |a|
  {
    |a| == 0 || (|b| > 0 && (a[0] < b[0] || (a[0] == b[0] && StrLe(a[1..], b[1..]))))
  }

  lemma {:induction false} StrLeTotal(a: string, b: string)
    ensures StrLe(a, b) || StrLe(b, a)
    decreases |a|
  {
    if |a| > 0 && |b| > 0 && a[0] == b[0] {
      StrLeTotal(a[1..], b[1..]);
    }
  }

  lemma {:induction false} StrLeTrans(a: string, b: string, c: string)
    requires StrLe(a, b) && StrLe(b, c)
    ensures StrLe(a, c)
    decreases |a|
  {
    if |a| > 0 && a[0] == b[0] && b[0] == c[0] {
      StrLeTrans(a[1..], b[1..], c[1..]);
    }
  }

  /** The string order as a value, for `SortBy`. */
  function StringOrder(): (T: (string, string) -> bool) {
    (a: string, b: string) => StrLe(a, b)
  }

  lemma StringOrderIsTotal()
    ensures IsTotalPreorder(StringOrder())
  {
    forall a: string, b: string
      ensures StringOrder()(a, b) || StringOrder()(b, a)
    {
      StrLeTotal(a, b);
    }
    forall a: string, b: string, c: string | StringOrder()(a, b) && StringOrder()(b, c)
      ensures StringOrder()(a, c)
    {
      StrLeTrans(a, b, c);
    }
  }

  /** `sorted` on strings. */
  function SortStrings(s: seq<string>): (r: seq<string>)
    ensures SortedBy(r, StringOrder())
    ensures multiset(r) == multiset(s)
  {
    StringOrderIsTotal();
    SortBy(s, StringOrder())
  }
}

=== FILE: sound_controls.dfy ===
/**
 * The numeric controls of the sound manager's preview and encoding panels:
 * the pitch-shifted mixer frequency, the loop handles on the timeline, the
 * playback cursor, the bitrate pair and the three attenuation distances.
 * Times are in milliseconds and distances in game units, all as reals.
 */
module SoundControls {
  import opened Wrappers
  import opened Text

  const BaseFrequency: int := 44100
  const MinFrequency: int := 8000
  const MaxFrequency: int := 48000

  /** The shortest loop the handles allow. */
  const MinLoop: real := 100.0

  function Clamp(lo: int, hi: int, x: int): int {
    if x < lo then lo else if x > hi then hi else x
  }

  /**
   * The mixer frequency a preview plays at: the base rate, or, when the pitch
   * control is shown and moved off 1.0, the base rate divided by the pitch,
   * truncated and clamped to 8000..48000 Hz. A zero pitch fails the division.
   */
  function PreviewFrequency(showPitch: bool, pitch: real): (f: Option<int>)
    ensures !showPitch || pitch == 1.0 ==> f == Some(BaseFrequency)
    ensures showPitch && pitch == 0.0 <==> f.None?
    ensures f.Some? ==> MinFrequency <= f.value <= MaxFrequency
    ensures showPitch && pitch < 0.0 ==> f == Some(MinFrequency)
    ensures showPitch && pitch > 0.0 && pitch != 1.0 && BaseFrequency as real / pitch >= MaxFrequency as real ==> f == Some(MaxFrequency)
    ensures showPitch && pitch > 0.0 && pitch != 1.0 && BaseFrequency as real / pitch < MinFrequency as real ==> f == Some(MinFrequency)
    ensures showPitch && pitch > 0.0 && pitch != 1.0 && MinFrequency as real <= BaseFrequency as real / pitch < MaxFrequency as real ==>
              f.Some? && f.value as real <= BaseFrequency as real / pitch < f.value as real + 1.0
  {
    if showPitch && pitch != 1.0 then
      if pitch == 0.0 then None
      else Some(Clamp(MinFrequency, MaxFrequency, Trunc(BaseFrequency as real / pitch)))
    else Some(BaseFrequency)
  }

  lemma DivAntitone(n: real, p: real, q: real)
    requires n >= 0.0 && 0.0 < p <= q
    ensures n / q <= n / p
  {
    assert n / p - n / q == n * (q - p) / (p * q);
  }

  /** Raising the pitch never raises the frequency. */
  lemma FrequencyFallsWithPitch(p: real, q: real)
    requires 0.0 < p <= q
    ensures PreviewFrequency(true, q).value <= PreviewFrequency(true, p).value
  {
    DivAntitone(BaseFrequency as real, p, q);
    assert BaseFrequency as real / 1.0 == 44100.0;
  }

  // ---------------------------------------------------------------- loop handles

  /** The loop region is well formed: it starts at or after 0, lasts at least 100 ms and ends within the sound. */
  predicate LoopValid(start: real, end: real, duration: real) {
    0.0 <= start && start + MinLoop <= end <= duration
  }

  function MaxR(a: real, b: real): real { if a >= b then a else b }
  function MinR(a: real, b: real): real { if a <= b then a else b }

  /** Dragging the start handle to `pos`: clamped to 0 and to 100 ms before the end. */
  function DragLoopStart(pos: real, end: real): (start: real)
    ensures start >= 0.0
    ensures end >= MinLoop ==> start <= end - MinLoop
    ensures 0.0 <= pos <= end - MinLoop ==> start == pos
    ensures pos < 0.0 ==> start == 0.0
    ensures end >= MinLoop && pos > end - MinLoop ==> start == end - MinLoop
  {
    MaxR(0.0, MinR(pos, end - MinLoop))
  }

  /** Dragging the end handle to `pos`: clamped to the sound's length and to 100 ms after the start. */
  function DragLoopEnd(pos: real, start: real, duration: real): (end: real)
    ensures end >= start + MinLoop
    ensures start + MinLoop <= duration ==> end <= duration
    ensures start + MinLoop <= pos <= duration ==> end == pos
    ensures start + MinLoop <= duration && pos > duration ==> end == duration
    ensures pos < start + MinLoop ==> end == start + MinLoop
  {
    MaxR(start + MinLoop, MinR(pos, duration))
  }

  /** Either handle, dragged anywhere, keeps a valid loop region valid. */
  lemma DragKeepsLoopValid(start: real, end: real, duration: real, pos: real)
    requires LoopValid(start, end, duration)
    ensures LoopValid(DragLoopStart(pos, end), end, duration)
    ensures LoopValid(start, DragLoopEnd(pos, start, duration), duration)
  {
  }

  // ---------------------------------------------------------------- playback cursor

  /** Python's `x % m` on floats for a positive modulus: the remainder has the modulus's sign. */
  function FloorMod(x: real, m: real): (r: real)
    requires m > 0.0
    ensures 0.0 <= r < m
    ensures (x - r) / m == ((x - r) / m).Floor as real
  {
    var k := (x / m).Floor;
    FloorModBounds(x, m, k);
    x - k as real * m
  }

  /** The remainder left by the floor quotient `k` lies in `[0, m)` and leaves a whole quotient. */
  lemma FloorModBounds(x: real, m: real, k: int)
    requires m > 0.0 && k == (x / m).Floor
    ensures 0.0 <= x - k as real * m < m
    ensures (x - (x - k as real * m)) / m == k as real
  {
    var q := x / m;
    var kr := k as real;
    FloorBounds(q);
    DivMul(x, m);
    Bracket(x, q, m, kr);
    assert x - (x - kr * m) == kr * m;
    DivUnique(kr * m, m, kr);
  }

  /** A quotient between `kr` and `kr + 1` puts the dividend between `kr * m` and `kr * m + m`. */
  lemma Bracket(x: real, q: real, m: real, kr: real)
    requires m > 0.0
    requires q * m == x
    requires kr <= q < kr + 1.0
    ensures kr * m <= x < kr * m + m
  {
    BracketLower(x, q, m, kr);
    BracketUpper(x, q, m, kr);
  }

  lemma BracketLower(x: real, q: real, m: real, kr: real)
    requires m > 0.0
    requires q * m == x
    requires kr <= q
    ensures kr * m <= x
  {
    MulMono(kr, q, m);
    var a := kr * m;
    assert a <= q * m;
    assert a <= x;
  }

  lemma BracketUpper(x: real, q: real, m: real, kr: real)
    requires m > 0.0
    requires q * m == x
    requires q < kr + 1.0
    ensures x < kr * m + m
  {
    MulStrict(q, kr + 1.0, m);
    var b := (kr + 1.0) * m;
    assert b == kr * m + m;
    assert q * m < b;
    assert x < b;
  }

  lemma DivMul(x: real, m: real)
    requires m != 0.0
    ensures x / m * m == x
  {
  }

  lemma MulMono(a: real, b: real, m: real)
    requires a <= b && m > 0.0
    ensures a * m <= b * m
  {
  }

  lemma FloorBounds(r: real)
    ensures r.Floor as real <= r < r.Floor as real + 1.0
  {
  }

  lemma FloorShift(r: real)
    ensures (r + 1.0).Floor == r.Floor + 1
  {
    FloorBounds(r);
    FloorBounds(r + 1.0);
  }

  lemma DivUnique(y: real, m: real, q: real)
    requires m != 0.0 && q * m == y
    ensures y / m == q
  {
  }

  lemma MulStrict(a: real, b: real, m: real)
    requires a < b && m > 0.0
    ensures a * m < b * m
  {
  }

  /**
   * The cursor `elapsed` ms after playback began: from 0 and capped at the
   * sound's length without a loop; from the loop start and wrapped into
   * the loop region with one.
   */
  function PlaybackPosition(loop: bool, start: real, end: real, elapsed: real, duration: real): (pos: real)
    ensures !loop ==> pos == MinR(elapsed, duration)
    ensures loop && end > start ==> start <= pos < end
    ensures loop && end <= start ==> pos == start + elapsed
  {
    var p := (if loop then start else 0.0) + elapsed;
    if !loop then MinR(p, duration)
    else if end - start > 0.0 then start + FloorMod(p - start, end - start)
    else p
  }

  /** Within the first pass through the loop the cursor simply advances. */
  lemma PlaybackFirstPass(start: real, end: real, elapsed: real, duration: real)
    requires 0.0 <= elapsed < end - start
    ensures PlaybackPosition(true, start, end, elapsed, duration) == start + elapsed
  {
    var m := end - start;
    assert start + elapsed - start == elapsed;
    FloorModBelow(elapsed, m);
  }

  /** A value already inside `[0, m)` is its own remainder. */
  lemma FloorModBelow(x: real, m: real)
    requires 0.0 <= x < m
    ensures FloorMod(x, m) == x
  {
    QuotientInUnit(x, m);
    FloorBounds(x / m);
    assert (x / m).Floor == 0;
    assert x - 0 as real * m == x;
  }

  lemma QuotientInUnit(x: real, m: real)
    requires 0.0 <= x < m
    ensures 0.0 <= x / m < 1.0
  {
    DivMul(x, m);
    var q := x / m;
    assert q * m < 1.0 * m;
  }

  /** Once the loop has played through, the cursor is back where it was one loop earlier. */
  lemma PlaybackPeriodic(start: real, end: real, elapsed: real, duration: real)
    requires end > start
    ensures PlaybackPosition(true, start, end, elapsed + (end - start), duration)
            == PlaybackPosition(true, start, end, elapsed, duration)
  {
    var m := end - start;
    assert start + (elapsed + m) - start == elapsed + m;
    assert start + elapsed - start == elapsed;
    FloorModShift(elapsed, m);
  }

  /** Adding the modulus leaves the remainder unchanged. */
  lemma FloorModShift(x: real, m: real)
    requires m > 0.0
    ensures FloorMod(x + m, m) == FloorMod(x, m)
  {
    var a := x / m;
    DivMul(x, m);
    SuccTimes(a, m);
    DivUnique(x + m, m, a + 1.0);
    FloorShift(a);
    var k := a.Floor;
    SuccTimes(k as real, m);
    assert (k + 1) as real == k as real + 1.0;
  }

  /** `(a + 1) * m == a * m + m` */
  lemma SuccTimes(a: real, m: real)
    ensures (a + 1.0) * m == a * m + m
  {
  }

  // ---------------------------------------------------------------- encoding settings

  /** After either bitrate slider moves, a minimum above the maximum drags the maximum up to it. */
  function EnforceBitrateOrder(minRate: int, maxRate: int): (r: (int, int))
    ensures r.0 == minRate && r.0 <= r.1
    ensures minRate <= maxRate ==> r.1 == maxRate
    ensures minRate > maxRate ==> r.1 == minRate
  {
    if minRate > maxRate then (minRate, minRate) else (minRate, maxRate)
  }

  /** The attenuation distances of a sound event. */
  datatype Distances = Distances(near: real, mid: real, far: real)

  predicate Ordered(d: Distances) {
    0.0 <= d.near <= d.mid <= d.far
  }

  /** Typing a near distance: not below 0 and not beyond the mid distance. */
  function TypeNear(d: Distances, v: real): (r: Distances)
    ensures r.mid == d.mid && r.far == d.far
    ensures d.mid >= 0.0 ==> 0.0 <= r.near <= d.mid
    ensures 0.0 <= v <= d.mid ==> r.near == v
  {
    d.(near := MaxR(0.0, MinR(v, d.mid)))
  }

  /** Typing a mid distance: between the near and far distances. */
  function TypeMid(d: Distances, v: real): (r: Distances)
    ensures r.near == d.near && r.far == d.far
    ensures d.near <= d.far ==> d.near <= r.mid <= d.far
    ensures d.near <= v <= d.far ==> r.mid == v
  {
    d.(mid := MaxR(d.near, MinR(v, d.far)))
  }

  /** Typing a far distance: not below the mid distance. */
  function TypeFar(d: Distances, v: real): (r: Distances)
    ensures r.near == d.near && r.mid == d.mid
    ensures r.far >= d.mid
    ensures v >= d.mid ==> r.far == v
  {
    d.(far := MaxR(d.mid, v))
  }

  /** Any typed value keeps the three distances in order. */
  lemma TypingKeepsOrder(d: Distances, v: real)
    requires Ordered(d)
    ensures Ordered(TypeNear(d, v)) && Ordered(TypeMid(d, v)) && Ordered(TypeFar(d, v))
  {
  }
}

=== FILE: sound_list.dfy ===
/**
 * The sound browser of the sound manager: the list of game sounds read from
 * the VPK archive and the path a selected sound is previewed from, the
 * search filters, the preview cache's retention rule, and the insertion of a
 * new event into `soundevents_addon.vsndevts`.
 */
module SoundList {
  import opened Wrappers
  import opened Text
  import Paths
  import opened Sorting

  // ---------------------------------------------------------------- replacing

  /** `s.replace(pat, rep)`: occurrences are replaced left to right without overlapping. */
  function ReplaceAll(s: string, pat: string, rep: string): string
    requires |pat| > 0
    decreases |s|
  {
    if |s| < |pat| then s
    else if StartsWith(s, pat) then rep + ReplaceAll(s[|pat|..], pat, rep)
    else [s[0]] + ReplaceAll(s[1..], pat, rep)
  }

  /** `s.replace(a, b)` for single characters. */
  function ReplaceChar(s: string, a: char, b: char): (r: string)
    ensures |r| == |s|
    ensures forall i :: 0 <= i < |s| ==> r[i] == (if s[i] == a then b else s[i])
  {
    seq(|s|, i requires 0 <= i < |s| => if s[i] == a then b else s[i])
  }

  lemma OccursInTail(q: string, pat: string, i: int)
    requires |q| > 0
    ensures OccursAt(q[1..], pat, i) ==> OccursAt(q, pat, i + 1)
  {
    if OccursAt(q[1..], pat, i) {
      assert q[i + 1..i + 1 + |pat|] == q[1..][i..i + |pat|];
    }
  }

  lemma NoOccurrenceInTail(q: string, pat: string)
    requires |q| > 0 && !Contains(q, pat)
    ensures !Contains(q[1..], pat)
  {
    forall i ensures OccursAt(q[1..], pat, i) ==> OccursAt(q, pat, i + 1) {
      OccursInTail(q, pat, i);
    }
  }

  /** `q + pat` does not start with `pat` when `q` is nonempty, free of `pat`, and `pat`'s first character does not recur in it. */
  lemma FinalNotAtStart(q: string, pat: string)
    requires |q| > 0 && |pat| > 0 && !Contains(q, pat)
    requires forall k :: 1 <= k < |pat| ==> pat[k] != pat[0]
    ensures !StartsWith(q + pat, pat)
  {
    var s := q + pat;
    if |q| >= |pat| {
      assert s[..|pat|] == q[..|pat|];
      assert !OccursAt(q, pat, 0);
    } else {
      assert s[|q|] == pat[0];
      assert pat[|q|] != pat[0];
    }
  }

  /**
   * Replacing `pat` in `q + pat`, where `q` does not contain `pat` and `pat`'s
   * first character does not recur in it, replaces just the final copy.
   */
  lemma {:induction false} ReplaceFinal(q: string, pat: string, rep: string)
    requires |pat| > 0 && !Contains(q, pat)
    requires forall k :: 1 <= k < |pat| ==> pat[k] != pat[0]
    ensures ReplaceAll(q + pat, pat, rep) == q + rep
    decreases |q|
  {
    var s := q + pat;
    if |q| == 0 {
      assert s == pat;
      assert s[|pat|..] == "";
    } else {
      FinalNotAtStart(q, pat);
      NoOccurrenceInTail(q, pat);
      ReplaceStep(s, pat, rep);
      assert s[1..] == q[1..] + pat;
      ReplaceFinal(q[1..], pat, rep);
      assert s[0] == q[0];
      assert [q[0]] + (q[1..] + rep) == q + rep;
    }
  }

  /** Where `pat` does not start, the first character is kept as it is. */
  lemma ReplaceStep(s: string, pat: string, rep: string)
    requires 0 < |pat| <= |s| && !StartsWith(s, pat)
    ensures ReplaceAll(s, pat, rep) == [s[0]] + ReplaceAll(s[1..], pat, rep)
  {
  }

  // ---------------------------------------------------------------- the sound list

  const CompiledExt: string := ".vsnd_c"
  const SoundsDir: string := "sounds/"

  /**
   * As written, `load_internal_sounds` lists every `.vsnd_c` entry whose path
   * contains `sounds` anywhere, with every `.vsnd_c` removed and a leading
   * `sounds/` (in any case) cut off.
   */
  function ListedNameAsWritten(entry: string): Option<string> {
    if EndsWith(entry, CompiledExt) && Contains(Lower(entry), "sounds") then
      var name := ReplaceAll(entry, CompiledExt, "");
      Some(if StartsWith(Lower(name), SoundsDir) then name[7..] else name)
    else None
  }

  /** The listing restricted to the top-level `sounds/` folder, the only place the preview looks. */
  function ListedName(entry: string): (r: Option<string>)
    ensures r.Some? ==> EndsWith(entry, CompiledExt) && StartsWith(Lower(entry), SoundsDir)
  {
    if EndsWith(entry, CompiledExt) && StartsWith(Lower(entry), SoundsDir) then
      var name := ReplaceAll(entry, CompiledExt, "");
      Some(if StartsWith(Lower(name), SoundsDir) then name[7..] else name)
    else None
  }

  /** The VPK path `preview_internal_sound` extracts for a listed name. */
  function PreviewPath(name: string): (p: string)
    ensures EndsWith(p, CompiledExt) && StartsWith(p, SoundsDir)
  {
    var p := ReplaceChar(SoundsDir + name + CompiledExt, '\\', '/');
    assert p[..7] == SoundsDir;
    assert p[|p| - 7..] == CompiledExt;
    p
  }

  lemma CompiledExtDotIsFirst()
    ensures forall k :: 1 <= k < |CompiledExt| ==> CompiledExt[k] != CompiledExt[0]
  {
  }

  lemma ShiftPastSoundsDir(p: string, i: int)
    ensures OccursAt(SoundsDir + p, CompiledExt, i) ==> OccursAt(p, CompiledExt, i - 7)
  {
    var s := SoundsDir + p;
    if OccursAt(s, CompiledExt, i) {
      assert s[i] == '.';
      assert s[i..i + 7] == p[i - 7..i - 7 + 7];
    }
  }

  lemma SoundsDirPrefixed(p: string)
    requires !Contains(p, CompiledExt)
    ensures !Contains(SoundsDir + p, CompiledExt)
  {
    forall i ensures OccursAt(SoundsDir + p, CompiledExt, i) ==> OccursAt(p, CompiledExt, i - 7) {
      ShiftPastSoundsDir(p, i);
    }
  }

  /** A compiled sound under `sounds/` loses exactly its extension and the folder. */
  lemma ListedNameOf(p: string)
    requires !Contains(p, CompiledExt)
    ensures ReplaceAll(SoundsDir + p + CompiledExt, CompiledExt, "") == SoundsDir + p
    ensures StartsWith(Lower(SoundsDir + p + CompiledExt), SoundsDir)
    ensures StartsWith(Lower(SoundsDir + p), SoundsDir)
    ensures EndsWith(SoundsDir + p + CompiledExt, CompiledExt)
  {
    ExtRemoved(SoundsDir, p);
    SoundsDirIsLower();
    Assoc(SoundsDir, p, CompiledExt);
    LowerKeepsPrefix(SoundsDir, p + CompiledExt);
    LowerKeepsPrefix(SoundsDir, p);
    EndsWithAppended(SoundsDir + p, CompiledExt);
  }

  /** Removing `.vsnd_c` from `sounds/<p>.vsnd_c` removes only the final extension. */
  lemma ExtRemoved(d: string, p: string)
    requires d == SoundsDir && !Contains(p, CompiledExt)
    ensures ReplaceAll(d + p + CompiledExt, CompiledExt, "") == d + p
  {
    SoundsDirPrefixed(p);
    CompiledExtDotIsFirst();
    ReplaceFinal(d + p, CompiledExt, "");
    assert d + p + "" == d + p;
  }

  /**
   * A sound stored at `sounds/<p>.vsnd_c` is listed as `<p>`, by the listing
   * as written and by the one restricted to the folder, when `<p>` holds no
   * other `.vsnd_c`.
   */
  lemma ListedRoundTrip(p: string)
    requires !Contains(p, CompiledExt)
    ensures ListedName(SoundsDir + p + CompiledExt) == Some(p)
    ensures ListedNameAsWritten(SoundsDir + p + CompiledExt) == Some(p)
  {
    var e := SoundsDir + p + CompiledExt;
    ListedNameOf(p);
    assert OccursAt(Lower(e), "sounds", 0) by {
      assert Lower(e)[..6] == Lower(e)[..7][..6];
    }
    assert (SoundsDir + p)[7..] == p;
  }

  /**
   * Previewing the name `<p>` listed for `sounds/<p>.vsnd_c` extracts that
   * same entry when `<p>` holds no other `.vsnd_c` and no backslash.
   */
  lemma PreviewRoundTrip(p: string)
    requires !Contains(p, CompiledExt) && '\\' !in p
    ensures ListedName(SoundsDir + p + CompiledExt) == Some(p)
    ensures PreviewPath(p) == SoundsDir + p + CompiledExt
  {
    ListedRoundTrip(p);
    var e := SoundsDir + p + CompiledExt;
    NoBackslashInConstants();
    NotInConcat('\\', SoundsDir, p, CompiledExt);
    ReplaceAbsentChar(e, '\\', '/');
  }

  lemma SoundsDirFacts()
    ensures '.' !in SoundsDir && SoundsDir == "sounds" + "/"
  {
  }

  lemma Regroup(a: string, x: string, y: string, p: string, z: string)
    ensures a + (x + y) + p + z == a + x + (y + p + z)
  {
  }

  lemma NoBackslashInConstants()
    ensures '\\' !in SoundsDir && '\\' !in CompiledExt
  {
  }

  lemma NotInConcat(c: char, x: string, y: string, z: string)
    requires c !in x && c !in y && c !in z
    ensures c !in x + y + z
  {
  }

  lemma ReplaceAbsentChar(s: string, a: char, b: char)
    requires a !in s
    ensures ReplaceChar(s, a, b) == s
  {
  }

  lemma NotUnderSounds(s: string)
    requires |s| > 0 && LowerChar(s[0]) != 's'
    ensures !StartsWith(Lower(s), SoundsDir)
  {
    assert Lower(s)[0] != SoundsDir[0];
  }

  lemma OccurrenceStart(q: string, pat: string, i: int)
    requires |pat| > 0
    ensures OccursAt(q, pat, i) ==> q[i] == pat[0]
  {
    if OccursAt(q, pat, i) {
      assert q[i..i + |pat|][0] == pat[0];
    }
  }

  lemma NoDotNoExt(q: string)
    requires '.' !in q
    ensures !Contains(q, CompiledExt)
  {
    forall i ensures OccursAt(q, CompiledExt, i) ==> q[i] == '.' {
      OccurrenceStart(q, CompiledExt, i);
    }
  }

  /**
   * As written, an entry kept in a `sounds` folder below some other folder
   * `a` (say `maps/sounds/a.vsnd_c`) is listed with its full path, and its
   * preview looks for it under the top-level `sounds/`, where it is not. The
   * listing restricted to the folder leaves it out.
   */
  lemma ListedOutsideSoundsFolder(a: string, p: string)
    requires |a| > 0 && LowerChar(a[0]) != 's'
    requires '.' !in a && '.' !in p
    ensures var e := a + SoundsDir + p + CompiledExt;
            ListedNameAsWritten(e) == Some(a + SoundsDir + p)
            && PreviewPath(a + SoundsDir + p) != e
            && ListedName(e) == None
  {
    var q := a + SoundsDir + p;
    var e := q + CompiledExt;
    NestedListedAsWritten(a, p, q);
    assert e[0] == a[0];
    NotUnderSounds(e);
    PreviewMissesNested(a, q, e);
  }

  /** The preview path starts with `s`, which the nested entry does not. */
  lemma PreviewMissesNested(a: string, q: string, e: string)
    requires |a| > 0 && LowerChar(a[0]) != 's' && |e| > 0 && e[0] == a[0]
    ensures PreviewPath(q) != e
  {
    assert PreviewPath(q)[0] == SoundsDir[0];
  }

  lemma NestedListedAsWritten(a: string, p: string, q: string)
    requires |a| > 0 && LowerChar(a[0]) != 's'
    requires '.' !in a && '.' !in p && q == a + SoundsDir + p
    ensures ListedNameAsWritten(q + CompiledExt) == Some(q)
  {
    var e := q + CompiledExt;
    SoundsDirFacts();
    NotInConcat('.', a, SoundsDir, p);
    NoDotNoExt(q);
    CompiledExtDotIsFirst();
    ReplaceFinal(q, CompiledExt, "");
    assert q + "" == q;
    SoundsInside(a, "/" + p + CompiledExt);
    Regroup(a, "sounds", "/", p, CompiledExt);
    EndsWithAppended(q, CompiledExt);
    NotUnderSounds(q);
  }

  lemma LowerOfLowercase(s: string)
    requires forall i :: 0 <= i < |s| ==> !IsUpperChar(s[i])
    ensures Lower(s) == s
  {
  }

  lemma SoundsDirIsLower()
    ensures Lower(SoundsDir) == SoundsDir
  {
    LowerOfLowercase(SoundsDir);
  }

  lemma OccursBetween(a: string, b: string, c: string)
    ensures OccursAt(a + b + c, b, |a|)
  {
    assert (a + b + c)[|a|..|a| + |b|] == b;
  }

  /** A path with a `sounds` component inside it mentions `sounds` whatever its case. */
  lemma SoundsInside(a: string, c: string)
    ensures OccursAt(Lower(a + "sounds" + c), "sounds", |a|)
  {
    LowerAppend(a + "sounds", c);
    LowerAppend(a, "sounds");
    LowerOfLowercase("sounds");
    OccursBetween(Lower(a), "sounds", Lower(c));
  }

  /**
   * `load_internal_sounds`: the listed names sorted, each as often as
   * entries list it (two entries differing only in the case of their
   * `sounds/` folder give the same name twice).
   */
  function InternalSounds(entries: seq<string>): (sounds: seq<string>)
    ensures SortedBy(sounds, StringOrder())
    ensures forall n :: multiset(sounds)[n] == CountListed(entries, n)
    ensures forall n :: n in sounds <==> exists i :: 0 <= i < |entries| && ListedNameAsWritten(entries[i]) == Some(n)
  {
    var names := Listed(entries);
    var sounds := SortStrings(names);
    assert forall n :: n in sounds <==> n in multiset(sounds);
    sounds
  }

  /** How many of the entries are listed under the name `n`. */
  function CountListed(entries: seq<string>, n: string): nat
    decreases |entries|
  {
    if |entries| == 0 then 0
    else (if ListedNameAsWritten(entries[0]) == Some(n) then 1 else 0) + CountListed(entries[1..], n)
  }

  /** The listed names in archive order. */
  function Listed(entries: seq<string>): (names: seq<string>)
    ensures forall n :: multiset(names)[n] == CountListed(entries, n)
    ensures forall n :: n in names <==> exists i :: 0 <= i < |entries| && ListedNameAsWritten(entries[i]) == Some(n)
    decreases |entries|
  {
    if |entries| == 0 then []
    else
      var rest := Listed(entries[1..]);
      assert forall i :: 1 <= i < |entries| ==> entries[i] == entries[1..][i - 1];
      match ListedNameAsWritten(entries[0])
      case Some(n) => [n] + rest
      case None => rest
  }

  // ---------------------------------------------------------------- filters

  /** `search in item`, ignoring case. */
  predicate Matches(item: string, search: string) {
    Contains(Lower(item), Lower(search))
  }

  /**
   * `filter_internal_sounds` and the addon search: everything for an empty
   * search, otherwise the items containing it regardless of case, in order.
   */
  function Filter(items: seq<string>, search: string): (r: seq<string>)
    ensures search == "" ==> r == items
    ensures search != "" ==> forall x :: x in r <==> x in items && Matches(x, search)
    ensures search != "" ==> forall x :: multiset(r)[x] == if Matches(x, search) then multiset(items)[x] else 0
    ensures |r| <= |items|
    decreases |items|
  {
    if search == "" then items
    else if |items| == 0 then []
    else
      var rest := Filter(items[1..], search);
      assert items == [items[0]] + items[1..];
      if Matches(items[0], search) then [items[0]] + rest else rest
  }

  /** The filtered items keep their relative order: each is a subsequence of the list. */
  predicate IsSubsequence(a: seq<string>, b: seq<string>)
    decreases |b|
  {
    |a| == 0 || (|b| > 0 && (if a[0] == b[0] then IsSubsequence(a[1..], b[1..]) else IsSubsequence(a, b[1..])))
  }

  lemma {:induction false} SubsequenceRefl(a: seq<string>)
    ensures IsSubsequence(a, a)
    decreases |a|
  {
    if |a| > 0 {
      SubsequenceRefl(a[1..]);
    }
  }

  lemma {:induction false} FilterKeepsOrder(items: seq<string>, search: string)
    ensures IsSubsequence(Filter(items, search), items)
    decreases |items|
  {
    if search == "" {
      SubsequenceRefl(items);
    } else if |items| > 0 {
      FilterKeepsOrder(items[1..], search);
    }
  }

  /** The addon search box: the matching addons, the dropdown shown when there are any, and no selection. */
  datatype AddonSearch = AddonSearch(filtered: seq<string>, showDropdown: bool, selected: int)

  function UpdateAddonFilter(addons: seq<string>, search: string): (s: AddonSearch)
    ensures s.filtered == Filter(addons, search)
    ensures s.showDropdown <==> exists x :: x in addons && (search == "" || Matches(x, search))
    ensures s.selected == -1
  {
    var f := Filter(addons, search);
    assert |f| > 0 ==> f[0] in f;
    AddonSearch(f, |f| > 0, -1)
  }

  // ---------------------------------------------------------------- the preview cache

  datatype CacheFile = CacheFile(path: string, mtime: real)

  function ByMtime(): (le: (CacheFile, CacheFile) -> bool)
    ensures IsTotalPreorder(le)
  {
    (a: CacheFile, b: CacheFile) => a.mtime <= b.mtime
  }

  /**
   * `cleanup_preview_cache`: the files deleted. One fewer than `maxFiles` is
   * kept when making room for a new file; if there are more than that, the
   * surplus is deleted, oldest first.
   */
  function CleanupCache(files: seq<CacheFile>, maxFiles: int, makeRoom: bool): (deleted: seq<CacheFile>)
  {
    var target := if makeRoom then maxFiles - 1 else maxFiles;
    if |files| > target then
      var sorted := SortBy(files, ByMtime());
      var n := if target >= 0 then |files| - target else |files|;
      sorted[..n]
    else []
  }

  /** The files kept by `CleanupCache`. */
  function Kept(files: seq<CacheFile>, maxFiles: int, makeRoom: bool): seq<CacheFile> {
    var target := if makeRoom then maxFiles - 1 else maxFiles;
    if |files| > target then
      var n := if target >= 0 then |files| - target else |files|;
      SortBy(files, ByMtime())[n..]
    else files
  }

  /**
   * Cleanup splits the cache into deleted and kept files, keeps exactly the
   * target number when over it, and deletes no file newer than one it keeps.
   */
  lemma CleanupKeepsNewest(files: seq<CacheFile>, maxFiles: int, makeRoom: bool)
    ensures var target := if makeRoom then maxFiles - 1 else maxFiles;
            var deleted := CleanupCache(files, maxFiles, makeRoom);
            var kept := Kept(files, maxFiles, makeRoom);
            multiset(deleted) + multiset(kept) == multiset(files)
            && (|files| <= target ==> deleted == [])
            && (|files| > target ==> |kept| == (if target >= 0 then target else 0))
            && (forall d, k :: d in deleted && k in kept ==> d.mtime <= k.mtime)
  {
    var target := if makeRoom then maxFiles - 1 else maxFiles;
    if |files| > target {
      var sorted := SortBy(files, ByMtime());
      var n := if target >= 0 then |files| - target else |files|;
      assert CleanupCache(files, maxFiles, makeRoom) == sorted[..n];
      assert Kept(files, maxFiles, makeRoom) == sorted[n..];
      SplitPermutes(files, sorted, n);
      SplitOrdered(sorted, n);
    }
  }

  /** The two parts of a permutation make up the original list. */
  lemma SplitPermutes(files: seq<CacheFile>, sorted: seq<CacheFile>, n: nat)
    requires n <= |sorted| && multiset(sorted) == multiset(files)
    ensures multiset(sorted[..n]) + multiset(sorted[n..]) == multiset(files)
  {
    assert sorted == sorted[..n] + sorted[n..];
  }

  /** Cutting a list sorted by age leaves every file of the front no newer than any file of the back. */
  lemma SplitOrdered(sorted: seq<CacheFile>, n: nat)
    requires n <= |sorted| && SortedBy(sorted, ByMtime())
    ensures forall d, k :: d in sorted[..n] && k in sorted[n..] ==> d.mtime <= k.mtime
  {
    forall d, k | d in sorted[..n] && k in sorted[n..]
      ensures d.mtime <= k.mtime
    {
      var i :| 0 <= i < n && sorted[i] == d;
      var j :| n <= j < |sorted| && sorted[j] == k;
      assert ByMtime()(sorted[i], sorted[j]);
    }
  }

  // ---------------------------------------------------------------- soundevents

  /** The header of a new `soundevents_addon.vsndevts`. */
  const KvHeader: string :=
    "<!-- kv3 encoding:text:version{e21c7f3c-8a33-41c5-9977-a76d3a32aa0d} format:generic:version{7412167c-06e9-4698-aff2-e63eb59037e7} -->\n{\n"

  /** The event is named after the output name, or the sound's name when none is given. */
  function EventName(outputName: string, soundName: string): string {
    if outputName != "" then outputName else soundName
  }

  /** A copied sound file is referenced as `sounds/<stem>.vsnd`. */
  function VsndReference(soundFile: string): (r: string)
    ensures StartsWith(r, SoundsDir) && EndsWith(r, ".vsnd")
    ensures |r| >= |SoundsDir| + 5 && r[|SoundsDir|..|r| - 5] == Paths.SplitExt(soundFile).0
  {
    var r := SoundsDir + Paths.SplitExt(soundFile).0 + ".vsnd";
    assert r[..7] == SoundsDir;
    assert r[|r| - 5..] == ".vsnd";
    r
  }

  /** A plain `<name>.wav` becomes `sounds/<name>.vsnd`. */
  lemma VsndReferenceOfWav(name: string)
    requires name != "" && '.' !in name && Paths.Sep !in name
    ensures VsndReference(name + ".wav") == "sounds/" + name + ".vsnd"
  {
    var p := name + ".wav";
    var r := Paths.SplitExt(p);
    assert p[|name|] == '.';
    assert r.1 != "" by {
      assert Paths.Sep !in p[0..] && p[0] != '.';
    }
    assert forall k :: 0 <= k < |p| && k != |name| ==> p[k] != '.' by {
      forall k | 0 <= k < |p| && k != |name|
        ensures p[k] != '.'
      {
        if k < |name| {
          assert p[k] == name[k];
        }
      }
    }
    assert p[|r.0|] == (r.0 + r.1)[|r.0|] == r.1[0] == '.';
    assert r.0 == p[..|r.0|] == name;
  }

  /**
   * `update_soundevents_file`. An existing file first loses any earlier block
   * for the event (`removeBlock`, the regular expression substitution), then
   * gets the entry right before its last `}`, or the entry and a closing
   * `}` appended when it has none. A missing file is created with the kv3
   * header, the entry and a closing brace.
   */
  function UpdateSoundevents(existing: Option<string>, entry: string, removeBlock: string -> string): (r: string)
    ensures existing.None? ==> r == KvHeader + entry + "}\n"
    ensures existing.Some? && '}' in removeBlock(existing.value) ==>
              exists pre, post :: r == pre + entry + post && pre + post == removeBlock(existing.value)
                && |post| > 0 && post[0] == '}' && '}' !in post[1..]
    ensures existing.Some? && '}' !in removeBlock(existing.value) ==> r == removeBlock(existing.value) + entry + "\n}"
  {
    if existing.None? then KvHeader + entry + "}\n"
    else
      var content := removeBlock(existing.value);
      var i := RFind(content, '}');
      if i != -1 then
        var pre, post := content[..i], content[i..];
        assert pre + post == content;
        assert '}' !in post[1..] by {
          forall k | 0 <= k < |post[1..]|
            ensures post[1..][k] != '}'
          {
            assert post[1..][k] == content[i + 1 + k];
          }
        }
        pre + entry + post
      else
        assert '}' !in content by {
          forall k | 0 <= k < |content|
            ensures content[k] != '}'
          {
          }
        }
        content + entry + "\n}"
  }
}

=== FILE: text.dfy ===
/**
 * String helpers with Python's `str` semantics, restricted to ASCII where
 * Python consults the Unicode database (case mapping, `isdigit`, `isspace`).
 */
module Text {

  // ---------------------------------------------------------------- characters

  predicate IsUpperChar(c: char) { 'A' <= c <= 'Z' }

  predicate IsLowerChar(c: char) { 'a' <= c <= 'z' }

  predicate IsDigitChar(c: char) { '0' <= c <= '9' }

  predicate IsAlnumChar(c: char) { IsUpperChar(c) || IsLowerChar(c) || IsDigitChar(c) }

  /** The characters Python's `str.strip()` removes, ASCII part. */
  predicate IsSpaceChar(c: char) {
    c == ' ' || c == '\t' || c == '\n' || c == '\r' || c == '\U{B}' || c == '\U{C}'
    || c == '\U{1C}' || c == '\U{1D}' || c == '\U{1E}' || c == '\U{1F}'
  }

  function LowerChar(c: char): (r: char)
    ensures IsUpperChar(c) ==> IsLowerChar(r)
    ensures !IsUpperChar(c) ==> r == c
  {
    if IsUpperChar(c) then (c as int + 32) as char else c
  }

  function UpperChar(c: char): (r: char)
    ensures IsLowerChar(c) ==> IsUpperChar(r)
    ensures !IsLowerChar(c) ==> r == c
  {
    if IsLowerChar(c) then (c as int - 32) as char else c
  }

  /** `s.lower()` */
  function Lower(s: string): (r: string)
    ensures |r| == |s|
    ensures forall i :: 0 <= i < |s| ==> r[i] == LowerChar(s[i])
  {
    seq(|s|, i requires 0 <= i < |s| => LowerChar(s[i]))
  }

  /** `s.upper()` */
  function Upper(s: string): (r: string)
    ensures |r| == |s|
    ensures forall i :: 0 <= i < |s| ==> r[i] == UpperChar(s[i])
  {
    seq(|s|, i requires 0 <= i < |s| => UpperChar(s[i]))
  }

  lemma LowerAppend(a: string, b: string)
    ensures Lower(a + b) == Lower(a) + Lower(b)
  {
  }

  /** Lower-casing keeps a prefix that is already lower case. */
  lemma LowerKeepsPrefix(d: string, rest: string)
    requires Lower(d) == d
    ensures StartsWith(Lower(d + rest), d)
  {
    LowerAppend(d, rest);
    assert Lower(d + rest)[..|d|] == Lower(d);
  }

  /** `s.isdigit()`: nonempty and every character a digit. */
  predicate IsDigits(s: string) {
    |s| > 0 && forall i :: 0 <= i < |s| ==> IsDigitChar(s[i])
  }

  /** `s.islower()`: at least one cased character and none upper case. */
  predicate IsLowerStr(s: string) {
    (exists i :: 0 <= i < |s| && IsLowerChar(s[i])) && forall i :: 0 <= i < |s| ==> !IsUpperChar(s[i])
  }

  // ---------------------------------------------------------------- searching

  predicate StartsWith(s: string, p: string) {
    |p| <= |s| && s[..|p|] == p
  }

  /** A prefix of a prefix is a prefix. */
  lemma StartsWithTrans(s: string, t: string, u: string)
    requires StartsWith(s, t) && StartsWith(t, u)
    ensures StartsWith(s, u)
  {
    assert s[..|u|] == s[..|t|][..|u|];
  }

  predicate EndsWith(s: string, p: string) {
    |p| <= |s| && s[|s| - |p|..] == p
  }

  lemma Assoc(a: string, b: string, c: string)
    ensures a + b + c == a + (b + c)
  {
  }

  lemma EndsWithAppended(q: string, x: string)
    ensures EndsWith(q + x, x)
  {
    assert (q + x)[|q + x| - |x|..] == x;
  }

  /** `p` occurs in `s` starting at index `i`. */
  predicate OccursAt(s: string, p: string, i: int) {
    0 <= i && i + |p| <= |s| && s[i..i + |p|] == p
  }

  /** `p in s` */
  function Contains(s: string, p: string): (b: bool)
    ensures b <==> exists i :: OccursAt(s, p, i)
    decreases |s|
  {
    if StartsWith(s, p) then
      assert OccursAt(s, p, 0);
      true
    else if |s| == 0 then
      assert forall i :: OccursAt(s, p, i) ==> i == 0 && |p| == 0;
      false
    else
      var b := Contains(s[1..], p);
      assert b ==> exists i :: OccursAt(s, p, i) by {
        if b {
          var i :| OccursAt(s[1..], p, i);
          assert s[i + 1..i + 1 + |p|] == s[1..][i..i + |p|];
          assert OccursAt(s, p, i + 1);
        }
      }
      assert (exists i :: OccursAt(s, p, i)) ==> b by {
        if exists i :: OccursAt(s, p, i) {
          var i :| OccursAt(s, p, i);
          assert i != 0;
          assert s[1..][i - 1..i - 1 + |p|] == s[i..i + |p|];
          assert OccursAt(s[1..], p, i - 1);
        }
      }
      b
  }

  /** `s.rfind(c)`: the last index holding `c`, or -1. */
  function RFind(s: string, c: char): (r: int)
    ensures -1 <= r < |s|
    ensures r >= 0 ==> s[r] == c
    ensures forall j :: r < j < |s| ==> s[j] != c
  {
    if |s| == 0 then -1
    else if s[|s| - 1] == c then |s| - 1
    else RFind(s[..|s| - 1], c)
  }

  // ---------------------------------------------------------------- stripping

  function LStrip(s: string): (r: string)
    ensures |r| <= |s| && r == s[|s| - |r|..]
    ensures |r| > 0 ==> !IsSpaceChar(r[0])
    ensures forall i :: 0 <= i < |s| - |r| ==> IsSpaceChar(s[i])
  {
    if |s| > 0 && IsSpaceChar(s[0]) then LStrip(s[1..]) else s
  }

  function RStrip(s: string): (r: string)
    ensures |r| <= |s| && r == s[..|r|]
    ensures |r| > 0 ==> !IsSpaceChar(r[|r| - 1])
    ensures forall i :: |r| <= i < |s| ==> IsSpaceChar(s[i])
  {
    if |s| > 0 && IsSpaceChar(s[|s| - 1]) then RStrip(s[..|s| - 1]) else s
  }

  /** `s.strip()` */
  function Strip(s: string): string {
    RStrip(LStrip(s))
  }

  /** A string that `strip()` leaves unchanged. */
  predicate IsStripped(s: string) {
    |s| == 0 || (!IsSpaceChar(s[0]) && !IsSpaceChar(s[|s| - 1]))
  }

  /** `not s.strip()`: the string is empty or all whitespace. */
  predicate IsBlank(s: string) {
    forall i :: 0 <= i < |s| ==> IsSpaceChar(s[i])
  }

  lemma StripProperties(s: string)
    ensures IsStripped(Strip(s))
    ensures IsStripped(s) ==> Strip(s) == s
    ensures Strip(s) == [] <==> IsBlank(s)
  {
    var l := LStrip(s);
    if IsStripped(s) && |s| > 0 {
      assert l == s;
    }
    if Strip(s) == [] {
      assert |l| == 0;
    }
    if |l| > 0 {
      assert l[0] == s[|s| - |l|];
    }
  }

  // ---------------------------------------------------------------- split / join

  /** `s.split(sep)` for a one-character separator. */
  function Split(s: string, sep: char): (parts: seq<string>)
    ensures |parts| >= 1
    ensures forall k :: 0 <= k < |parts| ==> sep !in parts[k]
    decreases |s|
  {
    if |s| == 0 then [""]
    else
      var rest := Split(s[1..], sep);
      if s[0] == sep then [""] + rest
      else [[s[0]] + rest[0]] + rest[1..]
  }

  /** `sep.join(parts)` */
  function Join(parts: seq<string>, sep: char): string
    decreases |parts|
  {
    if |parts| == 0 then ""
    else if |parts| == 1 then parts[0]
    else parts[0] + [sep] + Join(parts[1..], sep)
  }

  /** A first character that is not the separator joins the first part. */
  lemma SplitCons(c: char, s: string, sep: char)
    requires c != sep
    ensures Split([c] + s, sep) == [[c] + Split(s, sep)[0]] + Split(s, sep)[1..]
  {
    assert ([c] + s)[1..] == s;
  }

  lemma {:induction false} SplitPrefixFree(a: string, rest: string, sep: char)
    requires sep !in a
    ensures Split(a + rest, sep) == [a + Split(rest, sep)[0]] + Split(rest, sep)[1..]
    decreases |a|
  {
    var parts := Split(rest, sep);
    if |a| == 0 {
      assert a + rest == rest;
      assert a + parts[0] == parts[0];
    } else {
      assert a + rest == [a[0]] + (a[1..] + rest);
      SplitCons(a[0], a[1..] + rest, sep);
      SplitPrefixFree(a[1..], rest, sep);
      assert [a[0]] + (a[1..] + parts[0]) == a + parts[0];
    }
  }

  /** Splitting a joined list gives the list back when no part contains the separator. */
  lemma {:induction false} SplitJoin(parts: seq<string>, sep: char)
    requires |parts| >= 1
    requires forall k :: 0 <= k < |parts| ==> sep !in parts[k]
    ensures Split(Join(parts, sep), sep) == parts
    decreases |parts|
  {
    if |parts| == 1 {
      SplitPrefixFree(parts[0], "", sep);
      assert parts[0] + "" == parts[0];
    } else {
      var tail := Join(parts[1..], sep);
      SplitJoin(parts[1..], sep);
      assert Join(parts, sep) == parts[0] + ([sep] + tail);
      SplitPrefixFree(parts[0], [sep] + tail, sep);
      assert ([sep] + tail)[1..] == tail;
      assert Split([sep] + tail, sep) == [""] + parts[1..];
      assert parts[0] + "" == parts[0];
    }
  }

  /** The text before the first `sep`, and the text after it; `s.split(sep, 1)` when `sep in s`. */
  function SplitFirst(s: string, sep: char): (r: (string, string))
    requires sep in s
    ensures sep !in r.0
    ensures s == r.0 + [sep] + r.1
  {
    if s[0] == sep then ("", s[1..])
    else
      var t := SplitFirst(s[1..], sep);
      assert s == [s[0]] + s[1..];
      ([s[0]] + t.0, t.1)
  }

  lemma SplitFirstUnique(a: string, b: string, sep: char)
    requires sep !in a
    ensures sep in a + [sep] + b
    ensures SplitFirst(a + [sep] + b, sep) == (a, b)
  {
    var s := a + [sep] + b;
    assert s[|a|] == sep;
    var r := SplitFirst(s, sep);
    assert s[|r.0|] == sep;
    assert forall i :: 0 <= i < |a| ==> s[i] == a[i];
    assert forall i :: 0 <= i < |r.0| ==> s[i] == r.0[i];
    assert |r.0| == |a|;
    assert s[..|a|] == a && s[..|r.0|] == r.0;
    assert s[|a| + 1..] == b && s[|r.0| + 1..] == r.1;
  }

  // ---------------------------------------------------------------- numbers

  function DigitChar(d: nat): char
    requires d < 10
  {
    ('0' as int + d) as char
  }

  /** `str(n)` for a natural number. */
  function NatToDecimal(n: nat): (s: string)
    ensures IsDigits(s)
    ensures |s| > 1 ==> s[0] != '0'
    decreases n
  {
    if n < 10 then [DigitChar(n)] else NatToDecimal(n / 10) + [DigitChar(n % 10)]
  }

  /** `int(s)` for a string of decimal digits. */
  function DecimalValue(s: string): nat
    requires forall i :: 0 <= i < |s| ==> IsDigitChar(s[i])
    decreases |s|
  {
    if |s| == 0 then 0
    else
      assert IsDigitChar(s[|s| - 1]);
      DecimalValue(s[..|s| - 1]) * 10 + (s[|s| - 1] as int - '0' as int)
  }

  lemma {:induction false} DecimalRoundTrip(n: nat)
    ensures DecimalValue(NatToDecimal(n)) == n
    decreases n
  {
    if n >= 10 {
      DecimalRoundTrip(n / 10);
      var s := NatToDecimal(n);
      assert s[..|s| - 1] == NatToDecimal(n / 10);
    }
  }

  function HexDigit(d: nat): char
    requires d < 16
  {
    if d < 10 then DigitChar(d) else ('a' as int + d - 10) as char
  }

  /** Lower-case hexadecimal digits of `n`, no leading zeros. */
  function NatToHex(n: nat): (s: string)
    ensures |s| >= 1
    ensures n < 16 <==> |s| == 1
    ensures 16 <= n < 256 ==> |s| == 2
    decreases n
  {
    if n < 16 then [HexDigit(n)] else NatToHex(n / 16) + [HexDigit(n % 16)]
  }

  function HexDigitValue(c: char): nat {
    if '0' <= c <= '9' then c as int - '0' as int
    else if 'a' <= c <= 'f' then c as int - 'a' as int + 10
    else if 'A' <= c <= 'F' then c as int - 'A' as int + 10
    else 0
  }

  /** `int(s, 16)` for a string of hexadecimal digits. */
  function HexValue(s: string): nat
    decreases |s|
  {
    if |s| == 0 then 0 else HexValue(s[..|s| - 1]) * 16 + HexDigitValue(s[|s| - 1])
  }

  lemma {:induction false} HexRoundTrip(n: nat)
    ensures HexValue(NatToHex(n)) == n
    decreases n
  {
    if n >= 16 {
      HexRoundTrip(n / 16);
      var s := NatToHex(n);
      assert s[..|s| - 1] == NatToHex(n / 16);
    }
  }

  /** Python's `int(x)` on a real: truncation toward zero. */
  function Trunc(x: real): int {
    if x >= 0.0 then x.Floor else -((-x).Floor)
  }
}

=== FILE: text_layout.dfy ===
/**
 * `stitch_text` and the checks `make_image` runs before it: which glyph each
 * character of the text uses, the integer layout of the lines, where every
 * glyph is pasted, the centring offset on the final canvas, and the list of
 * canvas sizes offered.
 */
module TextLayout {
  import opened Wrappers
  import opened Text
  import Paths
  import opened GlyphSheet

  /** The size of a loaded glyph image. */
  datatype Glyph = Glyph(width: nat, height: nat)

  /** Horizontal gap after every glyph. */
  const Spacing: nat := 5
  /** Vertical gap between lines. */
  const LineSpacing: nat := 10
  /** `space_width_ratio`, which every caller leaves at its default. */
  const SpaceWidthRatio: real := 0.5
  /** Width of a space on a line without glyphs. */
  const DefaultSpaceWidth: nat := 25

  // ---------------------------------------------------------------- glyph lookup

  /** An upper-case letter is looked up under its doubled lower-case letter; any other character under itself. */
  function LookupKey(c: char): (k: string)
    ensures IsUpperChar(c) ==> |k| == 2 && IsLowerChar(k[0]) && k[0] == k[1] && UpperChar(k[0]) == c
    ensures !IsUpperChar(c) ==> k == [c]
  {
    if IsUpperChar(c) then [LowerChar(c), LowerChar(c)] else [c]
  }

  /** The glyph key a directory entry provides: `.png` files whose stem decodes. */
  function FileKey(filename: string): (k: Option<string>)
    ensures k.Some? ==> EndsWith(filename, ".png")
  {
    if EndsWith(filename, ".png") then DecodeStem(filename[..|filename| - 4]) else None
  }

  /**
   * The glyph table built from a directory listing: every entry with a key
   * whose image opens, a later entry for the same key replacing an earlier one.
   */
  function LoadGlyphs(listing: seq<string>, open: string -> Option<Glyph>): (glyphs: map<string, Glyph>)
    ensures forall k :: k in glyphs <==> exists i :: 0 <= i < |listing| && FileKey(listing[i]) == Some(k) && open(listing[i]).Some?
    ensures forall k :: k in glyphs ==> LoadedFrom(listing, FileKey, open, k, glyphs[k])
  {
    LoadKeyedLast(listing, FileKey, open);
    LoadKeyed(listing, FileKey, open)
  }

  /** `LoadGlyphs` for any way of naming a file's key. */
  function LoadKeyed(listing: seq<string>, key: string -> Option<string>, open: string -> Option<Glyph>): (glyphs: map<string, Glyph>)
    ensures forall k :: k in glyphs <==> exists i :: 0 <= i < |listing| && key(listing[i]) == Some(k) && open(listing[i]).Some?
    decreases |listing|
  {
    if |listing| == 0 then map[]
    else
      var n := |listing| - 1;
      var prev := LoadKeyed(listing[..n], key, open);
      var last := listing[n];
      assert forall i :: 0 <= i < n ==> listing[..n][i] == listing[i];
      if key(last).Some? && open(last).Some? then prev[key(last).value := open(last).value] else prev
  }

  /** Each loaded glyph comes from the last entry for its key that opened. */
  lemma {:induction false} LoadKeyedLast(listing: seq<string>, key: string -> Option<string>, open: string -> Option<Glyph>)
    ensures forall k :: k in LoadKeyed(listing, key, open) ==> LoadedFrom(listing, key, open, k, LoadKeyed(listing, key, open)[k])
    decreases |listing|
  {
    if |listing| > 0 {
      var n := |listing| - 1;
      var prev := LoadKeyed(listing[..n], key, open);
      var r := LoadKeyed(listing, key, open);
      var last := listing[n];
      LoadKeyedLast(listing[..n], key, open);
      forall k | k in r
        ensures LoadedFrom(listing, key, open, k, r[k])
      {
        if key(last) == Some(k) && open(last).Some? {
          assert LastLoad(listing, key, open, k, r[k], n);
        } else {
          var i :| LastLoad(listing[..n], key, open, k, prev[k], i);
          assert r[k] == prev[k];
          LastLoadExtends(listing, key, open, k, r[k], i);
        }
      }
    }
  }

  /** Appending an entry that does not load key `k` keeps the last load of `k` where it was. */
  lemma LastLoadExtends(listing: seq<string>, key: string -> Option<string>, open: string -> Option<Glyph>, k: string, g: Glyph, i: int)
    requires |listing| > 0 && LastLoad(listing[..|listing| - 1], key, open, k, g, i)
    requires !(key(listing[|listing| - 1]) == Some(k) && open(listing[|listing| - 1]).Some?)
    ensures LastLoad(listing, key, open, k, g, i)
  {
    var n := |listing| - 1;
    forall j | i < j < |listing| && key(listing[j]) == Some(k)
      ensures open(listing[j]).None?
    {
      if j < n {
        assert listing[..n][j] == listing[j];
      }
    }
    assert listing[..n][i] == listing[i];
  }

  /** Entry `i` provides key `k` with glyph `g`, and no later entry for `k` opens. */
  predicate LastLoad(listing: seq<string>, key: string -> Option<string>, open: string -> Option<Glyph>, k: string, g: Glyph, i: int) {
    0 <= i < |listing| && key(listing[i]) == Some(k) && open(listing[i]) == Some(g)
    && forall j :: i < j < |listing| && key(listing[j]) == Some(k) ==> open(listing[j]).None?
  }

  ghost predicate LoadedFrom(listing: seq<string>, key: string -> Option<string>, open: string -> Option<Glyph>, k: string, g: Glyph) {
    exists i :: LastLoad(listing, key, open, k, g, i)
  }

  // ---------------------------------------------------------------- one line

  /** How far character `c` moves the pen: a space its width, a known glyph its width plus the gap, anything else nothing. */
  function Advance(c: char, glyphs: map<string, Glyph>, space: nat): nat {
    if c == ' ' then space
    else if LookupKey(c) in glyphs then glyphs[LookupKey(c)].width + Spacing
    else 0
  }

  /** The width of a line: the sum of its advances. */
  function LineWidth(line: string, glyphs: map<string, Glyph>, space: nat): nat
    decreases |line|
  {
    if |line| == 0 then 0 else Advance(line[0], glyphs, space) + LineWidth(line[1..], glyphs, space)
  }

  /** The height of a line: the tallest glyph it uses, 0 when it uses none. */
  function LineHeight(line: string, glyphs: map<string, Glyph>): (h: nat)
    ensures forall i :: 0 <= i < |line| && line[i] != ' ' && LookupKey(line[i]) in glyphs ==> glyphs[LookupKey(line[i])].height <= h
    ensures h > 0 ==> exists i :: 0 <= i < |line| && line[i] != ' ' && LookupKey(line[i]) in glyphs && glyphs[LookupKey(line[i])].height == h
    decreases |line|
  {
    if |line| == 0 then 0
    else
      var rest := LineHeight(line[1..], glyphs);
      var c := line[0];
      var h := if c != ' ' && LookupKey(c) in glyphs && glyphs[LookupKey(c)].height > rest then glyphs[LookupKey(c)].height else rest;
      assert forall i :: 1 <= i < |line| ==> line[i] == line[1..][i - 1];
      h
  }

  /** A space is half the line's height, rounded down, or 25 on a line without glyphs. */
  function SpaceWidth(height: nat): (w: nat)
    ensures height > 0 ==> w == height / 2
    ensures height == 0 ==> w == DefaultSpaceWidth
  {
    if height > 0 then
      var w := Trunc(height as real * SpaceWidthRatio);
      assert (height / 2) as real <= height as real * SpaceWidthRatio < (height / 2 + 1) as real;
      w
    else DefaultSpaceWidth
  }

  datatype LineLayout = LineLayout(text: string, width: nat, height: nat, space: nat)

  function LayoutLine(line: string, glyphs: map<string, Glyph>): LineLayout {
    var h := LineHeight(line, glyphs);
    var space := SpaceWidth(h);
    LineLayout(line, LineWidth(line, glyphs, space), h, space)
  }

  // ---------------------------------------------------------------- the block of lines

  function LayoutLines(lines: seq<string>, glyphs: map<string, Glyph>): (ls: seq<LineLayout>)
    ensures |ls| == |lines|
    ensures forall k :: 0 <= k < |lines| ==> ls[k] == LayoutLine(lines[k], glyphs)
  {
    seq(|lines|, k requires 0 <= k < |lines| => LayoutLine(lines[k], glyphs))
  }

  /** The widest line, and 0 for none. */
  function MaxWidth(ls: seq<LineLayout>): (w: nat)
    ensures forall k :: 0 <= k < |ls| ==> ls[k].width <= w
    ensures w > 0 ==> exists k :: 0 <= k < |ls| && ls[k].width == w
    decreases |ls|
  {
    if |ls| == 0 then 0
    else
      var rest := MaxWidth(ls[1..]);
      var w := if ls[0].width > rest then ls[0].width else rest;
      assert forall k :: 1 <= k < |ls| ==> ls[k] == ls[1..][k - 1];
      w
  }

  function SumHeights(ls: seq<LineLayout>): nat
    decreases |ls|
  {
    if |ls| == 0 then 0 else ls[0].height + SumHeights(ls[1..])
  }

  /** The line heights plus one line gap between neighbours. */
  function TotalHeight(ls: seq<LineLayout>): nat {
    SumHeights(ls) + (if |ls| > 1 then LineSpacing * (|ls| - 1) else 0)
  }

  datatype Block = Block(width: nat, height: nat, lines: seq<LineLayout>)

  /** The native-size text block, or `None` when it would be empty in either direction. */
  function LayoutText(text: string, glyphs: map<string, Glyph>): (r: Option<Block>)
    ensures var ls := LayoutLines(Split(text, '\n'), glyphs);
            r.None? <==> (forall k :: 0 <= k < |ls| ==> ls[k].width == 0) || TotalHeight(ls) == 0
    ensures r.Some? ==> r.value.width > 0 && r.value.height > 0
    ensures r.Some? ==> |r.value.lines| == |Split(text, '\n')|
    ensures r.Some? ==> r.value.lines == LayoutLines(Split(text, '\n'), glyphs)
    ensures r.Some? ==> forall k :: 0 <= k < |r.value.lines| ==> r.value.lines[k].width <= r.value.width
    ensures r.Some? ==> exists k :: 0 <= k < |r.value.lines| && r.value.lines[k].width == r.value.width
    ensures r.Some? ==> r.value.height == TotalHeight(r.value.lines)
  {
    var ls := LayoutLines(Split(text, '\n'), glyphs);
    var w := MaxWidth(ls);
    var h := TotalHeight(ls);
    if w == 0 || h == 0 then None else Some(Block(w, h, ls))
  }

  // ---------------------------------------------------------------- placement

  /** A glyph pasted with its top-left corner at `(x, y)`. */
  datatype Placement = Placement(key: string, x: nat, y: nat)

  /** Where the glyphs of one line are pasted, the pen starting at `x`. */
  function PlaceLine(line: string, glyphs: map<string, Glyph>, space: nat, x: nat, y: nat): (ps: seq<Placement>)
    ensures forall p :: p in ps ==> p.key in glyphs && p.y == y
    decreases |line|
  {
    if |line| == 0 then []
    else
      var c := line[0];
      if c == ' ' then PlaceLine(line[1..], glyphs, space, x + space, y)
      else if LookupKey(c) in glyphs then
        [Placement(LookupKey(c), x, y)] + PlaceLine(line[1..], glyphs, space, x + glyphs[LookupKey(c)].width + Spacing, y)
      else PlaceLine(line[1..], glyphs, space, x, y)
  }

  /** Every glyph of a line lies between the pen's start and the line's end, and is no taller than the line. */
  lemma {:induction false} PlaceLineInside(line: string, glyphs: map<string, Glyph>, space: nat, x: nat, y: nat)
    ensures forall p :: p in PlaceLine(line, glyphs, space, x, y) ==>
              x <= p.x && p.x + glyphs[p.key].width <= x + LineWidth(line, glyphs, space)
              && glyphs[p.key].height <= LineHeight(line, glyphs)
    decreases |line|
  {
    if |line| > 0 {
      var c := line[0];
      var x' := x + Advance(c, glyphs, space);
      PlaceLineInside(line[1..], glyphs, space, x', y);
      LineStep(line, glyphs, space);
      var rest := PlaceLine(line[1..], glyphs, space, x', y);
      forall p | p in PlaceLine(line, glyphs, space, x, y)
        ensures x <= p.x && p.x + glyphs[p.key].width <= x + LineWidth(line, glyphs, space)
        ensures glyphs[p.key].height <= LineHeight(line, glyphs)
      {
        if c != ' ' && LookupKey(c) in glyphs {
          assert PlaceLine(line, glyphs, space, x, y) == [Placement(LookupKey(c), x, y)] + rest;
        } else if c == ' ' {
          assert p in rest;
        } else {
          assert x' == x && p in rest;
        }
      }
    }
  }

  /** The first character's share of a line's width and height. */
  lemma LineStep(line: string, glyphs: map<string, Glyph>, space: nat)
    requires |line| > 0
    ensures LineWidth(line, glyphs, space) == Advance(line[0], glyphs, space) + LineWidth(line[1..], glyphs, space)
    ensures LineHeight(line[1..], glyphs) <= LineHeight(line, glyphs)
    ensures line[0] != ' ' && LookupKey(line[0]) in glyphs ==> glyphs[LookupKey(line[0])].height <= LineHeight(line, glyphs)
  {
  }

  /** Where the glyphs of all lines are pasted, line `k` starting below line `k - 1` and its gap. */
  function PlaceLines(ls: seq<LineLayout>, glyphs: map<string, Glyph>, y: nat): (ps: seq<Placement>)
    decreases |ls|
  {
    if |ls| == 0 then []
    else PlaceLine(ls[0].text, glyphs, ls[0].space, 0, y) + PlaceLines(ls[1..], glyphs, y + ls[0].height + LineSpacing)
  }

  /** A glyph of line `k` lies within that line's box. */
  predicate InsideLines(p: Placement, glyphs: map<string, Glyph>, ls: seq<LineLayout>, y: nat)
    requires p.key in glyphs
  {
    p.x + glyphs[p.key].width <= MaxWidth(ls)
    && y <= p.y && p.y + glyphs[p.key].height <= y + TotalHeight(ls)
  }

  lemma {:induction false} PlaceLinesInside(ls: seq<LineLayout>, glyphs: map<string, Glyph>, y: nat)
    requires forall k :: 0 <= k < |ls| ==> ls[k] == LayoutLine(ls[k].text, glyphs)
    ensures forall p :: p in PlaceLines(ls, glyphs, y) ==> p.key in glyphs && InsideLines(p, glyphs, ls, y)
    decreases |ls|
  {
    if |ls| > 0 {
      var l := ls[0];
      var y' := y + l.height + LineSpacing;
      assert forall k :: 1 <= k < |ls| ==> ls[k] == ls[1..][k - 1];
      PlaceLinesInside(ls[1..], glyphs, y');
      forall p | p in PlaceLines(ls, glyphs, y)
        ensures p.key in glyphs && InsideLines(p, glyphs, ls, y)
      {
        if p in PlaceLine(l.text, glyphs, l.space, 0, y) {
          InsideFirstLine(ls, glyphs, y, p);
        } else {
          assert p in PlaceLines(ls[1..], glyphs, y');
          InsideLinesTail(ls, glyphs, y, p);
        }
      }
    }
  }

  /** A glyph of the first line lies within the box of all lines. */
  lemma InsideFirstLine(ls: seq<LineLayout>, glyphs: map<string, Glyph>, y: nat, p: Placement)
    requires |ls| > 0 && ls[0] == LayoutLine(ls[0].text, glyphs)
    requires p in PlaceLine(ls[0].text, glyphs, ls[0].space, 0, y)
    ensures p.key in glyphs && InsideLines(p, glyphs, ls, y)
  {
    PlaceLineInside(ls[0].text, glyphs, ls[0].space, 0, y);
    assert ls[0].width <= MaxWidth(ls);
    assert SumHeights(ls) >= ls[0].height;
  }

  /** A glyph inside the box of the lines after the first, placed one line and gap lower, lies within the box of all lines. */
  lemma InsideLinesTail(ls: seq<LineLayout>, glyphs: map<string, Glyph>, y: nat, p: Placement)
    requires |ls| > 1 && p.key in glyphs
    requires InsideLines(p, glyphs, ls[1..], y + ls[0].height + LineSpacing)
    ensures InsideLines(p, glyphs, ls, y)
  {
    assert MaxWidth(ls[1..]) <= MaxWidth(ls);
    assert SumHeights(ls) == ls[0].height + SumHeights(ls[1..]);
  }

  /** Every glyph `stitch_text` pastes lies inside the text block. */
  lemma PlacementsInsideBlock(text: string, glyphs: map<string, Glyph>)
    requires LayoutText(text, glyphs).Some?
    ensures var b := LayoutText(text, glyphs).value;
            forall p :: p in PlaceLines(b.lines, glyphs, 0) ==>
              p.key in glyphs && p.x + glyphs[p.key].width <= b.width && p.y + glyphs[p.key].height <= b.height
  {
    var b := LayoutText(text, glyphs).value;
    PlaceLinesInside(b.lines, glyphs, 0);
  }

  /** Every character's lookup key is a glyph name, so the glyph is found under the file the sheet extraction saves it to. */
  /** Every glyph name is read back from the file it is saved under. */
  lemma FileKeyReadsExtracted(name: string)
    requires IsGlyphName(name)
    ensures FileKey(EncodeName(name) + ".png") == Some(name)
  {
    var f := EncodeName(name) + ".png";
    assert f[..|f| - 4] == EncodeName(name);
    assert f[|f| - 4..] == ".png";
    NameRoundTrip(name);
  }

  lemma LookupFindsExtractedFile(c: char)
    ensures IsGlyphName(LookupKey(c))
    ensures FileKey(EncodeName(LookupKey(c)) + ".png") == Some(LookupKey(c))
  {
    FileKeyReadsExtracted(LookupKey(c));
  }

  // ---------------------------------------------------------------- the canvas

  /** Where the scaled text goes on the canvas: centred, rounding down, and never left of or above the canvas. */
  function PasteOffset(canvas: int, scaled: int): (off: int)
    ensures off >= 0
    ensures scaled <= canvas ==> off + scaled <= canvas && 0 <= (canvas - scaled) - 2 * off <= 1
    ensures scaled > canvas ==> off == 0
  {
    var centred := (canvas - scaled) / 2;
    if centred > 0 then centred else 0
  }

  function Pow2(n: nat): (p: nat)
    ensures p >= 1
  {
    if n == 0 then 1 else 2 * Pow2(n - 1)
  }

  /** The canvas sizes offered: 8, 16, 32, and so on up to 8192. */
  function ValidResolutions(): (rs: seq<int>)
    ensures |rs| == 11
  {
    seq(11, n requires 0 <= n < 11 => 8 * Pow2(n))
  }

  predicate IsPowerOfTwo(x: int)
    decreases if x > 0 then x else 0
  {
    x == 1 || (x > 1 && x % 2 == 0 && IsPowerOfTwo(x / 2))
  }

  lemma {:induction false} PowerOfTwoIsPow2(x: int)
    requires IsPowerOfTwo(x)
    ensures exists n: nat :: x == Pow2(n)
    decreases if x > 0 then x else 0
  {
    if x == 1 {
      assert x == Pow2(0);
    } else {
      PowerOfTwoIsPow2(x / 2);
      var n: nat :| x / 2 == Pow2(n);
      assert x == 2 * (x / 2);
      assert x == Pow2(n + 1);
    }
  }

  lemma {:induction false} Pow2IsPowerOfTwo(n: nat)
    ensures IsPowerOfTwo(Pow2(n))
  {
    if n > 0 {
      Pow2IsPowerOfTwo(n - 1);
      assert Pow2(n) / 2 == Pow2(n - 1);
    }
  }

  lemma {:induction false} Pow2Mono(m: nat, n: nat)
    requires m <= n
    ensures Pow2(m) <= Pow2(n)
    decreases n
  {
    if m < n {
      Pow2Mono(m, n - 1);
    }
  }

  lemma Pow2Shift(n: nat)
    ensures Pow2(n + 3) == 8 * Pow2(n)
  {
    assert Pow2(n + 3) == 2 * Pow2(n + 2);
    assert Pow2(n + 2) == 2 * Pow2(n + 1);
  }

  lemma Pow2Outside(n: nat)
    ensures n <= 2 ==> Pow2(n) <= 4
    ensures n >= 14 ==> Pow2(n) >= 16384
  {
    assert Pow2(2) == 4 && Pow2(14) == 16384;
    if n <= 2 {
      Pow2Mono(n, 2);
    } else if n >= 14 {
      Pow2Mono(14, n);
    }
  }

  lemma ResolutionIsPowerOfTwo(x: int)
    requires x in ValidResolutions()
    ensures 8 <= x <= 8192 && IsPowerOfTwo(x)
  {
    var rs := ValidResolutions();
    var n :| 0 <= n < 11 && rs[n] == x;
    Pow2Shift(n);
    Pow2IsPowerOfTwo(n + 3);
    Pow2Mono(n + 3, 13);
    Pow2Mono(3, n + 3);
    assert Pow2(13) == 8192 && Pow2(3) == 8;
  }

  lemma PowerOfTwoIsResolution(x: int)
    requires 8 <= x <= 8192 && IsPowerOfTwo(x)
    ensures x in ValidResolutions()
  {
    PowerOfTwoIsPow2(x);
    var n: nat :| x == Pow2(n);
    Pow2Outside(n);
    Pow2Shift(n - 3);
    assert ValidResolutions()[n - 3] == x;
  }

  /** The offered sizes are exactly the powers of two from 8 to 8192. */
  lemma ValidResolutionsArePowersOfTwo(x: int)
    ensures x in ValidResolutions() <==> 8 <= x <= 8192 && IsPowerOfTwo(x)
  {
    if x in ValidResolutions() {
      ResolutionIsPowerOfTwo(x);
    }
    if 8 <= x <= 8192 && IsPowerOfTwo(x) {
      PowerOfTwoIsResolution(x);
    }
  }

  /** What `make_image` does with the entered text and the chosen canvas size before stitching. */
  datatype MakeImageCheck =
    | NoText
    | NotInteger
    | BadResolution(resetWidth: int, resetHeight: int)
    | Proceed(text: string, width: int, height: int)

  /** The size a rejected dimension is reset to. */
  const ResetResolution: int := 1024

  /**
   * The text loses its trailing newlines and must then be nonempty; both
   * sizes must read as integers and be offered sizes. A size that is not
   * offered is reset to 1024; the other is kept.
   */
  function CheckMakeImage(entry: string, width: Option<int>, height: Option<int>): (r: MakeImageCheck)
    ensures r.NoText? <==> forall i :: 0 <= i < |entry| ==> entry[i] == '\n'
    ensures r.NotInteger? ==> width.None? || height.None?
    ensures r.BadResolution? ==>
              width.Some? && height.Some?
              && (width.value !in ValidResolutions() || height.value !in ValidResolutions())
              && r.resetWidth in ValidResolutions() && r.resetHeight in ValidResolutions()
              && (width.value in ValidResolutions() ==> r.resetWidth == width.value)
              && (height.value in ValidResolutions() ==> r.resetHeight == height.value)
    ensures r.BadResolution? && width.value !in ValidResolutions() ==> r.resetWidth == ResetResolution
    ensures r.BadResolution? && height.value !in ValidResolutions() ==> r.resetHeight == ResetResolution
    ensures r.Proceed? ==>
              r.text != "" && r.text[|r.text| - 1] != '\n' && StartsWith(entry, r.text)
              && (forall i :: |r.text| <= i < |entry| ==> entry[i] == '\n')
              && Some(r.width) == width && Some(r.height) == height
              && r.width in ValidResolutions() && r.height in ValidResolutions()
  {
    var text := Paths.RStripChar(entry, '\n');
    var rs := ValidResolutions();
    assert rs[7] == ResetResolution;
    if text == "" then NoText
    else if width.None? || height.None? then NotInteger
    else if width.value !in rs || height.value !in rs then
      BadResolution(if width.value in rs then width.value else ResetResolution,
                    if height.value in rs then height.value else ResetResolution)
    else Proceed(text, width.value, height.value)
  }
}

=== FILE: theme.dfy ===
/**
 * The theme manager shared by the tools' windows: ten fixed palettes, the
 * theme named by `appearance_mode` in the main application's settings file,
 * reloading when that file's modification time moves forward, and the
 * conversion of a colour to `#rrggbb`. The settings file is an input: its
 * existence, size, decoded JSON and modification time.
 */
module Theme {
  import opened Wrappers
  import opened Text
  import opened Settings

  /** An RGBA colour with components meant to lie in `[0, 1]`. */
  datatype Color = Color(r: real, g: real, b: real, a: real)

  /** A palette: one colour for each of the eight keys every theme defines. */
  datatype Palette = Palette(
    windowBg: Color, titleBarBg: Color, button: Color, buttonHover: Color,
    buttonActive: Color, border: Color, text: Color, accent: Color)

  function Grey3(v: real): Color { Color(v, v, v, 1.0) }

  /** The theme table, in its declaration order. */
  const Themes: seq<(string, Palette)> := [
    ("grey", Palette(Grey3(0.1), Grey3(0.12), Grey3(0.29), Grey3(0.35), Grey3(0.40), Grey3(0.40),
                     Grey3(1.0), Color(1.0, 0.6, 0.0, 1.0))),
    ("black", Palette(Grey3(0.0), Grey3(0.02), Grey3(0.15), Grey3(0.20), Grey3(0.25), Grey3(0.30),
                      Grey3(1.0), Color(1.0, 0.6, 0.0, 1.0))),
    ("white", Palette(Grey3(0.94), Grey3(0.90), Grey3(0.75), Grey3(0.70), Grey3(0.65), Grey3(0.60),
                      Grey3(0.1), Color(1.0, 0.6, 0.0, 1.0))),
    ("dracula", Palette(Color(0.157, 0.165, 0.212, 1.0), Color(0.121, 0.129, 0.173, 1.0),
                        Color(0.271, 0.282, 0.353, 1.0), Color(0.506, 0.475, 0.702, 1.0),
                        Color(0.380, 0.345, 0.580, 1.0), Color(0.380, 0.396, 0.486, 1.0),
                        Color(0.973, 0.973, 0.949, 1.0), Color(0.506, 0.475, 0.702, 1.0))),
    ("pink", Palette(Color(0.25, 0.12, 0.18, 1.0), Color(0.20, 0.10, 0.15, 1.0),
                     Color(0.55, 0.25, 0.40, 1.0), Color(0.65, 0.30, 0.48, 1.0),
                     Color(0.75, 0.35, 0.55, 1.0), Color(0.80, 0.40, 0.60, 1.0),
                     Color(1.0, 0.95, 0.98, 1.0), Color(1.0, 0.4, 0.7, 1.0))),
    ("orange", Palette(Color(0.25, 0.15, 0.08, 1.0), Color(0.20, 0.12, 0.06, 1.0),
                       Color(0.60, 0.35, 0.15, 1.0), Color(0.70, 0.40, 0.18, 1.0),
                       Color(0.80, 0.45, 0.20, 1.0), Color(0.85, 0.50, 0.25, 1.0),
                       Color(1.0, 0.98, 0.95, 1.0), Color(1.0, 0.6, 0.0, 1.0))),
    ("blue", Palette(Color(0.08, 0.12, 0.25, 1.0), Color(0.06, 0.10, 0.20, 1.0),
                     Color(0.20, 0.30, 0.60, 1.0), Color(0.25, 0.35, 0.70, 1.0),
                     Color(0.30, 0.40, 0.80, 1.0), Color(0.35, 0.45, 0.85, 1.0),
                     Color(0.95, 0.98, 1.0, 1.0), Color(0.3, 0.5, 1.0, 1.0))),
    ("red", Palette(Color(0.25, 0.08, 0.08, 1.0), Color(0.20, 0.06, 0.06, 1.0),
                    Color(0.60, 0.20, 0.20, 1.0), Color(0.70, 0.25, 0.25, 1.0),
                    Color(0.80, 0.30, 0.30, 1.0), Color(0.85, 0.35, 0.35, 1.0),
                    Color(1.0, 0.95, 0.95, 1.0), Color(1.0, 0.3, 0.3, 1.0))),
    ("green", Palette(Color(0.08, 0.18, 0.08, 1.0), Color(0.06, 0.15, 0.06, 1.0),
                      Color(0.20, 0.50, 0.20, 1.0), Color(0.25, 0.60, 0.25, 1.0),
                      Color(0.30, 0.70, 0.30, 1.0), Color(0.35, 0.75, 0.35, 1.0),
                      Color(0.95, 1.0, 0.95, 1.0), Color(0.3, 1.0, 0.3, 1.0))),
    ("yellow", Palette(Color(0.5, 0.5, 0.00, 1.0), Color(0.4, 0.4, 0.00, 1.0),
                       Color(0.60, 0.55, 0.15, 1.0), Color(0.70, 0.65, 0.20, 1.0),
                       Color(0.80, 0.75, 0.25, 1.0), Color(0.85, 0.80, 0.30, 1.0),
                       Color(1.0, 1.0, 0.90, 1.0), Color(1.0, 1.0, 0.0, 1.0)))
  ]

  const DefaultTheme: string := "grey"

  predicate InUnit(x: real) { 0.0 <= x <= 1.0 }

  predicate ColorInUnit(c: Color) { InUnit(c.r) && InUnit(c.g) && InUnit(c.b) && InUnit(c.a) }

  predicate PaletteInUnit(p: Palette) {
    ColorInUnit(p.windowBg) && ColorInUnit(p.titleBarBg) && ColorInUnit(p.button)
    && ColorInUnit(p.buttonHover) && ColorInUnit(p.buttonActive) && ColorInUnit(p.border)
    && ColorInUnit(p.text) && ColorInUnit(p.accent)
  }

  /** Every component of every palette in the table lies in `[0, 1]`. */
  lemma ThemesInUnit()
    ensures forall i :: 0 <= i < |Themes| ==> PaletteInUnit(Themes[i].1)
  {
    forall i | 0 <= i < |Themes|
      ensures PaletteInUnit(Themes[i].1)
    {
      PaletteAt(i);
    }
  }

  lemma PaletteAt(i: nat)
    requires i < |Themes|
    ensures PaletteInUnit(Themes[i].1)
  {
    if i == 0 { } else if i == 1 { } else if i == 2 { } else if i == 3 { } else if i == 4 { }
    else if i == 5 { } else if i == 6 { } else if i == 7 { } else if i == 8 { } else { }
  }

  /** A palette looked up by name in `table`, the first entry of that name winning. */
  function Find(table: seq<(string, Palette)>, name: string): (r: Option<Palette>)
    ensures r.Some? <==> exists i :: 0 <= i < |table| && table[i].0 == name
    ensures r.Some? ==> exists i :: 0 <= i < |table| && table[i] == (name, r.value)
    decreases |table|
  {
    if |table| == 0 then None
    else if table[0].0 == name then Some(table[0].1)
    else
      var r := Find(table[1..], name);
      assert forall i :: 0 <= i < |table| - 1 ==> table[1..][i] == table[i + 1];
      assert table[0].0 != name;
      r
  }

  /** Whether `name` is a key of the theme table. */
  predicate IsTheme(name: string) {
    Find(Themes, name).Some?
  }

  lemma GreyIsTheme()
    ensures IsTheme(DefaultTheme) && Find(Themes, DefaultTheme) == Some(Themes[0].1)
  {
    assert Themes[0].0 == DefaultTheme;
  }

  // ---------------------------------------------------------------- state

  /** The manager's state: the current theme name and the modification time of the last successful load. */
  datatype Manager = Manager(current: string, lastMtime: real)

  /** The settings file as the manager finds it; `json` is nothing when the content is not valid JSON. */
  datatype SettingsFile =
    | Missing
    | Present(size: nat, json: Option<Json>, mtime: real)

  /** `appearance_mode` from a decoded settings object, `grey` when the key is absent. */
  function AppearanceMode(fields: map<string, Json>): Json {
    if "appearance_mode" in fields then fields["appearance_mode"] else JStr(DefaultTheme)
  }

  /** A value Python cannot hash, so that testing it against the table's keys raises. */
  predicate Unhashable(v: Json) { v.JList? || v.JObject? }

  /**
   * `_load_theme`. A missing file changes nothing; an empty file, invalid
   * JSON, a non-object document or an unhashable mode reset the theme to
   * `grey` without recording the modification time; otherwise a mode naming
   * a theme is adopted, any other mode keeps the current theme, and the time
   * is recorded.
   */
  function LoadTheme(m: Manager, f: SettingsFile): (m': Manager)
    ensures f.Missing? ==> m' == m
    ensures f.Present? && (f.size == 0 || f.json.None? || !f.json.value.JObject?) ==> m' == m.(current := DefaultTheme)
    ensures f.Present? && f.size > 0 && f.json.Some? && f.json.value.JObject? ==>
      var mode := AppearanceMode(f.json.value.fields);
      if Unhashable(mode) then m' == m.(current := DefaultTheme)
      else if mode.JStr? && IsTheme(mode.s) then m' == Manager(mode.s, f.mtime)
      else m' == m.(lastMtime := f.mtime)
  {
    match f
    case Missing => m
    case Present(size, json, mtime) =>
      if size == 0 || json.None? || !json.value.JObject? then m.(current := DefaultTheme)
      else
        var mode := AppearanceMode(json.value.fields);
        if Unhashable(mode) then m.(current := DefaultTheme)
        else if mode.JStr? && IsTheme(mode.s) then Manager(mode.s, mtime)
        else m.(lastMtime := mtime)
  }

  /** The state a new manager starts in: `grey`, time zero, then one load. */
  function NewManager(f: SettingsFile): (m: Manager)
    ensures IsTheme(m.current)
  {
    GreyIsTheme();
    LoadKeepsTheme(Manager(DefaultTheme, 0.0), f);
    LoadTheme(Manager(DefaultTheme, 0.0), f)
  }

  /** Loading never leaves the manager on a name that is not in the table. */
  lemma LoadKeepsTheme(m: Manager, f: SettingsFile)
    requires IsTheme(m.current)
    ensures IsTheme(LoadTheme(m, f).current)
  {
    GreyIsTheme();
  }

  /** `check_for_updates`: reload, and say so, exactly when the file exists with a newer modification time. */
  function CheckForUpdates(m: Manager, f: SettingsFile): (r: (Manager, bool))
    ensures r.1 <==> f.Present? && f.mtime > m.lastMtime
    ensures r.1 ==> r.0 == LoadTheme(m, f)
    ensures !r.1 ==> r.0 == m
  {
    if f.Present? && f.mtime > m.lastMtime then (LoadTheme(m, f), true) else (m, false)
  }

  /** After a reload that recorded its time, the same file is not reported again. */
  lemma ReloadIsReportedOnce(m: Manager, f: SettingsFile)
    requires f.Present? && f.mtime > m.lastMtime
    requires LoadTheme(m, f).lastMtime == f.mtime
    ensures !CheckForUpdates(CheckForUpdates(m, f).0, f).1
  {
  }

  /** An empty settings file never records its time, so every later poll reloads it and reports a change. */
  lemma EmptyFileReportedOnEveryPoll(m: Manager, f: SettingsFile)
    requires f.Present? && f.size == 0 && f.mtime > m.lastMtime
    ensures CheckForUpdates(m, f) == (m.(current := DefaultTheme), true)
    ensures CheckForUpdates(CheckForUpdates(m, f).0, f).1
  {
  }

  /** `get_theme`: the current theme's palette, falling back to `grey`. */
  function GetTheme(m: Manager): (p: Palette)
    ensures IsTheme(m.current) ==> Some(p) == Find(Themes, m.current)
    ensures !IsTheme(m.current) ==> p == Themes[0].1
    ensures PaletteInUnit(p)
  {
    ThemesInUnit();
    match Find(Themes, m.current)
    case Some(p) => p
    case None => Themes[0].1
  }

  /** The font table: Dracula and every other theme use Roboto. */
  const Fonts: seq<(string, string)> := [("dracula", "Roboto-Regular.ttf"), ("default", "Roboto-Regular.ttf")]

  /** `get_font`: the current theme's font, falling back to the default entry. */
  function GetFont(m: Manager): (font: string)
    ensures m.current == "dracula" ==> font == Fonts[0].1
    ensures m.current != "dracula" && m.current != "default" ==> font == Fonts[1].1
    ensures font == "Roboto-Regular.ttf"
  {
    if m.current == Fonts[0].0 then Fonts[0].1
    else if m.current == Fonts[1].0 then Fonts[1].1
    else Fonts[1].1
  }

  // ---------------------------------------------------------------- hex

  /** Python's `format(n, '02x')`: at least two lower-case hex digits, a minus sign before the digits of a negative number. */
  function Hex2(n: int): (s: string)
    ensures 0 <= n < 256 ==> s == [HexDigit(n / 16), HexDigit(n % 16)]
    ensures |s| >= 2
    ensures n < 0 ==> s[0] == '-' && HexValue(s[1..]) == -n
  {
    if n < 0 then NegativeHex(-n); "-" + NatToHex(-n)
    else if n < 16 then HexOfNibble(n); "0" + NatToHex(n)
    else HexOfByte(n); NatToHex(n)
  }

  /** A minus sign before the digits of `m` reads back as `m` after the sign. */
  lemma NegativeHex(m: nat)
    ensures var s := "-" + NatToHex(m);
            |s| >= 2 && s[0] == '-' && HexValue(s[1..]) == m
  {
    var s := "-" + NatToHex(m);
    assert s[1..] == NatToHex(m);
    HexRoundTrip(m);
  }

  lemma HexOfNibble(n: nat)
    ensures n < 16 ==> "0" + NatToHex(n) == [HexDigit(n / 16), HexDigit(n % 16)]
  {
  }

  lemma HexOfByte(n: nat)
    ensures 16 <= n < 256 ==> NatToHex(n) == [HexDigit(n / 16), HexDigit(n % 16)]
  {
    if 16 <= n < 256 {
      assert NatToHex(n / 16) == [HexDigit(n / 16)];
    }
  }

  lemma HexDigitValueOf(d: nat)
    requires d < 16
    ensures HexDigitValue(HexDigit(d)) == d
    ensures IsDigitChar(HexDigit(d)) || 'a' <= HexDigit(d) <= 'f'
  {
  }

  /** Two digits in the range of a byte read back as the number they were made from. */
  lemma Hex2RoundTrip(n: int)
    requires 0 <= n < 256
    ensures |Hex2(n)| == 2 && HexValue(Hex2(n)) == n
    ensures forall k :: 0 <= k < 2 ==> IsDigitChar(Hex2(n)[k]) || 'a' <= Hex2(n)[k] <= 'f'
  {
    var s := Hex2(n);
    HexDigitValueOf(n / 16);
    HexDigitValueOf(n % 16);
    assert s[..1][..0] == [];
    assert HexValue(s[..1]) == n / 16;
  }

  /** A component in `[0, 1]` scales to a byte. */
  lemma ScaledByte(x: real)
    requires InUnit(x)
    ensures 0 <= Trunc(x * 255.0) < 256
  {
  }

  lemma HashTriple(x: string, y: string, z: string)
    requires |x| == 2 && |y| == 2 && |z| == 2
    ensures var s := "#" + x + y + z;
      |s| == 7 && s[0] == '#' && s[1..3] == x && s[3..5] == y && s[5..7] == z
      && (forall k :: 1 <= k < 3 ==> s[k] == x[k - 1])
      && (forall k :: 3 <= k < 5 ==> s[k] == y[k - 3])
      && (forall k :: 5 <= k < 7 ==> s[k] == z[k - 5])
  {
  }

  /** `to_hex`: `#` followed by `int(c * 255)` for red, green and blue, each as two digits. */
  function ToHex(c: Color): (s: string)
    ensures ColorInUnit(c) ==> |s| == 7 && s[0] == '#'
    ensures ColorInUnit(c) ==>
      HexValue(s[1..3]) == Trunc(c.r * 255.0) && HexValue(s[3..5]) == Trunc(c.g * 255.0)
      && HexValue(s[5..7]) == Trunc(c.b * 255.0)
    ensures ColorInUnit(c) ==> forall k :: 1 <= k < 7 ==> IsDigitChar(s[k]) || 'a' <= s[k] <= 'f'
  {
    var r, g, b := Trunc(c.r * 255.0), Trunc(c.g * 255.0), Trunc(c.b * 255.0);
    var s := "#" + Hex2(r) + Hex2(g) + Hex2(b);
    if ColorInUnit(c) then
      ScaledByte(c.r); ScaledByte(c.g); ScaledByte(c.b);
      Hex2RoundTrip(r); Hex2RoundTrip(g); Hex2RoundTrip(b);
      HashTriple(Hex2(r), Hex2(g), Hex2(b));
      s
    else s
  }
}

=== FILE: update_checker.dfy ===
/**
 * The mapping tools' self-updater: a check against the latest GitHub release
 * that runs at most once every 150 seconds, the rule that picks the release
 * asset matching the running build, the guard in front of the installer and
 * the files the installer keeps when it clears its temporary folder. The
 * clock, the HTTP request, timestamp parsing and the file system are inputs.
 */
module UpdateChecker {
  import opened Wrappers
  import opened Text
  import Paths

  /** Seconds that must pass between two real checks. */
  const CheckInterval: real := 150.0

  /** One release asset: its `name` (absent reads as empty) and its `browser_download_url`. */
  datatype Asset = Asset(name: string, downloadUrl: Option<string>)

  /** The release's `tag_name` field: absent, JSON `null`, or a string. */
  datatype TagField = TagAbsent | TagNull | TagText(text: string)

  /**
   * What the releases request produced: a failure (network error, bad JSON,
   * anything raised on the way) or the fields of the latest release.
   */
  datatype Fetch =
    | FetchFailed
    | Release(publishedAt: Option<string>, tag: TagField, assets: seq<Asset>)

  /** `data.get('tag_name', 'unknown')`: the default only for an absent field; `null` reads as `None`. */
  function ReleaseTag(tag: TagField): (t: Option<string>)
    ensures t.None? <==> tag.TagNull?
    ensures tag.TagText? ==> t == Some(tag.text)
    ensures tag.TagAbsent? ==> t == Some("unknown")
  {
    match tag
    case TagAbsent => Some("unknown")
    case TagNull => None
    case TagText(s) => Some(s)
  }

  /** The checker's state; `currentVersion` is the build's timestamp and `isConsole` whether it is the console build. */
  datatype Checker = Checker(
    lastCheck: Option<real>,
    updateAvailable: bool,
    downloadUrl: Option<string>,
    latestVersion: Option<real>,
    latestTag: Option<string>,
    currentVersion: real,
    isConsole: bool)

  /** A fresh checker: never checked, no update known. */
  function NewChecker(currentVersion: real, isConsole: bool): (c: Checker)
    ensures c.lastCheck.None? && !c.updateAvailable && c.downloadUrl.None?
    ensures c.currentVersion == currentVersion && c.isConsole == isConsole
  {
    Checker(None, false, None, None, None, currentVersion, isConsole)
  }

  /** Whether a real check is due at time `now`. */
  function ShouldCheck(c: Checker, now: real): (due: bool)
    ensures c.lastCheck.None? ==> due
    ensures c.lastCheck.Some? ==> (due <==> c.lastCheck.value + CheckInterval <= now)
  {
    c.lastCheck.None? || now - c.lastCheck.value >= CheckInterval
  }

  // ---------------------------------------------------------------- assets

  /** An installer for this build: an `.exe` naming CS2KZ and MappingTools whose console-ness matches the running build. */
  predicate IsTargetAsset(name: string, isConsole: bool) {
    EndsWith(name, ".exe") && Contains(name, "CS2KZ") && Contains(name, "MappingTools")
    && Contains(Lower(name), "console") == isConsole
  }

  /** The index of the first target asset at or after `from`. */
  function FirstTargetFrom(assets: seq<Asset>, isConsole: bool, from: nat): (r: Option<nat>)
    requires from <= |assets|
    ensures r.Some? ==> from <= r.value < |assets| && IsTargetAsset(assets[r.value].name, isConsole)
    ensures r.Some? ==> forall j :: from <= j < r.value ==> !IsTargetAsset(assets[j].name, isConsole)
    ensures r.None? ==> forall j :: from <= j < |assets| ==> !IsTargetAsset(assets[j].name, isConsole)
    decreases |assets| - from
  {
    if from == |assets| then None
    else if IsTargetAsset(assets[from].name, isConsole) then Some(from)
    else FirstTargetFrom(assets, isConsole, from + 1)
  }

  /** The first asset, in the release's order, that is an installer for this build. */
  function FirstTarget(assets: seq<Asset>, isConsole: bool): (r: Option<nat>)
    ensures r.Some? ==> r.value < |assets| && IsTargetAsset(assets[r.value].name, isConsole)
    ensures r.Some? ==> forall j :: 0 <= j < r.value ==> !IsTargetAsset(assets[j].name, isConsole)
    ensures r.None? <==> forall j :: 0 <= j < |assets| ==> !IsTargetAsset(assets[j].name, isConsole)
  {
    FirstTargetFrom(assets, isConsole, 0)
  }

  // ---------------------------------------------------------------- the check

  /** A release whose `published_at` is missing, null or empty. */
  predicate Unpublished(fetch: Fetch) {
    fetch.Release? && (fetch.publishedAt.None? || fetch.publishedAt.value == "")
  }

  /**
   * One call of `check_for_updates` at time `now`. `parseTime` stands for
   * `datetime.fromisoformat(...).timestamp()`, giving nothing when it raises.
   * Returns the new state and the value the call returns.
   */
  function CheckForUpdates(c: Checker, now: real, fetch: Fetch, parseTime: string -> Option<real>): (r: (Checker, bool))
    // throttled: nothing changes and the cached flag is returned
    ensures !ShouldCheck(c, now) ==> r == (c, c.updateAvailable)
    // a real check records its time and leaves the build description alone
    ensures ShouldCheck(c, now) ==> r.0.lastCheck == Some(now)
    ensures r.0.currentVersion == c.currentVersion && r.0.isConsole == c.isConsole
    // an update is reported only for a strictly newer release with a matching installer, which is remembered
    ensures ShouldCheck(c, now) && r.1 ==>
      fetch.Release? && fetch.publishedAt.Some? && parseTime(fetch.publishedAt.value).Some?
      && parseTime(fetch.publishedAt.value).value > c.currentVersion
      && FirstTarget(fetch.assets, c.isConsole).Some?
      && r.0.updateAvailable
      && r.0.downloadUrl == fetch.assets[FirstTarget(fetch.assets, c.isConsole).value].downloadUrl
      && r.0.latestVersion == parseTime(fetch.publishedAt.value)
      && r.0.latestTag == ReleaseTag(fetch.tag)
    // a newer release with a matching installer is always reported
    ensures (ShouldCheck(c, now) && fetch.Release? && !Unpublished(fetch)
      && parseTime(fetch.publishedAt.value).Some?
      && parseTime(fetch.publishedAt.value).value > c.currentVersion
      && FirstTarget(fetch.assets, c.isConsole).Some?) ==> r.1
    // every other outcome clears the flag, except a release without a publication time
    ensures ShouldCheck(c, now) && !Unpublished(fetch) ==> r.0.updateAvailable == r.1
    ensures ShouldCheck(c, now) && Unpublished(fetch) ==> !r.1 && r.0 == c.(lastCheck := Some(now))
  {
    if !ShouldCheck(c, now) then (c, c.updateAvailable)
    else
      var c1 := c.(lastCheck := Some(now));
      var failed := (c1.(updateAvailable := false), false);
      match fetch
      case FetchFailed => failed
      case Release(publishedAt, tag, assets) =>
        if publishedAt.None? || publishedAt.value == "" then (c1, false)
        else
          match parseTime(publishedAt.value)
          case None => failed
          case Some(t) =>
            if t > c.currentVersion then
              match FirstTarget(assets, c.isConsole)
              case None => failed
              case Some(i) =>
                (c1.(updateAvailable := true, downloadUrl := assets[i].downloadUrl,
                     latestVersion := Some(t), latestTag := ReleaseTag(tag)), true)
            else failed
  }

  /**
   * A call within 150 seconds of a real check repeats the flag that check
   * left behind, whatever the network says. That flag equals what the real
   * check returned unless the release lacked a publication time while an
   * earlier update was pending: then the first call says no and the repeat says yes.
   */
  lemma ThrottledRepeat(c: Checker, now: real, later: real, fetch: Fetch, fetch': Fetch, parseTime: string -> Option<real>)
    requires ShouldCheck(c, now) && now <= later < now + CheckInterval
    ensures var r := CheckForUpdates(c, now, fetch, parseTime);
      CheckForUpdates(r.0, later, fetch', parseTime) == (r.0, r.0.updateAvailable)
      && (r.0.updateAvailable == r.1 <==> !(Unpublished(fetch) && c.updateAvailable))
  {
    var r := CheckForUpdates(c, now, fetch, parseTime);
    assert !ShouldCheck(r.0, later);
  }

  /** A checker that has never found an update reports none for a release that is not newer than the build. */
  lemma NoUpdateFromOlderRelease(c: Checker, now: real, fetch: Fetch, parseTime: string -> Option<real>)
    requires fetch.Release? && fetch.publishedAt.Some? && parseTime(fetch.publishedAt.value).Some?
    requires parseTime(fetch.publishedAt.value).value <= c.currentVersion
    requires !c.updateAvailable
    ensures !CheckForUpdates(c, now, fetch, parseTime).1
    ensures !CheckForUpdates(c, now, fetch, parseTime).0.updateAvailable
  {
  }

  // ---------------------------------------------------------------- installing

  /** Names in the temporary folder that clearing it never removes. */
  const Preserved: seq<string> := ["settings.json", "Source2Viewer-win.exe", "Source2Viewer.exe", "update"]

  /** `_clear_temp_folder`: the entries of the folder it removes, in listing order; nothing when the folder is missing. */
  function ClearTempFolder(folderExists: bool, items: seq<string>): (removed: seq<string>)
    ensures !folderExists ==> removed == []
    ensures forall k :: 0 <= k < |removed| ==> removed[k] in items && removed[k] !in Preserved
    ensures folderExists ==> forall k :: 0 <= k < |items| && items[k] !in Preserved ==> items[k] in removed
    ensures |removed| <= |items|
  {
    if !folderExists || |items| == 0 then []
    else
      var rest := ClearTempFolder(folderExists, items[1..]);
      if items[0] in Preserved then rest else [items[0]] + rest
  }

  /** How `download_and_install_update` ends. */
  datatype InstallOutcome =
    | NoUpdate          // refused: no pending update or no download URL
    | DownloadFailed    // the download raised or left no file
    | NotFrozen(removed: seq<string>)
    | Launched(removed: seq<string>, newExe: string, currentExe: string)

  /** The folder the installer works in, under the system temporary directory. */
  function TempFolder(tempRoot: string): string {
    Paths.Join(tempRoot, ".cs2kz-mapping-tools")
  }

  /** Where the new executable is downloaded. */
  function DownloadPath(tempRoot: string): string {
    Paths.JoinAll(TempFolder(tempRoot), ["update", "CS2KZ-Mapping-Tools-new.exe"])
  }

  /**
   * `download_and_install_update`. `downloaded` says whether the download
   * produced a file; `items` is the listing of the temporary folder; `frozen`
   * carries the running executable's path when the tools run as a built
   * executable. The batch script and the process exit are the effects of `Launched`.
   */
  function DownloadAndInstall(c: Checker, tempRoot: string, downloaded: bool, folderExists: bool,
                              items: seq<string>, frozen: Option<string>): (out: InstallOutcome)
    ensures out.NoUpdate? <==> !c.updateAvailable || c.downloadUrl.None? || c.downloadUrl.value == ""
    ensures out.DownloadFailed? <==> !out.NoUpdate? && !downloaded
    ensures (out.NotFrozen? || out.Launched?) ==> "update" !in out.removed
    ensures (out.NotFrozen? || out.Launched?) ==> out.removed == ClearTempFolder(folderExists, items)
    ensures (out.NotFrozen? || out.Launched?) ==>
      forall x :: x in out.removed <==> folderExists && x in items && x !in Preserved
    ensures out.Launched? <==> !out.NoUpdate? && downloaded && frozen.Some?
    ensures out.Launched? ==> out.newExe == DownloadPath(tempRoot) && out.currentExe == frozen.value
  {
    if !c.updateAvailable || c.downloadUrl.None? || c.downloadUrl.value == "" then NoUpdate
    else if !downloaded then DownloadFailed
    else
      var removed := ClearTempFolder(folderExists, items);
      match frozen
      case None => NotFrozen(removed)
      case Some(exe) => Launched(removed, DownloadPath(tempRoot), exe)
  }

  /** A checker fresh from a successful check lets the installer past its guard when the asset has a URL. */
  lemma FoundUpdateIsInstallable(c: Checker, now: real, fetch: Fetch, parseTime: string -> Option<real>,
                                 tempRoot: string, downloaded: bool, folderExists: bool,
                                 items: seq<string>, frozen: Option<string>)
    requires ShouldCheck(c, now)
    requires CheckForUpdates(c, now, fetch, parseTime).1
    requires var i := FirstTarget(fetch.assets, c.isConsole).value;
      fetch.assets[i].downloadUrl.Some? && fetch.assets[i].downloadUrl.value != ""
    ensures !DownloadAndInstall(CheckForUpdates(c, now, fetch, parseTime).0, tempRoot, downloaded, folderExists, items, frozen).NoUpdate?
  {
  }
}

=== FILE: vtf2png.dfy ===
/**
 * The VTF-to-PNG batch converter: one VTFCmd run per file, the PNG expected
 * where VTFCmd writes it, and the per-file report and counts of a batch. The
 * converter process, the file system and `os.path.abspath` are inputs.
 */
module Vtf2Png {
  import opened Wrappers
  import opened Text
  import Paths

  /** The converter found at start-up: whether importing it worked, and the path of VTFCmd.exe. */
  datatype Tool = Tool(imported: bool, vtfcmdPath: Option<string>)

  /** What a VTFCmd run reports. */
  datatype RunResult = RunResult(returnCode: int, stderr: string)

  /**
   * The world a conversion sees: `abs` is `os.path.abspath`, `present` says
   * which paths exist after the run, and `run` gives the outcome of a command
   * line, or the message of what it raised.
   */
  datatype Env = Env(abs: string -> string, present: string -> bool, run: seq<string> -> Result<RunResult, string>)

  /** `VTF_SUPPORT and VTFCMD_PATH`: the converter can be used. */
  predicate Available(t: Tool) {
    t.imported && t.vtfcmdPath.Some? && t.vtfcmdPath.value != ""
  }

  const NotAvailable: string := "VTFCmd.exe is not available"

  /** `str(n)` for any integer. */
  function IntToDecimal(n: int): string {
    if n < 0 then "-" + NatToDecimal(-n) else NatToDecimal(n)
  }

  /** `os.path.dirname(p) or '.'` */
  function DirOrDot(p: string): string {
    var d := Paths.Dirname(p);
    if d == "" then "." else d
  }

  /** The PNG VTFCmd writes for `vtf` into `dir`: the VTF's stem with `.png`. */
  function ExpectedPng(dir: string, vtf: string): string {
    Paths.Join(dir, Paths.Stem(vtf) + ".png")
  }

  /** The command line for one conversion into `outDir`. */
  function Command(vtfcmd: string, absVtf: string, outDir: string): seq<string> {
    [vtfcmd, "-file", absVtf, "-output", outDir, "-exportformat", "png"]
  }

  /** The folder the PNG goes to: the output path's folder when one is given, the VTF's own otherwise. */
  function OutputDir(vtf: string, outputPath: Option<string>): string {
    if outputPath.None? then DirOrDot(vtf) else DirOrDot(outputPath.value)
  }

  /**
   * `convert_vtf_to_png`: success with the PNG's path, or failure with a
   * message. Only the folder of `outputPath` matters: VTFCmd names the PNG
   * after the VTF.
   */
  function ConvertOne(t: Tool, env: Env, vtf: string, outputPath: Option<string>): (r: (bool, string))
    ensures !Available(t) ==> r == (false, NotAvailable)
    ensures r.0 ==>
      var outDir := env.abs(OutputDir(vtf, outputPath));
      Available(t)
      && env.present(Paths.Join(Paths.Dirname(t.vtfcmdPath.value), "VTFLib.dll"))
      && env.run(Command(t.vtfcmdPath.value, env.abs(vtf), outDir)).Ok? && env.run(Command(t.vtfcmdPath.value, env.abs(vtf), outDir)).value.returnCode == 0
      && r.1 == ExpectedPng(outDir, vtf) && env.present(r.1)
    ensures
      var outDir := env.abs(OutputDir(vtf, outputPath));
      (Available(t)
       && env.present(Paths.Join(Paths.Dirname(t.vtfcmdPath.value), "VTFLib.dll"))
       && env.run(Command(t.vtfcmdPath.value, env.abs(vtf), outDir)).Ok? && env.run(Command(t.vtfcmdPath.value, env.abs(vtf), outDir)).value.returnCode == 0
       && env.present(ExpectedPng(outDir, vtf))) ==> r.0
  {
    if !Available(t) then (false, NotAvailable)
    else
      var vtfcmd := t.vtfcmdPath.value;
      var outDir := env.abs(OutputDir(vtf, outputPath));
      var dll := Paths.Join(Paths.Dirname(vtfcmd), "VTFLib.dll");
      if !env.present(dll) then (false, "VTFLib.dll not found at: " + dll)
      else
        match env.run(Command(vtfcmd, env.abs(vtf), outDir))
        case Err(e) => (false, "Conversion error: " + e)
        case Ok(res) =>
          if res.returnCode != 0 then
            var msg := if res.stderr != "" then res.stderr
                       else "VTFCmd.exe failed with return code " + IntToDecimal(res.returnCode);
            (false, "Conversion error: " + msg)
          else
            var png := ExpectedPng(outDir, vtf);
            if env.present(png) then (true, png) else (false, "Output file was not created")
  }

  /** A non-zero exit status is a failure whatever files exist. */
  lemma NonZeroExitFails(t: Tool, env: Env, vtf: string, outputPath: Option<string>, rc: int, err: string)
    requires Available(t) && rc != 0
    requires env.run(Command(t.vtfcmdPath.value, env.abs(vtf), env.abs(OutputDir(vtf, outputPath)))) == Ok(RunResult(rc, err))
    ensures !ConvertOne(t, env, vtf, outputPath).0
    ensures env.present(Paths.Join(Paths.Dirname(t.vtfcmdPath.value), "VTFLib.dll")) ==>
      StartsWith(ConvertOne(t, env, vtf, outputPath).1, "Conversion error: ")
  {
  }

  // ---------------------------------------------------------------- batches

  /** The chosen output directory, if it is a non-empty path. */
  predicate Truthy(s: Option<string>) { s.Some? && s.value != "" }

  /** The output path `convert_files` passes for `vtf`: the stem with `.png` in the chosen folder, or none. */
  function OutputPathFor(vtf: string, outputDir: Option<string>): Option<string> {
    if Truthy(outputDir) then Some(Paths.Join(outputDir.value, Paths.Stem(vtf) + ".png")) else None
  }

  /** The result for one file of a batch. */
  function FileResult(t: Tool, env: Env, vtf: string, outputDir: Option<string>): (bool, string) {
    ConvertOne(t, env, vtf, OutputPathFor(vtf, outputDir))
  }

  /** The result of every file of a batch, in order. */
  function Outcomes(t: Tool, env: Env, files: seq<string>, outputDir: Option<string>): (outs: seq<(bool, string)>)
    ensures |outs| == |files|
  {
    if |files| == 0 then []
    else Outcomes(t, env, files[..|files| - 1], outputDir) + [FileResult(t, env, files[|files| - 1], outputDir)]
  }

  /** The `k`-th result is the `k`-th file's. */
  lemma {:induction false} OutcomesAt(t: Tool, env: Env, files: seq<string>, outputDir: Option<string>, k: nat)
    requires k < |files|
    ensures Outcomes(t, env, files, outputDir)[k] == FileResult(t, env, files[k], outputDir)
    decreases |files|
  {
    if k < |files| - 1 {
      var init := files[..|files| - 1];
      OutcomesAt(t, env, init, outputDir, k);
      assert init[k] == files[k];
    }
  }

  /** The report line for one file. */
  function ReportLine(vtf: string, r: (bool, string)): string {
    if r.0 then "[OK] " + Paths.Basename(vtf) + " -> " + Paths.Basename(r.1)
    else "[FAIL] " + Paths.Basename(vtf) + ": " + r.1
  }

  /** The report: one line per file and result. */
  function Reports(files: seq<string>, outs: seq<(bool, string)>): (lines: seq<string>)
    requires |outs| == |files|
    ensures |lines| == |files|
  {
    if |files| == 0 then []
    else Reports(files[..|files| - 1], outs[..|outs| - 1]) + [ReportLine(files[|files| - 1], outs[|outs| - 1])]
  }

  /** The `k`-th report line describes the `k`-th file and its result. */
  lemma {:induction false} ReportsAt(files: seq<string>, outs: seq<(bool, string)>, k: nat)
    requires |outs| == |files| && k < |files|
    ensures Reports(files, outs)[k] == ReportLine(files[k], outs[k])
    decreases |files|
  {
    var n := |files| - 1;
    var init := Reports(files[..n], outs[..n]);
    assert Reports(files, outs) == init + [ReportLine(files[n], outs[n])];
    if k < n {
      ReportsAt(files[..n], outs[..n], k);
      assert files[..n][k] == files[k] && outs[..n][k] == outs[k];
      assert Reports(files, outs)[k] == init[k];
    } else {
      assert |init| == k;
    }
  }

  /** Extending a batch by one file extends its report by that file's line. */
  lemma ReportsSnoc(files: seq<string>, outs: seq<(bool, string)>, i: nat)
    requires |outs| == |files| && i < |files|
    ensures Reports(files[..i + 1], outs[..i + 1]) == Reports(files[..i], outs[..i]) + [ReportLine(files[i], outs[i])]
  {
    assert files[..i + 1][..i] == files[..i];
    assert outs[..i + 1][..i] == outs[..i];
  }

  /** How many results are successes. */
  function CountOk(outs: seq<(bool, string)>): (n: nat)
    ensures n <= |outs|
  {
    if |outs| == 0 then 0
    else CountOk(outs[..|outs| - 1]) + (if outs[|outs| - 1].0 then 1 else 0)
  }

  /** Extending the results by one adds one to the count exactly when the new result is a success. */
  lemma CountOkSnoc(outs: seq<(bool, string)>, i: nat)
    requires i < |outs|
    ensures CountOk(outs[..i + 1]) == CountOk(outs[..i]) + (if outs[i].0 then 1 else 0)
  {
    assert outs[..i + 1][..i] == outs[..i];
  }

  /** Nothing succeeds when every result is a failure. */
  lemma {:induction false} CountOkNone(outs: seq<(bool, string)>)
    requires forall k :: 0 <= k < |outs| ==> !outs[k].0
    ensures CountOk(outs) == 0
    decreases |outs|
  {
    if |outs| > 0 {
      CountOkNone(outs[..|outs| - 1]);
    }
  }

  /** The folder reported to the user: the chosen one, or else the first file's folder. */
  function ActualOutputDir(files: seq<string>, outputDir: Option<string>): Option<string> {
    if outputDir.Some? || |files| == 0 then outputDir else Some(Paths.Dirname(files[0]))
  }

  /** The counts and report lines for results `outs` of `files`. */
  method Tally(files: seq<string>, outs: seq<(bool, string)>)
      returns (converted: nat, failed: nat, results: seq<string>)
    requires |outs| == |files|
    ensures converted + failed == |files|
    ensures converted == CountOk(outs)
    ensures results == Reports(files, outs)
  {
    converted, failed, results := 0, 0, [];
    for i := 0 to |files|
      invariant converted + failed == i
      invariant converted == CountOk(outs[..i])
      invariant results == Reports(files[..i], outs[..i])
    {
      ReportsSnoc(files, outs, i);
      CountOkSnoc(outs, i);
      results := results + [ReportLine(files[i], outs[i])];
      if outs[i].0 {
        converted := converted + 1;
      } else {
        failed := failed + 1;
      }
    }
    assert files[..|files|] == files && outs[..|files|] == outs;
  }

  /**
   * `convert_files`: convert every file in order, one report line each,
   * counting successes and failures.
   */
  method ConvertFiles(t: Tool, env: Env, files: seq<string>, outputDir: Option<string>)
      returns (converted: nat, failed: nat, results: seq<string>, actualDir: Option<string>)
    ensures converted + failed == |files|
    ensures converted == CountOk(Outcomes(t, env, files, outputDir))
    ensures results == Reports(files, Outcomes(t, env, files, outputDir))
    ensures actualDir == ActualOutputDir(files, outputDir)
  {
    var outs: seq<(bool, string)> := [];
    actualDir := outputDir;
    for i := 0 to |files|
      invariant outs == Outcomes(t, env, files[..i], outputDir)
      invariant actualDir == ActualOutputDir(files[..i], outputDir)
    {
      var vtf := files[i];
      if !Truthy(outputDir) && actualDir.None? {
        actualDir := Some(Paths.Dirname(vtf));
      }
      assert files[..i + 1][..i] == files[..i];
      outs := outs + [FileResult(t, env, vtf, outputDir)];
    }
    assert files[..|files|] == files;
    converted, failed, results := Tally(files, outs);
  }

  /** Without a usable converter every file of a batch fails with the same message. */
  lemma UnavailableBatchFails(t: Tool, env: Env, files: seq<string>, outputDir: Option<string>)
    requires !Available(t)
    ensures CountOk(Outcomes(t, env, files, outputDir)) == 0
    ensures forall k :: 0 <= k < |files| ==> Outcomes(t, env, files, outputDir)[k] == (false, NotAvailable)
  {
    forall k | 0 <= k < |files|
      ensures Outcomes(t, env, files, outputDir)[k] == (false, NotAvailable)
    {
      OutcomesAt(t, env, files, outputDir, k);
    }
    CountOkNone(Outcomes(t, env, files, outputDir));
  }

  /** Joining a plain file name onto a plain folder and taking the folder back gives the folder. */
  lemma DirnameOfJoin(d: string, name: string)
    requires d != "" && !EndsWith(d, [Paths.Sep]) && Paths.IsRelativeComponent(name)
    ensures Paths.Dirname(Paths.Join(d, name)) == d
  {
    var p := Paths.Join(d, name);
    assert p == d + [Paths.Sep] + name;
    assert p[|d|] == Paths.Sep;
    assert forall j :: |d| < j < |p| ==> p[j] == name[j - |d| - 1];
    var i := RFind(p, Paths.Sep);
    assert i == |d|;
    var head := p[..i + 1];
    assert head == d + [Paths.Sep];
    assert head[|d| - 1] != Paths.Sep;
    assert head[|d|] == Paths.Sep;
    var r := Paths.RStripChar(head, Paths.Sep);
    assert |r| == |d|;
  }

  /**
   * With a chosen plain folder, every PNG of the batch goes into that
   * folder (as made absolute) and is named after its VTF.
   */
  lemma BatchWritesIntoChosenFolder(t: Tool, env: Env, vtf: string, dir: string)
    requires dir != "" && !EndsWith(dir, [Paths.Sep]) && Paths.Sep !in Paths.Stem(vtf)
    requires FileResult(t, env, vtf, Some(dir)).0
    ensures FileResult(t, env, vtf, Some(dir)).1 == ExpectedPng(env.abs(dir), vtf)
  {
    var name := Paths.Stem(vtf) + ".png";
    assert Paths.IsRelativeComponent(name);
    DirnameOfJoin(dir, name);
  }

  /** Without a chosen folder, each PNG goes next to its VTF. */
  lemma DefaultWritesBesideVtf(t: Tool, env: Env, vtf: string)
    requires FileResult(t, env, vtf, None).0
    ensures FileResult(t, env, vtf, None).1 == ExpectedPng(env.abs(DirOrDot(vtf)), vtf)
  {
  }
}

=== FILE: wrappers.dfy ===
/** Failure-compatible result types shared by every module of the model. */
module Wrappers {

  /** An optional value; stands for Python's `None`-or-value returns. */
  datatype Option<+T> = None | Some(value: T) {
    function GetOr(default: T): T {
      match this
      case Some(v) => v
      case None => default
    }
  }

  /** A value or an error; stands for the error paths (early returns, caught exceptions). */
  datatype Result<+R, +E> = Ok(value: R) | Err(error: E) {
    predicate IsFailure() {
      Err?
    }

    function PropagateFailure<U>(): Result<U, E>
      requires Err?
    {
      Err(error)
    }

    function Extract(): R
      requires Ok?
    {
      value
    }
  }
}
